=== FILE: README.md ===
# festoon bridge core in Dafny

festoon connects a DPDK application to a Verilator simulation of an Ethernet
MAC. Packets cross the boundary as XGMII lane words in the 8-lane form of
IEEE 802.3 Clause 46. Each word is one control byte plus eight data bytes.
Control bit k marks data byte k ("lane k") as a control character: /S/ 0xFB,
/T/ 0xFD or /I/ 0x07.

This project models the core of the bridge as pure functions over immutable
data:

- `Lanes`: the lane word and the three fixed words (start, end, idle).
- `Ring`: an `rte_ring` as a bounded FIFO whose burst enqueue accepts as many
  items as fit.
- `XgmiiEncoder`: `mbuf_to_xgmii`, from a dequeued burst of packet buffers to
  lane words.
- `XgmiiDecoder`: `xgmii_to_mbuf`, the lane decoder state machine with its
  output accounting.
- `XgmiiRoundTrip`: the decoder's answer to every kind of word the encoder
  emits, and the round trip of a packet, a burst and a whole call.
- `XgmiiFindings`: the codec as written, where it departs from its evident
  intent, with a lemma that exhibits each departure.
- `Top`: the co-simulation clock of `init_verilated_top` and
  `verilator_top_worker`. The Verilated model is an abstract record whose
  `eval` is an oracle.
- `CString`: `strchr`, glibc `strtoul` and `rte_strsplit`, as far as the
  configuration parser uses them.
- `Config`, `ConfigRoundTrip` and `ConfigSlots`: `parse_unsigned` and
  `parse_config`, the round trip of the `--config` syntax, and the int_fld
  slot finding.
- `Validate`: `validate_parameters`.
- `Kni`: `kni_burst_free_mbufs`, `kni_egress` and `kni_ingress`, with the
  per-port statistics.
- `Worker`: the role choice and worker loop of `main_loop`, `signal_handler`,
  and the pause counter of the two KNI callbacks.

A value a DPDK call returns, such as a dequeued burst, the packets a KNI
device hands over, or whether a port id is valid, is a parameter of the
operation. Every enqueue goes through `Ring.EnqueueBurst`, so the overrun
guards and the back-pressure paths are reachable.

The decoder carries five fixes, and the model keeps them:

- It reads the dequeued words (`xgm_buf`), where the source reads the fresh
  output buffers (`pkts_burst`). This fix has no row under "## Findings".
  The source would then decode whatever the newly allocated buffers happen
  to hold, and nothing in the repository determines that, so no input of
  the call fixes the outcome.
- It visits all eight lanes, where the source visits `sizeof(CData)` = 1.
- It tests the in-frame flag, where the source tests the pointer to it.
- It enqueues the packets closed in the call. The source enqueues all
  PKT_BURST_SZ buffers it allocated, slot 0 first, and never sets their
  length.
- Its word index is as wide as the dequeued count. The source's is a
  `uint8_t`, so a dequeue of 256 words or more never ends the loop.

The source throws `std::logic_error` on a protocol violation. The model
returns an error result instead.

The encoder masks a short final data word. Lanes past the end of the packet
become control lanes holding /I/. The source leaves this as a TODO and sends
the word unmasked.

In three places the code and its description disagree, and the model follows
the code:

- The decoder keeps the six preamble octets and the SFD of the start word.
  They sit in data lanes, so a packet p comes back as `Preamble + p`, not
  as p.
- An empty dequeue in the encoder produces no words. Only a dequeue count
  above PKT_BURST_SZ produces the idle word.
- An empty packet still produces a start word and an end word.

## Model

| member | source | states |
|---|---|---|
| Lanes.StartWord | wrapper/festoon_xgmii.cpp:41-45 | The start word has /S/ in lane 0 as its only control lane, followed by six 0x55 preamble octets and the 0xD5 SFD as data. |
| Lanes.EndWord | wrapper/festoon_xgmii.cpp:58-62 | The end word has /T/ in lane 0 and /I/ in lanes 1..7, and every lane is a control lane. |
| Lanes.IdleWord | wrapper/festoon_xgmii.cpp:30-34 | The overrun word carries 0x07 in all eight lanes, each marked as data (control byte 0). |
| Lanes.QDataRoundTrip | wrapper/rte_top.h:8-11 | Storing a 64-bit QData and reading its eight little-endian lanes back gives the same value. |
| Ring.EnqueueBurst | wrapper/festoon_xgmii.cpp:67-68 | A burst enqueue takes the longest prefix that fits: all items, or exactly as many as there is free room, appended after the items already queued. |
| Ring.BackPressure | wrapper/festoon_kni.cpp:64-72 | A burst of capacity + extra items offered to an empty ring has exactly capacity items accepted and extra left over. |
| Ring.FifoOrder | wrapper/festoon_xgmii.cpp:94-95 | Items a burst enqueue puts behind the current contents come out of a later burst dequeue after those contents, in their own order. |
| XgmiiEncoder.EncodeFrame | wrapper/festoon_xgmii.cpp:41-62 | A packet of L bytes becomes 2 + ceil(L/8) words: the start word, its data words and the end word. |
| XgmiiEncoder.DataWords | wrapper/festoon_xgmii.cpp:47-56 | Data word k is eight data lanes holding packet bytes [8k, 8k+8) whenever those bytes exist, and there are ceil(L/8) words. |
| XgmiiEncoder.DataWordsTail | wrapper/festoon_xgmii.cpp:47-56 | When L is not a multiple of 8, the last data word holds the last L mod 8 bytes in its low lanes and /I/ control characters in the others. |
| XgmiiEncoder.EncodeBurst | wrapper/festoon_xgmii.cpp:27-64 | A dequeue count above PKT_BURST_SZ gives exactly one idle word. Otherwise the burst gives the sum of 2 + ceil(L/8) over its non-null packets, and a burst of nulls gives nothing. |
| XgmiiEncoder.EncodeFramesAppend | wrapper/festoon_xgmii.cpp:37-63 | Encoding two bursts one after the other gives the two encodings concatenated, so frames appear in dequeue order. |
| XgmiiEncoder.MbufToXgmii | wrapper/festoon_xgmii.cpp:13-80 | One call enqueues the longest prefix of the burst's words that fits the ring. It releases every dequeued packet buffer and exactly the refused words, and the accepted and dropped counts add up to the words built. |
| XgmiiDecoder.DecodeWordsKeepsIndex | wrapper/festoon_xgmii.cpp:109-135 | The write index rte_pkt_index always equals the length of the packet being assembled while in frame, and is 0 out of frame, so the indexed write is an append. |
| XgmiiDecoder.DecodeWordsBalance | wrapper/festoon_xgmii.cpp:119-135 | Over any words, the packets closed plus the one still open equal the slots opened plus the frame the call started in, because each /S/ opens a slot and each /T/ closes the open packet. |
| XgmiiDecoder.SlotZeroUnused | wrapper/festoon_xgmii.cpp:119-135 | From out of frame, no closed packet is written into slot 0, the first buffer the source enqueues. |
| XgmiiDecoder.XgmiiToMbuf | wrapper/festoon_xgmii.cpp:82-166 | Corrected call. An empty or over-long dequeue returns with nothing changed. A violation is an error. A call with no /S/ enqueues nothing. Otherwise the closed packets are offered in order and the ring takes all of them or fills up. The refused ones are released and the dequeued words are freed. |
| XgmiiRoundTrip.DataWordInFrame | wrapper/festoon_xgmii.cpp:109-116 | In frame, a word with every control bit clear appends its eight bytes to the packet. |
| XgmiiRoundTrip.DataWordOutOfFrame | wrapper/festoon_xgmii.cpp:109-116 | Out of frame, a data word, the idle word included, changes nothing. |
| XgmiiRoundTrip.ControlWordIgnored | wrapper/festoon_xgmii.cpp:136-143 | A word whose lanes are all control characters other than /S/ and /T/ changes nothing. |
| XgmiiRoundTrip.StartWordOpens | wrapper/festoon_xgmii.cpp:119-126 | Out of frame, the start word opens a frame in a fresh output slot whose packet begins with the preamble and SFD. |
| XgmiiRoundTrip.StartWordInFrame | wrapper/festoon_xgmii.cpp:119-123 | In frame, the start word is the "Multiple packet starts" violation. |
| XgmiiRoundTrip.EndWordCloses | wrapper/festoon_xgmii.cpp:127-135 | In frame, the end word closes the packet, clears the flag and resets the index. |
| XgmiiRoundTrip.EndWordOutOfFrame | wrapper/festoon_xgmii.cpp:127-132 | Out of frame, the end word is the "Multiple end of packet" violation. |
| XgmiiRoundTrip.FrameRoundTrip | wrapper/festoon_xgmii.cpp:41-62 | Decoding the words of one packet p from out of frame closes exactly one packet, `Preamble + p`, in one new slot, and ends out of frame. |
| XgmiiRoundTrip.BurstRoundTrip | wrapper/festoon_xgmii.cpp:37-63 | Decoding the words of a burst closes the non-null packets of the burst, in order, each behind the preamble, and ends out of frame. |
| XgmiiRoundTrip.CallRoundTrip | wrapper/festoon_xgmii.cpp:82-166 | Suppose one encoder call is followed by one decoder call that dequeues all of its words. Then the decoder offers exactly the burst's non-null packets, each behind the preamble, in order. The ring keeps the prefix it accepts, which is all of them unless the ring is full. The rest are released, and the call ends out of frame. |
| XgmiiRoundTrip.NoStartNoOutput | wrapper/festoon_xgmii.cpp:148-150 | A call whose words hold no /S/ enqueues nothing and releases nothing. Only the in-frame flag may change. |
| XgmiiFindings.UnmaskedTailRoundTrip | wrapper/festoon_xgmii.cpp:47-56 | With the unmasked final word as written, the decoder returns the packet followed by the bytes that lie past its end in memory. |
| XgmiiFindings.UnmaskedTailExample | wrapper/festoon_xgmii.cpp:47-56 | A one-byte packet sent with the code as written arrives as eight bytes after the preamble. |
| XgmiiFindings.PointerTestRejectsEveryFrame | wrapper/festoon_xgmii.cpp:119-123 | When the decoder tests the pointer, every frame the encoder produces is rejected at its start word, in any state. |
| XgmiiFindings.LaneZeroLosesBytes | wrapper/festoon_xgmii.cpp:104-107 | When the decoder looks at lane 0 only, a packet of 1 to 8 bytes arrives as its first byte alone, while the eight-lane decoder returns all of it. |
| XgmiiFindings.FreedWordsExample | wrapper/festoon_xgmii.cpp:75-78 | One 8-byte packet offered to a full ring builds three refused words, but the code as written frees only one of them. |
| XgmiiFindings.XgmiiToMbufAsWritten | wrapper/festoon_xgmii.cpp:100-165 | As written, a call past the early returns offers the allocated buffers in slot order from slot 0, each of data length 0. The ring takes all 32 or fills up. The freed slots are nb_tx up to the number of dequeued words, nb_rx - nb_tx of them when nb_tx < nb_rx. A call with no /S/ changes neither the ring nor frees anything. |
| XgmiiFindings.OnePacketAsWritten | wrapper/festoon_xgmii.cpp:100-154 | For one packet p decoded from out of frame into an empty ring, the corrected call enqueues `Preamble + p`. The code as written enqueues up to 32 zero-length buffers, slot 0 first, while p went to slot 1. |
| XgmiiFindings.WordLoopNeverEnds | wrapper/festoon_xgmii.cpp:85-104 | As written, the word index is a uint8_t, so for a dequeue of 256 words or more it wraps to 0 before it reaches nb_rx and the loop never ends, however many iterations are allowed. |
| XgmiiFindings.WordLoopVisitsAll | wrapper/festoon_xgmii.cpp:104 | With an index as wide as nb_rx, the word loop ends after exactly nb_rx iterations for any nb_rx. The loop as written does the same while nb_rx is below 256. |
| Top.ClkStep | wrapper/festoon_top.cpp:25-31 | The clock at each start-up tick follows from the previous tick by the two toggle rules: set on 1 mod 10 and cleared on 6 mod 10. |
| Top.InitVerilatedTop | wrapper/festoon_top.cpp:12-36 | Start-up runs exactly 51 ticks with one eval each and leaves the tick counter at 51. Reset is 0 on ticks 0..30 and 1 afterwards, and the clock is high exactly on residues 1..5 mod 10. |
| Top.VerilatorTopWorker | wrapper/festoon_top.cpp:39-76 | A finished model is left alone. An unfinished call advances the counter by 10 with 10 evals. From a tick that is 1 mod 10, the call captures the wires into the transmit rings and then latches the next receive entries. |
| Top.SteadyRun | wrapper/festoon_top.cpp:45-75 | The same properties, stated for the recursive tick function the method runs. |
| Top.TicksSplit | wrapper/festoon_top.cpp:45-75 | Running m + n ticks is running m ticks and then n ticks. |
| Top.FinishedStays | wrapper/festoon_top.cpp:46 | Once the model has finished, any number of worker calls leaves everything unchanged. |
| Top.Loopback | wrapper/festoon_top.cpp:48-71 | Over k calls after start-up, the transmit rings receive the wires as they were, then the received entries in FIFO order. The receive rings lose k entries, and the wires hold the last entry taken. |
| CString.DigitsConvert | wrapper/main.cpp:331 | strtoul reads back the decimal or hex digits of any value below 2^64 exactly, up to the first non-digit. A larger value saturates with ERANGE. |
| CString.SplitJoin | wrapper/main.cpp:387 | rte_strsplit returns the tokens joined by the delimiter, provided they are free of it, the last is non-empty and there are at most max of them. |
| Config.ParseUnsignedHex | wrapper/main.cpp:327-336 | A mask written in hex parses to its low 32 bits. A value of 2^64 or more saturates first. |
| Config.ParseUnsignedPrefixedHex | wrapper/main.cpp:327-336 | The same holds with the "0x" prefix. |
| Config.ParseUnsignedNonZero | wrapper/main.cpp:331-333 | A non-zero result comes only from a non-empty string whose last character is a hex digit: the empty string and any trailing non-hex character give 0. |
| Config.ConvertTokens | wrapper/main.cpp:392-399 | The token loop succeeds exactly when every token converts, fails with BadNumber otherwise, and writes token i's value into slot i while leaving later slots alone. |
| Config.NewPort | wrapper/main.cpp:412-435 | The entry takes the port id from slot 0 cut to 16 bits, and the nine lcore ids eth_rx, eth_tx, kni_rx, kni_tx, eth_mii_rx, eth_mii_tx, kni_mii_rx, kni_mii_tx and vtop from slots 1..9 in that order, each cut to 8 bits. The remaining tokens become the kernel-thread lcores, and nb_lcore_k is their count. |
| Config.AddPort | wrapper/main.cpp:401-432 | Fails with PortOutOfRange exactly when slot 0 cut to 16 bits is RTE_MAX_ETHPORTS or more. Fails with PortConfigured exactly when that port is in range and taken. Fails with LcoreOutOfRange exactly when it is free but slot 8 or 9 cut to 8 bits is RTE_MAX_LCORE or more. Otherwise the new entry is stored at its port and nothing else changes. |
| Config.ParseGroupsWellFormed | wrapper/main.cpp:376-436 | Every entry of a successful parse sits at its own port id with in-range lcore ids. |
| Config.RefusedGroupFails | wrapper/main.cpp:379-432 | A group that is too long, has too few tokens, holds a token that does not convert, or names a port id of 32 or more or a kni_mii_tx or vtop lcore of 128 or more fails to parse, whatever the table and the slots hold. |
| Config.ParseGroupsFails | wrapper/main.cpp:376-432 | The group loop fails when the argument ends inside an unclosed group, or when any group is refused, whatever the groups before it hold. A group is refused when it is 256 characters or more, has too few tokens, holds a token strtoul does not convert, or, with every token converted, names a port id of 32 or more or a kni_mii_tx or vtop lcore of 128 or more. |
| Config.ParseConfigFails | wrapper/main.cpp:376-449 | parse_config fails, and leaves every port unconfigured, on an unclosed '(' or on a group that is too long, lacks any of the ten leading tokens, holds a token that does not convert, or names a port or a checked lcore out of range. |
| Config.ParseConfig | wrapper/main.cpp:360-450 | Corrected parse_config, in which every group must carry all ten leading tokens. A successful parse gives a well-formed table. |
| ConfigRoundTrip.GroupRoundTrip | wrapper/main.cpp:386-435 | Parsing the decimal text of an entry's group stores exactly that entry at its port id, whatever the int_fld slots held before, provided the port is free. |
| ConfigRoundTrip.ConfigRoundTrip | wrapper/main.cpp:360-450 | Writing out groups for distinct ports and parsing the result succeeds. The table holds every entry at its port id and nothing at the other ports. |
| ConfigSlots.ParseConfigIgnoresSlots | wrapper/main.cpp:388-423 | With ten tokens required, the outcome of the parse does not depend on what the int_fld slots held at the start. |
| ConfigSlots.ShortGroupReadsStaleSlots | wrapper/main.cpp:388-423 | Parsed as written, the group "(0,1,2)" takes seven of its nine lcore ids from slots no token wrote. Whether it succeeds depends on two of those slots. |
| ConfigSlots.StaleSlotsChangeOutcome | wrapper/main.cpp:388-432 | Two runs of the parse as written that differ only in the uninitialised slot 9 end differently: one configures port 0, the other fails. |
| ConfigSlots.ShortGroupRejected | wrapper/main.cpp:388-391 | The corrected parse refuses "(0,1,2)" as having too few fields, whatever the slots held. |
| Validate.ValidateParameters | wrapper/main.cpp:452-486 | A zero mask is refused first. Any other failure names the first port that fails a check, and every port before it passes all three checks. |
| Validate.ValidateIff | wrapper/main.cpp:452-486 | Validation succeeds exactly when the mask is non-zero, its set bits are exactly the configured ports, and every configured port has both Ethernet lcores enabled. |
| Kni.BurstFreeMbufs | wrapper/festoon_common.cpp:8-17 | A null array is a no-op. Otherwise the first num entries become null, the rest are unchanged, and exactly the non-null handles among the first num are released, in index order. |
| Kni.PresentAll | wrapper/festoon_common.cpp:13-16 | Releasing a burst of non-null handles releases exactly those handles. |
| Kni.OfferBurst | wrapper/festoon_kni.cpp:29-38 | One device's burst: the queue takes the longest prefix that fits, exactly the refused suffix is released, and the packets and dropped counters grow by those two counts. |
| Kni.CountSteps | wrapper/festoon_kni.cpp:30-38 | The two guarded counter updates of the loop body, each skipped when its count is 0, amount to counting the accepted and the dropped packets at once. |
| Kni.KniEgress | wrapper/festoon_kni.cpp:8-40 | A null port does nothing. Each device's kernel queue gains the prefix it accepted and the refused suffixes are released. A burst above PKT_BURST_SZ ends the loop. Every kernel queue stays within its capacity. Only kni_rx_packets and kni_rx_dropped of the port change, by the packets passed and released. |
| Kni.KniIngress | wrapper/festoon_kni.cpp:43-74 | A null port does nothing. The ring gains the accepted prefixes of the devices' bursts, in device order, and the refused suffixes are released. Each device's burst is taken whole, or the ring is full after it. A burst above PKT_BURST_SZ ends the loop. Only kni_tx_packets and kni_tx_dropped of the port change. |
| Kni.Conservation | wrapper/festoon_kni.cpp:29-38 | No packet is lost or made up: the packets passed on and the packets released are together, as a multiset, the packets of the handled bursts. |
| Kni.CountsAddUp | wrapper/festoon_kni.cpp:30-38 | Hence the packets and dropped counters together grow by exactly the number of packets handled. |
| Worker.Match | wrapper/main.cpp:155-189 | For one entry, the chosen job is the one whose lcore field equals the lcore's 8-bit id, with no earlier field in the comparison order equal. No job means no field matches. |
| Worker.SelectRole | wrapper/main.cpp:154-190 | An lcore is idle exactly when no configured port's entry names it. Otherwise it serves the first such port in device order, with that port's first matching job. |
| Worker.RoleOfIsFirstMatch | wrapper/main.cpp:154-190 | The recursive role definition picks the same first matching port and job as the loop. |
| Worker.RunWorker | wrapper/main.cpp:196-204 | The worker exits at the first load with a non-zero stop, and works on exactly the loads before it with both counters zero. |
| Worker.PausedWorkersIdle | wrapper/main.cpp:197-202 | While the pause counter is non-zero, a worker does no work. |
| Worker.SignalHandler | wrapper/main.cpp:110-133 | SIGUSR2 zeroes every port's statistics and leaves the stop counter alone. SIGRTMIN, SIGINT and SIGTERM add one to the stop counter modulo 2^32 and leave the statistics alone. SIGUSR1 and other signals change nothing. |
| Worker.StopSignalStopsWorkers | wrapper/main.cpp:127-132 | After a stop signal from a zero counter, every worker exits at its next load. |
| Worker.ResetThenCount | wrapper/main.cpp:117-121 | After SIGUSR2, a port's packets and dropped counters for a direction equal exactly the traffic counted since, and the other direction's packets counter is 0. |
| Worker.KniChangeMtu | wrapper/main.cpp:798-806 | The callback returns the reconfiguration's result, runs it with the pause counter raised, and restores the counter. |
| Worker.KniConfigNetworkInterface | wrapper/main.cpp:809-847 | An invalid port gets -EINVAL and the pause counter is never touched. Otherwise the port is stopped, and started again for if_up, with the pause counter raised. The first failure is returned, and the counter is restored on every path. |
| Worker.CallbacksBalanced | wrapper/main.cpp:798-847 | After any sequence of callbacks, the pause counter is back at its starting value, so the workers resume. |
| Worker.CallbackPausesWorkers | wrapper/main.cpp:798-841 | From an idle pause counter, a callback that touches the port holds every worker in its spin while it runs. |

## Left out

- DPDK and KNI plumbing is not modelled: EAL and port initialisation, MTU reconfiguration internals, KNI allocation and release, link-status polling, `rte_kni_handle_request`, and all printing and logging. What these calls return is a parameter.
- Threads, lcore launch and the atomic operations are not modelled. Stop and pause are plain values, and one worker step is taken at a time.
- Mempool allocation (`rte_pktmbuf_alloc_bulk`) is not modelled. It is assumed to return the requested buffers.
- The Verilated model's logic and `Verilated::gotFinish` are foreign code. They are an oracle on an abstract internal state.
- `get_kni_stats` always returns the one module-level array. Here that array is the explicit `StatsTable` parameter.
- wrapper/params.h and wrapper/festoon_common.h declare conflicting statistics structs. The model uses the field names of wrapper/festoon_common.h.
- wrapper/festoon_eth.cpp is not part of this model. It is a thin wrapper over NIC burst calls whose counters are commented out.
- wrapper/rte_top.cpp is not part of this model. It is a stale duplicate of the co-simulation clock.
- The set of enabled lcores (`rte_lcore_is_enabled`) and the device list of `RTE_ETH_FOREACH_DEV` are parameters.
- RTE_MAX_ETHPORTS = 32 and RTE_MAX_LCORE = 128 are the DPDK defaults, because no file of the repository defines them. XGMII_BURST_SZ is defined nowhere, so it is a positive parameter.
- Pointer-level defects are recorded in comments rather than reproduced: the uninitialised `port_id` in both codec functions, and the uninitialised `fr_in_*`/`fr_out_*` pointers of the worker. When a receive ring is empty, the worker drives its wire through such a pointer; the model keeps the previous wire value instead (`Top.Latched`).
- XgmiiEncoder.MbufToXgmii: returns the accepted and dropped word counts instead of adding them to `kni_stats[port_id]`, because the source indexes that table with an uninitialised `port_id`.
- XgmiiDecoder.XgmiiToMbuf: returns the accepted and dropped counts instead of adding them to `kni_stats[port_id]`, because `port_id` is uninitialised. It also bounds neither the packets per call nor their length. The source writes past `pkts_burst` once more than 31 /S/ arrive in one call, and past a buffer's data room for a long packet. Its word index is the corrected one: every dequeued word is decoded, whatever their number. The source's word index `i` is a `uint8_t` (festoon_xgmii.cpp:85) compared with the unsigned `nb_rx` (:104), so a dequeue of 256 words or more never ends the loop. XGMII_BURST_SZ is defined nowhere, so whether such a dequeue can happen is open. The wrap is a row of "## Findings" (XgmiiFindings.WordLoopNeverEnds), and XgmiiFindings.XgmiiToMbufAsWritten decodes every word in the same way.
- XgmiiRoundTrip.CallRoundTrip: full delivery is stated for an encoding of any length. With the source's 8-bit word index, a decoder call that dequeues 256 words or more never returns (see XgmiiDecoder.XgmiiToMbuf above).
- XgmiiEncoder.EncodeBurst: the number of words is not bounded by XGMII_BURST_SZ. The source writes past its `xgm_buf` array when a burst needs more words, which has no defined outcome.
- XgmiiEncoder.EncodeFrame: packets are not limited to 65535 bytes. The source's 16-bit offset `it` would wrap for longer packets.
- Kni.KniEgress: requires the port id to index the statistics table and one burst per device, because the source indexes `kni_stats` without a check. The device counter is unbounded, where the source uses a `uint8_t` against a 32-bit `nb_kni`.
- Kni.KniIngress: the device counter is unbounded, where the source uses a `uint8_t` (festoon_kni.cpp:45, :56) against a 32-bit `nb_kni`. `nb_kni` is at most KNI_MAX_KTHREAD = 32 (main.cpp:885-886), so neither loop reaches the wrap.
- Validate.MaskBit: reads bit i as an unsigned 32-bit test. This agrees with the source, since in C++14 and later `1 << 31` is INT_MIN, so `portmask & (1 << 31)` tests bit 31.
- CString.Strtoul: does not model the C23 "0b" binary prefix that glibc 2.38 and later accept with base 0. The model reads "0b1" as the number 0 ending at the 'b', as older glibc does.

## Findings

| source | as written | input that shows it | evidently intended | confidence | as-written member | corrected member |
|---|---|---|---|---|---|---|
| wrapper/festoon_xgmii.cpp:47-56 | every data word is a full 64-bit load marked as eight data lanes, including the short final one | a one-byte packet 0x2A followed by seven zero bytes in its buffer arrives as eight bytes | lanes past the end of the packet are control lanes holding /I/ (the TODO at :52-53) | high (not executed) | XgmiiFindings.UnmaskedTailExample | XgmiiEncoder.DataWordsTail |
| wrapper/festoon_xgmii.cpp:119-131 | `if (pkt_start_entered)` tests the pointer, which is never null, so /S/ always throws and /T/ is always accepted | any frame, e.g. the start word of `EncodeFrame([])` from out of frame | test the flag `*pkt_start_entered` | high (not executed) | XgmiiFindings.PointerTestRejectsEveryFrame | XgmiiRoundTrip.FrameRoundTrip |
| wrapper/festoon_xgmii.cpp:107 | the lane loop runs to `sizeof(ctrl_buf)`, which is 1, so only lane 0 of each word is decoded | a packet of 1 to 8 bytes arrives as its first byte alone | visit all eight lanes | high (not executed) | XgmiiFindings.LaneZeroLosesBytes | XgmiiRoundTrip.BurstRoundTrip |
| wrapper/festoon_xgmii.cpp:77 | the refused words are freed as `nb_rx - nb_tx`, counting dequeued packets instead of words built | one 8-byte packet offered to a full ring: three words refused, one freed | free `xgm_buf_counter - nb_tx` words, as line 78 counts them | high (not executed) | XgmiiFindings.FreedWordsExample | XgmiiEncoder.MbufToXgmii |
| wrapper/festoon_xgmii.cpp:100-154 | all PKT_BURST_SZ allocated buffers go onto the ring in slot order, and no buffer's length is ever set, so each carries 0 bytes; the first packet of a call from out of frame is written into slot 1 | one call on the words of the one-byte packet 0x2A from out of frame, with an empty ring of room 32 or more: 32 zero-length buffers are enqueued, slot 0 first | enqueue the closed packets, with their lengths, in order | high (not executed) | XgmiiFindings.OnePacketAsWritten | XgmiiDecoder.XgmiiToMbuf |
| wrapper/festoon_xgmii.cpp:85-104 | the word index `i` is a `uint8_t` compared with the unsigned `nb_rx`, so it wraps to 0 at 256 | a dequeue of 256 words, possible when XGMII_BURST_SZ is 256 or more: the loop never ends | an index as wide as `nb_rx`, so every dequeued word is decoded once | medium (not executed; XGMII_BURST_SZ is defined nowhere) | XgmiiFindings.WordLoopNeverEnds | XgmiiFindings.WordLoopVisitsAll |
| wrapper/main.cpp:388-423 | a group needs only three tokens, yet the entry reads slots 1..9, so a short group takes seven lcore ids from the previous group or from uninitialised stack memory | "(0,1,2)" configures port 0 or fails depending on slot 9, which no token wrote | require all ten leading tokens so that no slot is read unwritten | medium (not executed) | ConfigSlots.StaleSlotsChangeOutcome | ConfigSlots.ParseConfigIgnoresSlots |

=== FILE: base.dfy ===
/** Shared vocabulary of the bridge: bytes, packets, fixed-width counters,
    buffer handles and the constants of wrapper/params.h. */
module Base {

  type byte = bv8

  /** The payload bytes of one packet buffer. */
  type Packet = seq<byte>

  /** Maximum number of packets moved in one burst (PKT_BURST_SZ). */
  const PktBurstSz: nat := 32

  /** Maximum number of kernel threads / KNI devices per port (KNI_MAX_KTHREAD). */
  const KniMaxKthread: nat := 32

  /** Number of ethernet ports and logical cores of DPDK's default build
      configuration (RTE_MAX_ETHPORTS, RTE_MAX_LCORE); neither is defined in
      the repository itself. */
  const MaxEthPorts: nat := 32
  const MaxLcore: nat := 128

  datatype Option<+T> = None | Some(value: T)

  datatype Result<+T, +E> = Ok(value: T) | Err(error: E)

  /** An mbuf handle: identity plus the bytes it holds. Releasing a handle
      hands it back to the pool; the model records released handles in order. */
  datatype Mbuf = Mbuf(id: nat, bytes: Packet)

  const U64Modulus: nat := 0x1_0000_0000_0000_0000
  const U32Modulus: nat := 0x1_0000_0000

  /** A uint64_t counter. */
  type u64 = x: nat | x < U64Modulus

  /** A uint32_t value. */
  type u32 = x: nat | x < U32Modulus

  /** An atomic fetch-add of 1 on a uint32_t: wraps modulo 2^32. */
  function Inc32(a: u32): u32
  {
    (a + 1) % U32Modulus
  }

  /** An atomic fetch-sub of 1 on a uint32_t: wraps modulo 2^32. */
  function Dec32(a: u32): u32
  {
    (a + U32Modulus - 1) % U32Modulus
  }

  /** `+=` on a uint64_t counter: wraps modulo 2^64. */
  function Add64(a: u64, n: nat): u64
  {
    (a + n) % U64Modulus
  }

  /** Adding to a wrapping counter in two steps or in one gives the same value. */
  lemma Add64Sum(a: u64, b: u64, m: nat, n: nat)
    ensures (Add64(a, m) + Add64(b, n)) % U64Modulus == (a + b + m + n) % U64Modulus
  {
    var x := a + m;
    var y := b + n;
    var q := x / 0x1_0000_0000_0000_0000 + y / 0x1_0000_0000_0000_0000;
    assert Add64(a, m) + Add64(b, n) == x + y - q * 0x1_0000_0000_0000_0000;
  }

  /** Adding nothing leaves a counter as it is. */
  lemma Add64Zero(a: u64)
    ensures Add64(a, 0) == a
  {
  }

  /** Two additions to a wrapping counter are one addition of the total. */
  lemma Add64Twice(a: u64, m: nat, n: nat)
    ensures Add64(Add64(a, m), n) == Add64(a, m + n)
  {
    var q := (a + m) / U64Modulus;
    assert Add64(a, m) == a + m - q * U64Modulus;
    assert Add64(a, m) + n == (a + m + n) - q * U64Modulus;
  }
}

=== FILE: config.dfy ===
/** The command-line configuration of wrapper/main.cpp: parse_unsigned for
    the -p port mask, parse_config for the --config port groups and
    validate_parameters, which checks the two against each other. */
module Config {
  import opened Base
  import opened CString

  // ---------------------------------------------------------------- -p

  /** parse_unsigned: the port mask as a hex number. An empty string, or one
      strtoul does not consume to the end, gives 0; otherwise the unsigned
      long value is cut to its low 32 bits. */
  function ParseUnsigned(s: string): (r: u32)
  {
    if s == [] || Strtoul(s, 16).end != |s| then 0 else Strtoul(s, 16).value % U32Modulus
  }

  /** A mask written in hex reads back as its low 32 bits; one of 2^64 or
      more saturates to ULONG_MAX first. */
  lemma ParseUnsignedHex(n: nat)
    ensures ParseUnsigned(Hex(n)) == if n < U64Modulus then n % U32Modulus else U32Modulus - 1
  {
    DigitsConvert(n, 16, []);
    assert Hex(n) + [] == Hex(n);
  }

  /** The same with the "0x" prefix the usage text suggests. */
  lemma ParseUnsignedPrefixedHex(n: nat)
    ensures ParseUnsigned("0x" + Hex(n)) == if n < U64Modulus then n % U32Modulus else U32Modulus - 1
  {
    var ds := Hex(n);
    var s := "0x" + ds;
    assert SkipSpaces(s, 0) == 0;
    assert HexPrefixAt(s, 0, 16);
    assert ReadPrefix(s, 16) == Prefix(false, 0, true, 16, 2);
    DigitRunStops(s, 2, |s|, 16);
    assert s[2..|s|] == ds;
    DigitsValueOfToDigits(n, 16);
  }

  /** A non-zero mask comes only from a string that ends in a hex digit:
      any trailing character strtoul cannot take as a hex digit makes the
      result 0. */
  lemma ParseUnsignedNonZero(s: string)
    ensures ParseUnsigned(s) != 0 ==> s != [] && IsDigitIn(s[|s| - 1], 16)
  {
    if ParseUnsigned(s) != 0 {
      var p := ReadPrefix(s, 16);
      var j := DigitRun(s, p.start, p.base);
      assert j != p.start && j == |s|;
      assert IsDigitIn(s[j - 1], 16);
    }
  }

  // ---------------------------------------------------------- --config

  /** Most tokens one group may have (_NUM_FLD = KNI_MAX_KTHREAD + 3). */
  const FieldCount: nat := KniMaxKthread + 3

  /** Size of the buffer a group is copied into (char s[256]). */
  const GroupBufSize: nat := 256

  /** The port id and the nine lcore ids come first; the kernel-thread lcores
      follow from this token on. */
  const FirstKthreadField: nat := 10

  /** The fewest tokens the code accepts: more than FLD_LCORE_TX (2). */
  const MinTokensAsWritten: nat := 3

  /** The port id is stored in a uint16_t, the lcore ids through uint8_t casts. */
  const PortIdModulus: nat := 0x1_0000
  const LcoreIdModulus: nat := 0x100

  /** The lcore ids of one configured port (struct kni_port_params of
      wrapper/festoon_common.h); nb_lcore_k is |lcoreK|. nb_kni and the KNI
      contexts are filled in later by kni_alloc, which is not part of this
      model. */
  datatype PortParams = PortParams(
    portId: nat,
    ethRx: nat, ethTx: nat,
    kniRx: nat, kniTx: nat,
    ethMiiRx: nat, ethMiiTx: nat,
    kniMiiRx: nat, kniMiiTx: nat,
    vtop: nat,
    lcoreK: seq<nat>)

  /** kni_port_params_array: one optional entry per port id. */
  type Table = seq<Option<PortParams>>

  /** The table with no port configured. */
  function EmptyTable(): (t: Table)
    ensures |t| == MaxEthPorts && forall i :: 0 <= i < |t| ==> t[i].None?
  {
    seq(MaxEthPorts, _ => None)
  }

  /** Why parse_config gives up (each is a `goto fail`). */
  datatype ConfigError =
    | UnclosedGroup     // '(' without a later ')'
    | GroupTooLong      // 256 characters or more between the parentheses
    | TooFewFields      // too few comma-separated tokens
    | BadNumber         // a token without a leading number, or out of range
    | PortOutOfRange    // port id >= RTE_MAX_ETHPORTS
    | PortConfigured    // a second group for the same port
    | LcoreOutOfRange   // kni_mii_tx or vtop lcore >= RTE_MAX_LCORE

  /** strtoul(token, &end, 0) sets no errno and consumes something. */
  predicate Converts(t: string)
  {
    var c := Strtoul(t, 0);
    !c.rangeError && c.end != 0
  }

  /** The int_fld loop: token i is converted into slot i; slots past the
      last token keep what they held before. */
  function ConvertTokens(tokens: seq<string>, fields: seq<u64>): (r: Result<seq<u64>, ConfigError>)
    requires |tokens| <= |fields|
    ensures r.Ok? <==> forall i :: 0 <= i < |tokens| ==> Converts(tokens[i])
    ensures r.Err? ==> r.error == BadNumber
    ensures r.Ok? ==> |r.value| == |fields| && r.value[|tokens|..] == fields[|tokens|..]
    ensures r.Ok? ==> forall i :: 0 <= i < |tokens| ==> r.value[i] == Strtoul(tokens[i], 0).value
    decreases |tokens|
  {
    if tokens == [] then Ok(fields)
    else if !Converts(tokens[0]) then Err(BadNumber)
    else
      match ConvertTokens(tokens[1..], fields[1..])
      case Err(e) => Err(e)
      case Ok(rest) => Ok([Strtoul(tokens[0], 0).value] + rest)
  }

  function Min(a: nat, b: nat): nat
  {
    if a <= b then a else b
  }

  /** The entry built from the converted slots f of a group of nb tokens:
      slot 0 is the port id, slots 1..9 the lcore ids in the order eth_rx,
      eth_tx, kni_rx, kni_tx, eth_mii_rx, eth_mii_tx, kni_mii_rx,
      kni_mii_tx, vtop, and the remaining tokens (at most KNI_MAX_KTHREAD)
      the kernel-thread lcores. */
  function NewPort(f: seq<u64>, nb: nat): (p: PortParams)
    requires |f| == FieldCount && nb <= FieldCount
    ensures p.portId == f[0] % PortIdModulus
    ensures [p.ethRx, p.ethTx, p.kniRx, p.kniTx, p.ethMiiRx, p.ethMiiTx, p.kniMiiRx, p.kniMiiTx, p.vtop]
         == seq(9, k requires 0 <= k < 9 => f[k + 1] % LcoreIdModulus)
    ensures |p.lcoreK| == (if nb > FirstKthreadField then nb - FirstKthreadField else 0)
    ensures forall k :: 0 <= k < |p.lcoreK| ==> p.lcoreK[k] == f[FirstKthreadField + k] % LcoreIdModulus
    ensures p.kniMiiTx < MaxLcore && p.vtop < MaxLcore ==> InRange(p, p.portId)
  {
    var count := Min(if nb > FirstKthreadField then nb - FirstKthreadField else 0, KniMaxKthread);
    PortParams(
      f[0] % PortIdModulus,
      f[1] % LcoreIdModulus, f[2] % LcoreIdModulus,
      f[3] % LcoreIdModulus, f[4] % LcoreIdModulus,
      f[5] % LcoreIdModulus, f[6] % LcoreIdModulus,
      f[7] % LcoreIdModulus, f[8] % LcoreIdModulus,
      f[9] % LcoreIdModulus,
      seq(count, k requires 0 <= k < count => f[FirstKthreadField + k] % LcoreIdModulus))
  }

  /** The table and the int_fld slots after one group. */
  datatype Parsed = Parsed(table: Table, fields: seq<u64>)

  /** The checks on the converted slots of one group, then the new entry. */
  function AddPort(table: Table, f: seq<u64>, nb: nat): (r: Result<Parsed, ConfigError>)
    requires |table| == MaxEthPorts && |f| == FieldCount && nb <= FieldCount
    ensures r == Err(PortOutOfRange) <==> f[0] % PortIdModulus >= MaxEthPorts
    ensures r == Err(PortConfigured) <==>
      f[0] % PortIdModulus < MaxEthPorts && table[f[0] % PortIdModulus].Some?
    ensures r == Err(LcoreOutOfRange) <==>
      && f[0] % PortIdModulus < MaxEthPorts && table[f[0] % PortIdModulus].None?
      && (f[8] % LcoreIdModulus >= MaxLcore || f[9] % LcoreIdModulus >= MaxLcore)
    ensures r.Err? ==> r.error in {PortOutOfRange, PortConfigured, LcoreOutOfRange}
    ensures r.Ok? ==> r.value.table == table[f[0] % PortIdModulus := Some(NewPort(f, nb))]
    ensures r.Ok? ==> |r.value.table| == MaxEthPorts && r.value.fields == f
    ensures WellFormed(table) && r.Ok? ==> WellFormed(r.value.table)
  {
    var port := f[0] % PortIdModulus;
    if port >= MaxEthPorts then Err(PortOutOfRange)
    else if table[port].Some? then Err(PortConfigured)
    else
      var p := NewPort(f, nb);
      if p.kniMiiTx >= MaxLcore || p.vtop >= MaxLcore then Err(LcoreOutOfRange)
      else Ok(Parsed(table[port := Some(p)], f))
  }

  /** One group, given the text between its parentheses. minTokens is the
      fewest tokens accepted (MinTokensAsWritten in the code as written). */
  function ParseGroup(content: string, table: Table, fields: seq<u64>, minTokens: nat): (r: Result<Parsed, ConfigError>)
    requires |table| == MaxEthPorts && |fields| == FieldCount
    ensures r.Ok? ==> |r.value.table| == MaxEthPorts && |r.value.fields| == FieldCount
    ensures WellFormed(table) && r.Ok? ==> WellFormed(r.value.table)
  {
    if |content| >= GroupBufSize then Err(GroupTooLong)
    else
      var tokens := StrSplit(content, ',', FieldCount);
      if |tokens| < minTokens || |tokens| < MinTokensAsWritten then Err(TooFewFields)
      else
        match ConvertTokens(tokens, fields)
        case Err(e) => Err(e)
        case Ok(f) => AddPort(table, f, |tokens|)
  }

  /** ParseGroup when the text is short enough, splits into ts, and ts
      converts to f. */
  lemma ParseGroupSteps(content: string, table: Table, fields: seq<u64>, minTokens: nat, ts: seq<string>, f: seq<u64>)
    requires |table| == MaxEthPorts && |fields| == FieldCount
    requires |content| < GroupBufSize && StrSplit(content, ',', FieldCount) == ts
    requires |ts| >= minTokens && |ts| >= MinTokensAsWritten && ConvertTokens(ts, fields) == Ok(f)
    ensures ParseGroup(content, table, fields, minTokens) == AddPort(table, f, |ts|)
  {
  }

  /** The text of the groups of a --config argument: the complete groups
      from offset from, in order, and whether the scan ends at a '(' with no
      ')' after it. */
  datatype Brackets = Brackets(groups: seq<string>, unclosed: bool)

  /** The bracket search of the group loop: find the next '(' and the next
      ')' after it; the group is what lies between, and the search goes on
      after the ')' (the code restarts at the ')' itself, which is no '(').
      The search does not depend on what a group holds, so it is done here
      up front. (The loop's second bound, nb_kni_port_params <
      RTE_MAX_ETHPORTS, never binds: the counter is never incremented.) */
  function ScanGroups(arg: string): Brackets
    decreases |arg|
  {
    match Find(arg, '(', 0)
    case None => Brackets([], false)
    case Some(open) =>
      match Find(arg, ')', open + 1)
      case None => Brackets([], true)
      case Some(close) =>
        var rest := ScanGroups(arg[close + 1..]);
        Brackets([arg[open + 1..close]] + rest.groups, rest.unclosed)
  }

  /** The groups parsed in order; the first failure ends the parse, and an
      unclosed group fails once the complete ones before it are parsed. */
  function ParseGroups(groups: seq<string>, unclosed: bool, table: Table, fields: seq<u64>, minTokens: nat): Result<Table, ConfigError>
    requires |table| == MaxEthPorts && |fields| == FieldCount
    decreases |groups|
  {
    if groups == [] then
      if unclosed then Err(UnclosedGroup) else Ok(table)
    else
      match ParseGroup(groups[0], table, fields, minTokens)
      case Err(e) => Err(e)
      case Ok(g) => ParseGroups(groups[1..], unclosed, g.table, g.fields, minTokens)
  }

  /** The whole of parse_config's loop over arg. */
  function ParseArg(arg: string, fields: seq<u64>, minTokens: nat): Result<Table, ConfigError>
    requires |fields| == FieldCount
  {
    var b := ScanGroups(arg);
    ParseGroups(b.groups, b.unclosed, EmptyTable(), fields, minTokens)
  }

  /** The int_fld slots the corrected parse starts from. */
  function ZeroSlots(): (z: seq<u64>)
    ensures |z| == FieldCount
  {
    seq(FieldCount, _ => 0)
  }

  /** parse_config as written: a group needs only three tokens, so a group
      of three to nine tokens takes the lcore ids it lacks from the int_fld
      slots of the previous group, or from the uninitialised stack array
      (garbage) for the first group. */
  function ParseConfigAsWritten(arg: string, garbage: seq<u64>): Result<Table, ConfigError>
    requires |garbage| == FieldCount
  {
    ParseArg(arg, garbage, MinTokensAsWritten)
  }

  /** parse_config with every group required to name the port and all nine
      lcore ids; no slot is then read before it is written. On failure
      (Err) the code frees and nulls every entry, so the table left behind
      is EmptyTable() (TableAfter). */
  function ParseConfig(arg: string): (r: Result<Table, ConfigError>)
    ensures r.Ok? ==> WellFormed(r.value)
  {
    var b := ScanGroups(arg);
    ParseGroupsWellFormed(b.groups, b.unclosed, EmptyTable(), ZeroSlots(), FirstKthreadField);
    ParseArg(arg, ZeroSlots(), FirstKthreadField)
  }

  /** kni_port_params_array after parse_config returns. */
  function TableAfter(r: Result<Table, ConfigError>): Table
  {
    if r.Ok? then r.value else EmptyTable()
  }

  /** A group parse_config refuses whatever the table and the slots hold:
      256 characters or more, fewer than minTokens tokens, a token strtoul
      does not convert, or, once every token converts, a port id of
      RTE_MAX_ETHPORTS or more, or (with all ten leading tokens present) a
      kni_mii_tx or vtop lcore id of RTE_MAX_LCORE or more. */
  predicate Refused(content: string, minTokens: nat)
  {
    var tokens := StrSplit(content, ',', FieldCount);
    || |content| >= GroupBufSize
    || |tokens| < minTokens
    || (exists i :: 0 <= i < |tokens| && !Converts(tokens[i]))
    || (&& 0 < |tokens|
        && (forall i :: 0 <= i < |tokens| ==> Converts(tokens[i]))
        && Strtoul(tokens[0], 0).value % PortIdModulus >= MaxEthPorts)
    || (&& FirstKthreadField <= |tokens|
        && (forall i :: 0 <= i < |tokens| ==> Converts(tokens[i]))
        && (|| Strtoul(tokens[8], 0).value % LcoreIdModulus >= MaxLcore
            || Strtoul(tokens[9], 0).value % LcoreIdModulus >= MaxLcore))
  }

  /** A refused group fails to parse, whatever the table and the slots. */
  lemma RefusedGroupFails(content: string, table: Table, fields: seq<u64>, minTokens: nat)
    requires |table| == MaxEthPorts && |fields| == FieldCount
    requires Refused(content, minTokens)
    ensures ParseGroup(content, table, fields, minTokens).Err?
  {
    if |content| < GroupBufSize {
      var tokens := StrSplit(content, ',', FieldCount);
      if |tokens| >= minTokens && |tokens| >= MinTokensAsWritten {
        var c := ConvertTokens(tokens, fields);
        if c.Ok? {
          assert c.value[0] == Strtoul(tokens[0], 0).value;
          if FirstKthreadField <= |tokens| {
            assert c.value[8] == Strtoul(tokens[8], 0).value;
            assert c.value[9] == Strtoul(tokens[9], 0).value;
          }
          ParseGroupSteps(content, table, fields, minTokens, tokens, c.value);
        }
      }
    }
  }

  /** The group loop fails when the argument ends inside an unclosed group
      or when any group is refused, whatever the groups before it hold. */
  lemma {:induction false} ParseGroupsFails(groups: seq<string>, unclosed: bool, table: Table, fields: seq<u64>, minTokens: nat)
    requires |table| == MaxEthPorts && |fields| == FieldCount
    requires unclosed || exists i :: 0 <= i < |groups| && Refused(groups[i], minTokens)
    ensures ParseGroups(groups, unclosed, table, fields, minTokens).Err?
    decreases |groups|
  {
    if groups != [] {
      var r := ParseGroup(groups[0], table, fields, minTokens);
      if r.Ok? {
        if Refused(groups[0], minTokens) {
          RefusedGroupFails(groups[0], table, fields, minTokens);
        }
        if !unclosed {
          var i :| 0 <= i < |groups| && Refused(groups[i], minTokens);
          assert groups[1..][i - 1] == groups[i];
        }
        ParseGroupsFails(groups[1..], unclosed, r.value.table, r.value.fields, minTokens);
      }
    }
  }

  /** parse_config fails, leaving no port configured, when a '(' is never
      closed, or when a group is 256 characters or more, lacks any of the
      ten leading tokens, holds a token that does not convert, or names a
      port or a checked lcore out of range. */
  lemma ParseConfigFails(arg: string)
    requires ScanGroups(arg).unclosed
      || exists i :: 0 <= i < |ScanGroups(arg).groups| && Refused(ScanGroups(arg).groups[i], FirstKthreadField)
    ensures ParseConfig(arg).Err?
    ensures TableAfter(ParseConfig(arg)) == EmptyTable()
  {
    var b := ScanGroups(arg);
    ParseGroupsFails(b.groups, b.unclosed, EmptyTable(), ZeroSlots(), FirstKthreadField);
  }

  /** What every entry parse_config stores satisfies: it sits at its own
      port id, its lcore ids fit a uint8_t, the two checked ones are below
      RTE_MAX_LCORE, and it has at most FieldCount - 10 kernel-thread
      lcores. */
  predicate InRange(p: PortParams, port: nat)
  {
    && p.portId == port
    && p.ethRx < LcoreIdModulus && p.ethTx < LcoreIdModulus
    && p.kniRx < LcoreIdModulus && p.kniTx < LcoreIdModulus
    && p.ethMiiRx < LcoreIdModulus && p.ethMiiTx < LcoreIdModulus
    && p.kniMiiRx < LcoreIdModulus && p.kniMiiTx < MaxLcore
    && p.vtop < MaxLcore
    && |p.lcoreK| <= FieldCount - FirstKthreadField
    && forall k :: 0 <= k < |p.lcoreK| ==> p.lcoreK[k] < LcoreIdModulus
  }

  predicate WellFormed(t: Table)
  {
    |t| == MaxEthPorts && forall i :: 0 <= i < |t| && t[i].Some? ==> InRange(t[i].value, i)
  }

  lemma {:induction false} ParseGroupsWellFormed(groups: seq<string>, unclosed: bool, table: Table, fields: seq<u64>, minTokens: nat)
    requires |table| == MaxEthPorts && |fields| == FieldCount && WellFormed(table)
    ensures ParseGroups(groups, unclosed, table, fields, minTokens).Ok? ==>
      WellFormed(ParseGroups(groups, unclosed, table, fields, minTokens).value)
    decreases |groups|
  {
    if groups != [] {
      var g := ParseGroup(groups[0], table, fields, minTokens);
      if g.Ok? {
        ParseGroupsWellFormed(groups[1..], unclosed, g.value.table, g.value.fields, minTokens);
      }
    }
  }

}

=== FILE: config_roundtrip.dfy ===
/** The --config syntax read back: a port group written out in decimal
    parses to exactly the entry it was written from, and a list of groups
    for distinct ports parses to the table holding exactly those entries.
    Also the behaviour of the code as written on groups of fewer than ten
    tokens. */
module ConfigRoundTrip {
  import opened Base
  import opened CString
  import opened Config

  /** Field i of p's group in --config order: the port id, the nine lcore
      ids and then the kernel-thread lcores. */
  function Field(p: PortParams, i: nat): nat
    requires i < FirstKthreadField + |p.lcoreK|
  {
    if i == 0 then p.portId
    else if i == 1 then p.ethRx
    else if i == 2 then p.ethTx
    else if i == 3 then p.kniRx
    else if i == 4 then p.kniTx
    else if i == 5 then p.ethMiiRx
    else if i == 6 then p.ethMiiTx
    else if i == 7 then p.kniMiiRx
    else if i == 8 then p.kniMiiTx
    else if i == 9 then p.vtop
    else p.lcoreK[i - FirstKthreadField]
  }

  /** The numbers of p's group, in order. */
  function FieldValues(p: PortParams): (ns: seq<nat>)
    ensures |ns| == FirstKthreadField + |p.lcoreK|
  {
    seq(FirstKthreadField + |p.lcoreK|, i requires 0 <= i < FirstKthreadField + |p.lcoreK| => Field(p, i))
  }

  function Decimals(ns: seq<nat>): (ds: seq<string>)
    ensures |ds| == |ns| && forall i :: 0 <= i < |ns| ==> ds[i] == Decimal(ns[i])
  {
    seq(|ns|, i requires 0 <= i < |ns| => Decimal(ns[i]))
  }

  /** The text between the parentheses of p's group. */
  function GroupText(p: PortParams): string
  {
    Join(Decimals(FieldValues(p)), ',')
  }

  /** p's group, parentheses included. */
  function FormatGroup(p: PortParams): string
  {
    "(" + GroupText(p) + ")"
  }

  /** A --config argument: the groups of ps one after another. */
  function FormatConfig(ps: seq<PortParams>): string
    decreases |ps|
  {
    if ps == [] then [] else FormatGroup(ps[0]) + FormatConfig(ps[1..])
  }

  /** The groups' texts, in order. */
  function GroupTexts(ps: seq<PortParams>): (gs: seq<string>)
    ensures |gs| == |ps|
    decreases |ps|
  {
    if ps == [] then [] else [GroupText(ps[0])] + GroupTexts(ps[1..])
  }

  /** The table after storing each entry of ps at its port id, in order
      (an entry whose id is outside the table is skipped). */
  function Insert(table: Table, ps: seq<PortParams>): (t: Table)
    ensures |t| == |table|
    decreases |ps|
  {
    if ps == [] then table
    else if ps[0].portId < |table| then Insert(table[ps[0].portId := Some(ps[0])], ps[1..])
    else Insert(table, ps[1..])
  }

  /** What a group must satisfy to be written out and read back. */
  predicate Writable(p: PortParams)
  {
    p.portId < MaxEthPorts && InRange(p, p.portId) && |GroupText(p)| < GroupBufSize
  }

  predicate DistinctPorts(ps: seq<PortParams>)
  {
    forall i, j :: 0 <= i < j < |ps| ==> ps[i].portId != ps[j].portId
  }

  // ------------------------------------------------------------ helpers

  lemma DecimalDigitsOnly(n: nat, c: char)
    requires DigitValue(c) >= 10
    ensures Free(Decimal(n), c)
  {
  }

  lemma {:induction false} JoinFree(ts: seq<string>, delim: char, c: char)
    requires delim != c && forall i :: 0 <= i < |ts| ==> Free(ts[i], c)
    ensures Free(Join(ts, delim), c)
    decreases |ts|
  {
    if |ts| > 1 {
      JoinFree(ts[1..], delim, c);
      var rest := Join(ts[1..], delim);
      assert Join(ts, delim) == ts[0] + [delim] + rest;
      forall k | 0 <= k < |Join(ts, delim)|
        ensures Join(ts, delim)[k] != c
      {
        if k < |ts[0]| {
          assert Join(ts, delim)[k] == ts[0][k];
        } else if k > |ts[0]| {
          assert Join(ts, delim)[k] == rest[k - |ts[0]| - 1];
        }
      }
    }
  }

  /** A group's text holds no parenthesis and no stray comma. */
  lemma GroupTextFree(p: PortParams, c: char)
    requires DigitValue(c) >= 10 && c != ','
    ensures Free(GroupText(p), c)
  {
    var ts := Decimals(FieldValues(p));
    forall i | 0 <= i < |ts|
      ensures Free(ts[i], c)
    {
      DecimalDigitsOnly(FieldValues(p)[i], c);
    }
    JoinFree(ts, ',', c);
  }

  /** Each decimal token of a group converts to its number. */
  lemma TokensConvert(ns: seq<nat>)
    requires forall i :: 0 <= i < |ns| ==> ns[i] < LcoreIdModulus
    ensures forall i :: 0 <= i < |ns| ==> Converts(Decimals(ns)[i])
    ensures forall i :: 0 <= i < |ns| ==> Strtoul(Decimals(ns)[i], 0).value == ns[i]
  {
    forall i | 0 <= i < |ns|
      ensures Strtoul(Decimals(ns)[i], 0) == Conversion(ns[i], |Decimal(ns[i])|, false)
    {
      DigitsConvert(ns[i], 10, []);
      assert Decimal(ns[i]) + [] == Decimal(ns[i]);
    }
  }

  // ----------------------------------------------------- one group

  /** The slots of a written group build back the entry it was written
      from. */
  lemma NewPortOfValues(p: PortParams, f: seq<u64>)
    requires InRange(p, p.portId) && p.portId < PortIdModulus && |f| == FieldCount
    requires |FieldValues(p)| <= FieldCount
    requires forall i :: 0 <= i < |FieldValues(p)| ==> f[i] == FieldValues(p)[i]
    ensures NewPort(f, |FieldValues(p)|) == p
  {
    var ns := FieldValues(p);
    var q := NewPort(f, |ns|);
    forall k | 0 <= k < |p.lcoreK|
      ensures q.lcoreK[k] == p.lcoreK[k]
    {
      var x := p.lcoreK[k];
      assert f[FirstKthreadField + k] == ns[FirstKthreadField + k] == x;
      Small(x, LcoreIdModulus);
    }
    assert q.lcoreK == p.lcoreK;
    assert f[0] == p.portId && f[1] == p.ethRx && f[2] == p.ethTx && f[3] == p.kniRx && f[4] == p.kniTx;
    assert f[5] == p.ethMiiRx && f[6] == p.ethMiiTx && f[7] == p.kniMiiRx && f[8] == p.kniMiiTx && f[9] == p.vtop;
    Small(p.portId, PortIdModulus);
    Small(p.ethRx, LcoreIdModulus);
    Small(p.ethTx, LcoreIdModulus);
    Small(p.kniRx, LcoreIdModulus);
    Small(p.kniTx, LcoreIdModulus);
    Small(p.ethMiiRx, LcoreIdModulus);
    Small(p.ethMiiTx, LcoreIdModulus);
    Small(p.kniMiiRx, LcoreIdModulus);
    Small(p.kniMiiTx, LcoreIdModulus);
    Small(p.vtop, LcoreIdModulus);
  }

  lemma Small(x: nat, m: nat)
    requires x < m
    ensures x % m == x
  {
  }

  /** The tokens rte_strsplit cuts a written group into are its numbers'
      decimal forms. */
  lemma GroupTokens(p: PortParams)
    requires |p.lcoreK| <= FieldCount - FirstKthreadField
    ensures StrSplit(GroupText(p), ',', FieldCount) == Decimals(FieldValues(p))
  {
    var ns := FieldValues(p);
    var ts := Decimals(ns);
    forall i | 0 <= i < |ts|
      ensures Free(ts[i], ',')
    {
      DecimalDigitsOnly(ns[i], ',');
    }
    SplitJoin(ts, ',', FieldCount);
  }

  /** The int_fld loop over the decimal tokens of ns stores ns. */
  lemma GroupConverts(ns: seq<nat>, fields: seq<u64>) returns (f: seq<u64>)
    requires |ns| <= |fields|
    requires forall i :: 0 <= i < |ns| ==> ns[i] < LcoreIdModulus
    ensures ConvertTokens(Decimals(ns), fields) == Ok(f)
    ensures |f| == |fields| && forall i :: 0 <= i < |ns| ==> f[i] == ns[i]
  {
    TokensConvert(ns);
    f := ConvertTokens(Decimals(ns), fields).value;
  }

  /** Every number of an in-range entry's group fits a uint8_t. */
  lemma FieldsFit(p: PortParams)
    requires InRange(p, p.portId) && p.portId < LcoreIdModulus
    ensures forall i :: 0 <= i < |FieldValues(p)| ==> FieldValues(p)[i] < LcoreIdModulus
  {
    forall i | 0 <= i < |FieldValues(p)|
      ensures FieldValues(p)[i] < LcoreIdModulus
    {
      assert FieldValues(p)[i] == Field(p, i);
    }
  }

  /** Parsing any group text that rte_strsplit cuts into the decimal
      forms of p's numbers stores exactly p. */
  lemma TokensRoundTrip(content: string, p: PortParams, table: Table, fields: seq<u64>, minTokens: nat)
    requires |table| == MaxEthPorts && |fields| == FieldCount
    requires p.portId < MaxEthPorts && InRange(p, p.portId) && table[p.portId].None?
    requires minTokens <= FirstKthreadField
    requires |content| < GroupBufSize && StrSplit(content, ',', FieldCount) == Decimals(FieldValues(p))
    ensures ParseGroup(content, table, fields, minTokens).Ok?
    ensures ParseGroup(content, table, fields, minTokens).value.table == table[p.portId := Some(p)]
  {
    var ns := FieldValues(p);
    FieldsFit(p);
    var f := GroupConverts(ns, fields);
    AddsEntry(content, p, table, fields, minTokens, Decimals(ns), f);
  }

  /** The last steps of a group whose tokens ts convert to p's numbers. */
  lemma AddsEntry(content: string, p: PortParams, table: Table, fields: seq<u64>, minTokens: nat, ts: seq<string>, f: seq<u64>)
    requires |table| == MaxEthPorts && |fields| == FieldCount && |f| == FieldCount
    requires p.portId < MaxEthPorts && InRange(p, p.portId) && table[p.portId].None?
    requires minTokens <= FirstKthreadField
    requires |content| < GroupBufSize && StrSplit(content, ',', FieldCount) == ts
    requires |ts| == |FieldValues(p)| && ConvertTokens(ts, fields) == Ok(f)
    requires forall i :: 0 <= i < |ts| ==> f[i] == FieldValues(p)[i]
    ensures ParseGroup(content, table, fields, minTokens) == Ok(Parsed(table[p.portId := Some(p)], f))
  {
    AddPortEntry(p, table, f);
    ParseGroupSteps(content, table, fields, minTokens, ts, f);
  }

  /** The port checks pass for an in-range entry of a free port. */
  lemma AddPortEntry(p: PortParams, table: Table, f: seq<u64>)
    requires |table| == MaxEthPorts && |f| == FieldCount
    requires p.portId < MaxEthPorts && InRange(p, p.portId) && table[p.portId].None?
    requires |FieldValues(p)| <= FieldCount
    requires forall i :: 0 <= i < |FieldValues(p)| ==> f[i] == FieldValues(p)[i]
    ensures AddPort(table, f, |FieldValues(p)|) == Ok(Parsed(table[p.portId := Some(p)], f))
  {
    NewPortOfValues(p, f);
  }

  /** Parsing the text of p's group stores exactly p at p's port id, from
      any earlier int_fld contents, whenever p's port is still free. */
  lemma GroupRoundTrip(p: PortParams, table: Table, fields: seq<u64>, minTokens: nat)
    requires |table| == MaxEthPorts && |fields| == FieldCount
    requires Writable(p) && table[p.portId].None? && minTokens <= FirstKthreadField
    ensures ParseGroup(GroupText(p), table, fields, minTokens).Ok?
    ensures ParseGroup(GroupText(p), table, fields, minTokens).value.table == table[p.portId := Some(p)]
  {
    GroupTokens(p);
    TokensRoundTrip(GroupText(p), p, table, fields, minTokens);
  }

  /** The scan of a written group followed by more text. */
  lemma ScanFormatGroup(p: PortParams, rest: string)
    ensures ScanGroups(FormatGroup(p) + rest) ==
      Brackets([GroupText(p)] + ScanGroups(rest).groups, ScanGroups(rest).unclosed)
  {
    GroupTextFree(p, ')');
    ScanClosed(GroupText(p), rest);
  }

  /** A bracketed text without ')' inside is scanned as one group. */
  lemma ScanClosed(t: string, rest: string)
    requires Free(t, ')')
    ensures ScanGroups("(" + t + ")" + rest) ==
      Brackets([t] + ScanGroups(rest).groups, ScanGroups(rest).unclosed)
  {
    var arg := "(" + t + ")" + rest;
    assert arg[0] == '(';
    assert Find(arg, '(', 0) == Some(0);
    assert arg[|t| + 1] == ')';
    assert forall k :: 1 <= k < |t| + 1 ==> arg[k] == t[k - 1];
    assert Find(arg, ')', 1) == Some(|t| + 1);
    assert arg[1..|t| + 1] == t;
    assert arg[|t| + 2..] == rest;
  }

  lemma {:induction false} ScanFormatConfig(ps: seq<PortParams>)
    ensures ScanGroups(FormatConfig(ps)) == Brackets(GroupTexts(ps), false)
    decreases |ps|
  {
    if ps != [] {
      ScanFormatConfig(ps[1..]);
      ScanFormatGroup(ps[0], FormatConfig(ps[1..]));
    }
  }

  lemma {:induction false} ParseWrittenGroups(ps: seq<PortParams>, table: Table, fields: seq<u64>)
    requires |table| == MaxEthPorts && |fields| == FieldCount
    requires forall k :: 0 <= k < |ps| ==> Writable(ps[k])
    requires forall k :: 0 <= k < |ps| ==> ps[k].portId < |table| && table[ps[k].portId].None?
    requires DistinctPorts(ps)
    ensures ParseGroups(GroupTexts(ps), false, table, fields, FirstKthreadField) == Ok(Insert(table, ps))
    decreases |ps|
  {
    if ps != [] {
      GroupRoundTrip(ps[0], table, fields, FirstKthreadField);
      var g := ParseGroup(GroupText(ps[0]), table, fields, FirstKthreadField).value;
      assert forall k :: 0 <= k < |ps[1..]| ==> ps[1..][k].portId != ps[0].portId by {
        assert forall k :: 0 <= k < |ps[1..]| ==> ps[1..][k] == ps[k + 1];
      }
      ParseWrittenGroups(ps[1..], g.table, g.fields);
      var gs := GroupTexts(ps);
      assert gs[0] == GroupText(ps[0]) && gs[1..] == GroupTexts(ps[1..]);
    }
  }

  /** Inserting entries for distinct ports: each lands at its own id, and
      every other slot keeps its old value. */
  lemma {:induction false} InsertContents(table: Table, ps: seq<PortParams>)
    requires forall k :: 0 <= k < |ps| ==> ps[k].portId < |table|
    requires DistinctPorts(ps)
    ensures forall i :: 0 <= i < |table| && (forall k :: 0 <= k < |ps| ==> ps[k].portId != i) ==>
      Insert(table, ps)[i] == table[i]
    ensures forall k :: 0 <= k < |ps| ==> Insert(table, ps)[ps[k].portId] == Some(ps[k])
    decreases |ps|
  {
    if ps != [] {
      var t1 := table[ps[0].portId := Some(ps[0])];
      var rest := ps[1..];
      assert forall k :: 1 <= k < |ps| ==> rest[k - 1] == ps[k];
      InsertContents(t1, rest);
      assert Insert(table, ps) == Insert(t1, rest);
      assert forall k :: 0 <= k < |rest| ==> rest[k].portId != ps[0].portId;
    }
  }

  /** t holds each entry of ps at its port id and nothing at any port
      that no entry of ps names. */
  predicate Configures(t: Table, ps: seq<PortParams>)
  {
    && (forall k :: 0 <= k < |ps| && ps[k].portId < |t| ==> t[ps[k].portId] == Some(ps[k]))
    && (forall i :: 0 <= i < |t| && (forall k :: 0 <= k < |ps| ==> ps[k].portId != i) ==> t[i].None?)
  }

  /** The round trip of parse_config: writing out the groups of entries
      for distinct ports and parsing the result stores every entry at its
      port id and leaves every other port unconfigured. */
  lemma ConfigRoundTrip(ps: seq<PortParams>)
    requires forall k :: 0 <= k < |ps| ==> Writable(ps[k])
    requires DistinctPorts(ps)
    ensures ParseConfig(FormatConfig(ps)).Ok?
    ensures Configures(ParseConfig(FormatConfig(ps)).value, ps)
  {
    ParseFormatted(ps);
    InsertConfigures(ps);
  }

  lemma ParseFormatted(ps: seq<PortParams>)
    requires forall k :: 0 <= k < |ps| ==> Writable(ps[k])
    requires DistinctPorts(ps)
    ensures ParseConfig(FormatConfig(ps)) == Ok(Insert(EmptyTable(), ps))
  {
    ScanFormatConfig(ps);
    ParseScanned(FormatConfig(ps), GroupTexts(ps));
    ParseWrittenGroups(ps, EmptyTable(), ZeroSlots());
  }

  /** An argument whose groups are all closed parses as those groups do. */
  lemma ParseScanned(arg: string, groups: seq<string>)
    requires ScanGroups(arg) == Brackets(groups, false)
    ensures ParseConfig(arg) == ParseGroups(groups, false, EmptyTable(), ZeroSlots(), FirstKthreadField)
  {
  }

  lemma InsertConfigures(ps: seq<PortParams>)
    requires forall k :: 0 <= k < |ps| ==> ps[k].portId < MaxEthPorts
    requires DistinctPorts(ps)
    ensures Configures(Insert(EmptyTable(), ps), ps)
  {
    InsertContents(EmptyTable(), ps);
  }
}

=== FILE: config_slots.dfy ===
/** Which int_fld slots parse_config reads. As written, a group needs only
    three tokens, yet the entry is built from the first ten slots, so a
    short group takes its remaining lcore ids from whatever the slots held:
    the previous group's numbers, or uninitialised stack memory for the
    first group. With every group required to carry all ten leading tokens
    (ParseConfig) no slot is read before it is written, and the outcome no
    longer depends on what the slots held. */
module ConfigSlots {
  import opened Base
  import opened CString
  import opened Config

  /** Two parses of the same group agree: both fail with the same error,
      or both succeed with the same table. */
  predicate Agree(r1: Result<Parsed, ConfigError>, r2: Result<Parsed, ConfigError>)
  {
    && r1.Err? == r2.Err?
    && (r1.Err? ==> r1.error == r2.error)
    && (r1.Ok? ==> r1.value.table == r2.value.table)
  }

  /** An entry is built only from the slots of its own group's tokens. */
  lemma NewPortReadsOwnSlots(f1: seq<u64>, f2: seq<u64>, nb: nat)
    requires |f1| == FieldCount && |f2| == FieldCount && FirstKthreadField <= nb <= FieldCount
    requires forall i :: 0 <= i < nb ==> f1[i] == f2[i]
    ensures NewPort(f1, nb) == NewPort(f2, nb)
  {
    var p1, p2 := NewPort(f1, nb), NewPort(f2, nb);
    assert p1.lcoreK == p2.lcoreK;
    assert f1[..FirstKthreadField] == f2[..FirstKthreadField];
  }

  lemma AddPortReadsOwnSlots(table: Table, f1: seq<u64>, f2: seq<u64>, nb: nat)
    requires |table| == MaxEthPorts && |f1| == FieldCount && |f2| == FieldCount
    requires FirstKthreadField <= nb <= FieldCount
    requires forall i :: 0 <= i < nb ==> f1[i] == f2[i]
    ensures Agree(AddPort(table, f1, nb), AddPort(table, f2, nb))
  {
    NewPortReadsOwnSlots(f1, f2, nb);
  }

  /** With ten tokens required, one group's outcome does not depend on the
      slots it starts from. */
  lemma GroupIgnoresSlots(content: string, table: Table, f1: seq<u64>, f2: seq<u64>)
    requires |table| == MaxEthPorts && |f1| == FieldCount && |f2| == FieldCount
    ensures Agree(ParseGroup(content, table, f1, FirstKthreadField), ParseGroup(content, table, f2, FirstKthreadField))
  {
    if |content| < GroupBufSize {
      var tokens := StrSplit(content, ',', FieldCount);
      if |tokens| >= FirstKthreadField {
        var c1, c2 := ConvertTokens(tokens, f1), ConvertTokens(tokens, f2);
        if c1.Ok? {
          AddPortReadsOwnSlots(table, c1.value, c2.value, |tokens|);
        }
      }
    }
  }

  lemma {:induction false} GroupsIgnoreSlots(groups: seq<string>, unclosed: bool, table: Table, f1: seq<u64>, f2: seq<u64>)
    requires |table| == MaxEthPorts && |f1| == FieldCount && |f2| == FieldCount
    ensures ParseGroups(groups, unclosed, table, f1, FirstKthreadField) ==
      ParseGroups(groups, unclosed, table, f2, FirstKthreadField)
    decreases |groups|
  {
    if groups != [] {
      GroupIgnoresSlots(groups[0], table, f1, f2);
      var r1 := ParseGroup(groups[0], table, f1, FirstKthreadField);
      var r2 := ParseGroup(groups[0], table, f2, FirstKthreadField);
      if r1.Ok? {
        GroupsIgnoreSlots(groups[1..], unclosed, r1.value.table, r1.value.fields, r2.value.fields);
      }
    }
  }

  /** The corrected parse reads no slot it has not written: starting from
      any slot contents gives the same outcome as ParseConfig. */
  lemma ParseConfigIgnoresSlots(arg: string, fields: seq<u64>)
    requires |fields| == FieldCount
    ensures ParseArg(arg, fields, FirstKthreadField) == ParseConfig(arg)
  {
    var b := ScanGroups(arg);
    GroupsIgnoreSlots(b.groups, b.unclosed, EmptyTable(), fields, ZeroSlots());
  }

  // ------------------------------------------------ the short group "(0,1,2)"

  lemma ShortGroupText()
    ensures ScanGroups("(0,1,2)") == Brackets(["0,1,2"], false)
    ensures StrSplit("0,1,2", ',', FieldCount) == ["0", "1", "2"]
  {
    var s := "(0,1,2)";
    assert Find(s, '(', 0) == Some(0);
    assert Find(s, ')', 1) == Some(6);
    assert s[7..] == [];
    assert Find(s[7..], '(', 0).None?;
    assert s[1..6] == "0,1,2";
    assert Join(["0", "1", "2"], ',') == "0,1,2";
    SplitJoin(["0", "1", "2"], ',', FieldCount);
  }

  lemma ShortGroupConverts(fields: seq<u64>)
    requires |fields| == FieldCount
    ensures ConvertTokens(["0", "1", "2"], fields) == Ok([0, 1, 2] + fields[3..])
  {
    ThreeDigitsConvert(0, 1, 2, fields);
    assert [Decimal(0), Decimal(1), Decimal(2)] == ["0", "1", "2"];
  }

  lemma ThreeDigitsConvert(a: nat, b: nat, c: nat, fields: seq<u64>)
    requires a < 10 && b < 10 && c < 10 && |fields| == FieldCount
    ensures ConvertTokens([Decimal(a), Decimal(b), Decimal(c)], fields) == Ok([a, b, c] + fields[3..])
  {
    DigitToken(a);
    DigitToken(b);
    DigitToken(c);
    ConvertsTo([Decimal(a), Decimal(b), Decimal(c)], fields, [a, b, c]);
  }

  /** A one-digit token converts to its digit. */
  lemma DigitToken(d: nat)
    requires d < 10
    ensures Converts(Decimal(d)) && Strtoul(Decimal(d), 0).value == d
  {
    DigitsConvert(d, 10, []);
    assert Decimal(d) + [] == Decimal(d);
  }

  /** The int_fld loop over tokens that all convert, to the values vs. */
  lemma ConvertsTo(tokens: seq<string>, fields: seq<u64>, vs: seq<u64>)
    requires |tokens| == |vs| <= |fields|
    requires forall i :: 0 <= i < |tokens| ==> Converts(tokens[i]) && Strtoul(tokens[i], 0).value == vs[i]
    ensures ConvertTokens(tokens, fields) == Ok(vs + fields[|tokens|..])
  {
    var r := ConvertTokens(tokens, fields).value;
    assert r[..|tokens|] == vs;
    assert r == r[..|tokens|] + r[|tokens|..];
  }

  /** The entry parse_config as written stores for the group "(0,1,2)":
      port 0 with eth_rx 1, eth_tx 2 and the other seven lcore ids cut
      from stale slots 3..9. */
  function StaleEntry(garbage: seq<u64>): PortParams
    requires |garbage| == FieldCount
  {
    PortParams(0, 1, 2,
      garbage[3] % LcoreIdModulus, garbage[4] % LcoreIdModulus,
      garbage[5] % LcoreIdModulus, garbage[6] % LcoreIdModulus,
      garbage[7] % LcoreIdModulus, garbage[8] % LcoreIdModulus,
      garbage[9] % LcoreIdModulus, [])
  }

  lemma NewPortShort(f: seq<u64>, garbage: seq<u64>)
    requires |f| == FieldCount && |garbage| == FieldCount
    requires f[0] == 0 && f[1] == 1 && f[2] == 2
    requires forall i :: 3 <= i < FieldCount ==> f[i] == garbage[i]
    ensures NewPort(f, 3) == StaleEntry(garbage)
  {
    assert f[3] == garbage[3] && f[4] == garbage[4] && f[5] == garbage[5] && f[6] == garbage[6];
    assert f[7] == garbage[7] && f[8] == garbage[8] && f[9] == garbage[9];
  }

  /** An argument holding one complete group parses as that group does. */
  lemma ParseArgOneGroup(arg: string, content: string, fields: seq<u64>, minTokens: nat)
    requires |fields| == FieldCount && ScanGroups(arg) == Brackets([content], false)
    ensures ParseArg(arg, fields, minTokens) ==
      var r := ParseGroup(content, EmptyTable(), fields, minTokens);
      if r.Ok? then Ok(r.value.table) else Err(r.error)
  {
    var r := ParseGroup(content, EmptyTable(), fields, minTokens);
    if r.Ok? {
      assert [content][1..] == [];
      assert ParseGroups([], false, r.value.table, r.value.fields, minTokens) == Ok(r.value.table);
    }
  }

  /** As written: the outcome of "(0,1,2)" is decided by slots that no
      token wrote. */
  lemma ShortGroupReadsStaleSlots(garbage: seq<u64>)
    requires |garbage| == FieldCount
    ensures ParseConfigAsWritten("(0,1,2)", garbage) ==
      if garbage[8] % LcoreIdModulus >= MaxLcore || garbage[9] % LcoreIdModulus >= MaxLcore
      then Err(LcoreOutOfRange)
      else Ok(EmptyTable()[0 := Some(StaleEntry(garbage))])
  {
    ShortGroupText();
    ShortGroupConverts(garbage);
    StaleOutcome("(0,1,2)", "0,1,2", ["0", "1", "2"], garbage);
  }

  /** One group of three tokens converting to 0, 1 and 2, as written. */
  lemma StaleOutcome(arg: string, content: string, ts: seq<string>, garbage: seq<u64>)
    requires |garbage| == FieldCount && |content| < GroupBufSize && |ts| == 3
    requires ScanGroups(arg) == Brackets([content], false)
    requires StrSplit(content, ',', FieldCount) == ts
    requires ConvertTokens(ts, garbage) == Ok([0, 1, 2] + garbage[3..])
    ensures ParseConfigAsWritten(arg, garbage) ==
      if garbage[8] % LcoreIdModulus >= MaxLcore || garbage[9] % LcoreIdModulus >= MaxLcore
      then Err(LcoreOutOfRange)
      else Ok(EmptyTable()[0 := Some(StaleEntry(garbage))])
  {
    var f := [0, 1, 2] + garbage[3..];
    NewPortShort(f, garbage);
    ParseGroupSteps(content, EmptyTable(), garbage, MinTokensAsWritten, ts, f);
    ParseArgOneGroup(arg, content, garbage, MinTokensAsWritten);
  }

  /** Slot contents that are zero except for slot 9, which holds v. */
  function SlotsWith(v: u64): (g: seq<u64>)
    ensures |g| == FieldCount && forall i :: 0 <= i < FieldCount ==> g[i] == if i == 9 then v else 0
  {
    seq(FieldCount, i => if i == 9 then v else 0)
  }

  /** Two runs that differ only in the uninitialised slot 9 end
      differently: one configures port 0, the other fails. */
  lemma StaleSlotsChangeOutcome(low: u64, high: u64)
    requires low % LcoreIdModulus < MaxLcore <= high % LcoreIdModulus
    ensures ParseConfigAsWritten("(0,1,2)", SlotsWith(low)) ==
      Ok(EmptyTable()[0 := Some(PortParams(0, 1, 2, 0, 0, 0, 0, 0, 0, low % LcoreIdModulus, []))])
    ensures ParseConfigAsWritten("(0,1,2)", SlotsWith(high)) == Err(LcoreOutOfRange)
  {
    var g := SlotsWith(low);
    assert g[3] == 0 && g[4] == 0 && g[5] == 0 && g[6] == 0 && g[7] == 0 && g[8] == 0 && g[9] == low;
    assert StaleEntry(g) == PortParams(0, 1, 2, 0, 0, 0, 0, 0, 0, low % LcoreIdModulus, []);
    ShortGroupReadsStaleSlots(g);
    ShortGroupReadsStaleSlots(SlotsWith(high));
  }

  /** Corrected: the short group is refused whatever the slots held. */
  lemma ShortGroupRejected()
    ensures ParseConfig("(0,1,2)") == Err(TooFewFields)
  {
    ShortGroupText();
  }
}

=== FILE: cstring.dfy ===
/** The C library and DPDK string routines the configuration parser relies
    on: strchr, strtoul (as glibc implements it) and rte_strsplit.

    A C string is modelled as the sequence of its characters before the
    terminating NUL, so no modelled string contains '\0'; "the end pointer
    points at the terminator" becomes "the end offset is the length". */
module CString {
  import opened Base

  /** isspace in the "C" locale. */
  predicate IsSpace(c: char)
  {
    c == ' ' || c == '\t' || c == '\n' || c == '\r' || c as int == 0x0B || c as int == 0x0C
  }

  /** The value of c as a digit in bases up to 36, or 36 when c is no digit. */
  function DigitValue(c: char): nat
  {
    if '0' <= c <= '9' then c as int - '0' as int
    else if 'a' <= c <= 'z' then c as int - 'a' as int + 10
    else if 'A' <= c <= 'Z' then c as int - 'A' as int + 10
    else 36
  }

  predicate IsDigitIn(c: char, base: nat)
  {
    DigitValue(c) < base
  }

  /** strchr from offset from: the first c at or after from. */
  function Find(s: string, c: char, from: nat): (r: Option<nat>)
    requires from <= |s|
    ensures r.Some? ==> from <= r.value < |s| && s[r.value] == c
    ensures r.Some? ==> forall k :: from <= k < r.value ==> s[k] != c
    ensures r.None? ==> forall k :: from <= k < |s| ==> s[k] != c
    decreases |s| - from
  {
    if from == |s| then None
    else if s[from] == c then Some(from)
    else Find(s, c, from + 1)
  }

  /** The first offset at or after i that is not white space. */
  function SkipSpaces(s: string, i: nat): (j: nat)
    requires i <= |s|
    ensures i <= j <= |s| && (j == |s| || !IsSpace(s[j]))
    ensures forall k :: i <= k < j ==> IsSpace(s[k])
    decreases |s| - i
  {
    if i < |s| && IsSpace(s[i]) then SkipSpaces(s, i + 1) else i
  }

  /** The end of the run of base-digits that starts at i. */
  function DigitRun(s: string, i: nat, base: nat): (j: nat)
    requires i <= |s|
    ensures i <= j <= |s| && (j == |s| || !IsDigitIn(s[j], base))
    ensures forall k :: i <= k < j ==> IsDigitIn(s[k], base)
    decreases |s| - i
  {
    if i < |s| && IsDigitIn(s[i], base) then DigitRun(s, i + 1, base) else i
  }

  /** The value of a digit string, most significant digit first. */
  function DigitsValue(ds: string, base: nat): nat
    decreases |ds|
  {
    if ds == [] then 0 else DigitsValue(ds[..|ds| - 1], base) * base + DigitValue(ds[|ds| - 1])
  }

  /** What strtoul returns: the value, the offset its end pointer is left
      at, and whether it set errno to ERANGE. */
  datatype Conversion = Conversion(value: u64, end: nat, rangeError: bool)

  /** Whether a "0x" / "0X" prefix is recognised at offset i. */
  predicate HexPrefixAt(s: string, i: nat, base: nat)
  {
    (base == 0 || base == 16) && i + 1 < |s| && s[i] == '0' && (s[i + 1] == 'x' || s[i + 1] == 'X')
  }

  /** Where the digits of a number start: after white space, an optional
      sign (signEnd is the offset just past it) and, when hex is true, a
      "0x" prefix; base is the base the digits are read in. */
  datatype Prefix = Prefix(negative: bool, signEnd: nat, hex: bool, base: nat, start: nat)

  /** The part of strtoul before the digits: base 0 becomes 16 after "0x",
      8 before a leading "0" and 10 otherwise. */
  function ReadPrefix(s: string, base: nat): (p: Prefix)
    requires base == 0 || 2 <= base <= 36
    ensures p.signEnd <= p.start <= |s| && 2 <= p.base <= 36
    ensures p.hex ==> p.start == p.signEnd + 2
  {
    var i0 := SkipSpaces(s, 0);
    var negative := i0 < |s| && s[i0] == '-';
    var i1 := if i0 < |s| && (s[i0] == '-' || s[i0] == '+') then i0 + 1 else i0;
    var hex := HexPrefixAt(s, i1, base);
    var b := if base != 0 then base else if hex then 16 else if i1 < |s| && s[i1] == '0' then 8 else 10;
    Prefix(negative, i1, hex, b, if hex then i1 + 2 else i1)
  }

  /** glibc strtoul: the longest run of digits after the prefix is
      converted. A value of 2^64 or more gives ULONG_MAX with ERANGE; a
      minus sign negates modulo 2^64. With no digits the end pointer is the
      start of the string, except after a bare "0x", where the "0" is the
      number and the end is the 'x'. */
  function Strtoul(s: string, base: nat): (c: Conversion)
    requires base == 0 || 2 <= base <= 36
    ensures c.end <= |s|
    ensures c.rangeError ==> c.value == U64Modulus - 1
  {
    var p := ReadPrefix(s, base);
    var j := DigitRun(s, p.start, p.base);
    if j == p.start then
      if p.hex then Conversion(0, p.signEnd + 1, false) else Conversion(0, 0, false)
    else
      var v := DigitsValue(s[p.start..j], p.base);
      if v >= U64Modulus then Conversion(U64Modulus - 1, j, true)
      else if p.negative then Conversion((U64Modulus - v) % U64Modulus, j, false)
      else Conversion(v, j, false)
  }

  /** The digit character for d (lower-case letters above 9). */
  function DigitChar(d: nat): (c: char)
    requires d < 36
    ensures DigitValue(c) == d
  {
    if d < 10 then ('0' as int + d) as char else ('a' as int + d - 10) as char
  }

  /** n written in the given base without leading zeros. */
  function ToDigits(n: nat, base: nat): (s: string)
    requires 2 <= base <= 36
    ensures |s| > 0
    ensures forall k :: 0 <= k < |s| ==> IsDigitIn(s[k], base)
    ensures s[0] == '0' <==> n == 0
    ensures n == 0 ==> s == "0"
    decreases n
  {
    if n < base then [DigitChar(n)]
    else
      DivStep(n, base);
      ToDigits(n / base, base) + [DigitChar(n % base)]
  }

  /** One digit off the end: the quotient is a smaller positive number. */
  lemma DivStep(n: nat, b: nat)
    requires 2 <= b <= n
    ensures 1 <= n / b < n && n % b < b && n == (n / b) * b + n % b
  {
    QuotientPositive(n, b);
    ProductExceeds(n / b, b);
  }

  lemma QuotientPositive(n: nat, b: nat)
    requires 2 <= b <= n
    ensures n / b >= 1
  {
    var q := n / b;
    assert n == q * b + n % b;
    assert q * b > 0;
  }

  lemma ProductExceeds(q: nat, b: nat)
    requires q >= 1 && b >= 2
    ensures q * b > q
  {
    assert q * b == q + q * (b - 1);
    assert q * (b - 1) > 0;
  }

  function Decimal(n: nat): string
  {
    ToDigits(n, 10)
  }

  function Hex(n: nat): string
  {
    ToDigits(n, 16)
  }

  /** Reading back the digits of n gives n. */
  lemma {:induction false} DigitsValueOfToDigits(n: nat, base: nat)
    requires 2 <= base <= 36
    ensures DigitsValue(ToDigits(n, base), base) == n
    decreases n
  {
    if n >= base {
      var s := ToDigits(n, base);
      DivStep(n, base);
      DigitsValueOfToDigits(n / base, base);
      assert s[..|s| - 1] == ToDigits(n / base, base);
    }
  }

  /** A string of digits followed by a non-digit stops the run there. */
  lemma {:induction false} DigitRunStops(s: string, i: nat, j: nat, base: nat)
    requires i <= j <= |s|
    requires forall k :: i <= k < j ==> IsDigitIn(s[k], base)
    requires j == |s| || !IsDigitIn(s[j], base)
    ensures DigitRun(s, i, base) == j
    decreases j - i
  {
    if i < j {
      DigitRunStops(s, i + 1, j, base);
    }
  }

  /** strtoul reads the digits of any value below 2^64 back exactly, in the
      base they were written in, up to the first non-digit that follows; a
      larger value saturates with ERANGE. */
  lemma DigitsConvert(n: nat, base: nat, rest: string)
    requires base == 10 || base == 16
    requires rest == [] || (!IsDigitIn(rest[0], base) && rest[0] != 'x' && rest[0] != 'X')
    ensures var s := ToDigits(n, base) + rest;
      Strtoul(s, if base == 10 then 0 else 16) ==
        if n < U64Modulus then Conversion(n, |ToDigits(n, base)|, false)
        else Conversion(U64Modulus - 1, |ToDigits(n, base)|, true)
  {
    var ds := ToDigits(n, base);
    var s := ds + rest;
    assert !IsSpace(s[0]) && s[0] != '-' && s[0] != '+';
    assert SkipSpaces(s, 0) == 0;
    assert !HexPrefixAt(s, 0, if base == 10 then 0 else 16);
    // The base strtoul settles on: base 0 reads a lone "0" as octal.
    var b := if base == 10 && n == 0 then 8 else base;
    assert ReadPrefix(s, if base == 10 then 0 else 16) == Prefix(false, 0, false, b, 0);
    if n == 0 {
      assert ds == "0";
      DigitRunStops(s, 0, 1, b);
    } else {
      assert s[0] != '0';
      DigitRunStops(s, 0, |ds|, b);
    }
    assert s[0..|ds|] == ds;
    DigitsValueOfToDigits(n, b);
  }

  /** rte_strsplit: cuts s at each delimiter into at most max tokens. A
      token starts at the beginning and after every delimiter, but only
      where a character follows; once max tokens have been started no
      further delimiter is cut, so the last token runs to the end of s
      (or is empty when it starts with a delimiter). */
  function StrSplit(s: string, delim: char, max: nat): (ts: seq<string>)
    ensures |ts| <= max
    ensures ts == [] <==> s == [] || max == 0
    decreases |s|
  {
    if s == [] || max == 0 then []
    else if max == 1 then [if s[0] == delim then [] else s]
    else
      match Find(s, delim, 0)
      case None => [s]
      case Some(d) => [s[..d]] + StrSplit(s[d + 1..], delim, max - 1)
  }

  /** The tokens ts written one after another with delim between them. */
  function Join(ts: seq<string>, delim: char): string
    decreases |ts|
  {
    if ts == [] then []
    else if |ts| == 1 then ts[0]
    else ts[0] + [delim] + Join(ts[1..], delim)
  }

  predicate Free(t: string, c: char)
  {
    forall k :: 0 <= k < |t| ==> t[k] != c
  }

  /** A token free of the delimiter, then the delimiter, is cut off whole. */
  lemma SplitCut(a: string, rest: string, delim: char, max: nat)
    requires Free(a, delim) && max > 1
    ensures StrSplit(a + [delim] + rest, delim, max) == [a] + StrSplit(rest, delim, max - 1)
  {
    var s := a + [delim] + rest;
    assert forall k :: 0 <= k < |a| ==> s[k] == a[k];
    assert s[|a|] == delim;
    assert Find(s, delim, 0) == Some(|a|);
    assert s[..|a|] == a;
    assert s[|a| + 1..] == rest;
  }

  /** One more token in front of tokens that split back. */
  lemma SplitJoinStep(t: string, rest: seq<string>, delim: char, max: nat)
    requires Free(t, delim) && max > 1 && rest != []
    requires StrSplit(Join(rest, delim), delim, max - 1) == rest
    ensures StrSplit(Join([t] + rest, delim), delim, max) == [t] + rest
  {
    assert ([t] + rest)[1..] == rest;
    SplitCut(t, Join(rest, delim), delim, max);
  }

  /** A non-empty token free of the delimiter is one token. */
  lemma SplitWhole(t: string, delim: char, max: nat)
    requires Free(t, delim) && t != [] && max > 0
    ensures StrSplit(t, delim, max) == [t]
  {
    assert t[0] != delim;
    if max > 1 {
      assert Find(t, delim, 0).None?;
    }
  }

  /** Splitting joined tokens gives them back, when none holds the
      delimiter, the last is not empty, and there are at most max. */
  lemma {:induction false} SplitJoin(ts: seq<string>, delim: char, max: nat)
    requires 0 < |ts| <= max
    requires forall i :: 0 <= i < |ts| ==> Free(ts[i], delim)
    requires ts[|ts| - 1] != []
    ensures StrSplit(Join(ts, delim), delim, max) == ts
    decreases |ts|
  {
    if |ts| == 1 {
      SplitWhole(ts[0], delim, max);
    } else {
      SplitJoin(ts[1..], delim, max - 1);
      SplitJoinStep(ts[0], ts[1..], delim, max);
      assert [ts[0]] + ts[1..] == ts;
    }
  }
}

=== FILE: decoder.dfy ===
/** xgmii_to_mbuf (wrapper/festoon_xgmii.cpp): the lane decoder.

    Only the in-frame flag (`*pkt_start_entered`) survives from one call to
    the next; the write index and the output slot start afresh on every call.
    For every dequeued word and every lane k = 0..7, a lane whose control bit
    is clear is a data byte, written to the packet being assembled while in
    frame and dropped otherwise; a control lane holding /S/ opens a frame in a
    fresh output slot, /T/ closes it, and any other control character is
    ignored.

    The code as written differs in six places, each corrected here:
    it reads the control byte and the lanes from `pkts_burst[i]` (the fresh
    output buffers) where it means `xgm_buf[i]` (the dequeued words), which
    makes the outcome depend on what freshly allocated buffers hold; it
    visits `sizeof(CData)` = 1 lane instead of 8 (DecodeWordLaneZero in
    XgmiiFindings); it tests the pointer `pkt_start_entered` rather than the
    flag it points to (LaneStepPointerTest in XgmiiFindings); and it throws
    std::logic_error on a protocol violation, which the model returns as an
    error result; and it enqueues all PKT_BURST_SZ allocated buffers, none
    with its length set, where it means the closed packets
    (XgmiiToMbufAsWritten in XgmiiFindings); and its word index `i` is a
    uint8_t, so a dequeue of 256 words or more never ends the word loop,
    where every dequeued word is meant to be decoded once (WordLoop in
    XgmiiFindings). */
module XgmiiDecoder {
  import opened Base
  import opened Lanes
  import Ring

  /** The two protocol violations the decoder throws on. */
  datatype Violation =
    | MultiplePacketStarts   // /S/ while already in frame
    | MultipleEndSignals     // /T/ while not in frame

  /** The decoder's working state within one call.
      inFrame  - the persistent flag;
      index    - rte_pkt_index, the next write offset in the current packet;
      slot     - pkt_buf_counter, the number of /S/ seen in this call;
      current  - the bytes of the packet being assembled;
      done     - the packets closed by /T/ in this call, in order. */
  datatype Scan = Scan(inFrame: bool, index: nat, slot: nat, current: Packet, done: seq<Packet>)

  /** The state at the top of a call. */
  function StartScan(inFrame: bool): Scan
  {
    Scan(inFrame, 0, 0, [], [])
  }

  /** The write index is the length of the packet being assembled while in
      frame, and 0 outside a frame. */
  predicate IndexTracksPacket(s: Scan)
  {
    s.index == (if s.inFrame then |s.current| else 0)
  }

  /** One lane: isControl is its control bit, b its byte. */
  function LaneStep(s: Scan, isControl: bool, b: byte): Result<Scan, Violation>
  {
    if !isControl then
      // Data: written at rte_pkt_index, which IndexTracksPacket shows is the end.
      if s.inFrame then Ok(s.(current := s.current + [b], index := s.index + 1))
      else Ok(s)
    else if b == StartChar then
      if s.inFrame then Err(MultiplePacketStarts)
      else Ok(s.(inFrame := true, slot := s.slot + 1, current := []))
    else if b == TerminateChar then
      if !s.inFrame then Err(MultipleEndSignals)
      else Ok(s.(inFrame := false, index := 0, done := s.done + [s.current]))
    else
      // /I/ (0x07) and unrecognised control codes are ignored.
      Ok(s)
  }

  /** Lanes k..7 of one word. */
  function DecodeLanes(s: Scan, w: LaneWord, k: nat): Result<Scan, Violation>
    requires k <= LaneCount
    decreases LaneCount - k
  {
    if k == LaneCount then Ok(s)
    else
      match LaneStep(s, IsControl(w.ctrl, k), w.data[k])
      case Err(v) => Err(v)
      case Ok(s') => DecodeLanes(s', w, k + 1)
  }

  function DecodeWord(s: Scan, w: LaneWord): Result<Scan, Violation>
  {
    DecodeLanes(s, w, 0)
  }

  /** The words of one call, in dequeue order; the first violation aborts. */
  function DecodeWords(s: Scan, ws: seq<LaneWord>): Result<Scan, Violation>
    decreases |ws|
  {
    if ws == [] then Ok(s)
    else
      match DecodeWord(s, ws[0])
      case Err(v) => Err(v)
      case Ok(s') => DecodeWords(s', ws[1..])
  }

  /** Every lane step keeps the write index at the end of the packet being
      assembled, so the source's indexed write is an append. */
  lemma LaneStepKeepsIndex(s: Scan, isControl: bool, b: byte)
    requires IndexTracksPacket(s)
    ensures LaneStep(s, isControl, b).Ok? ==> IndexTracksPacket(LaneStep(s, isControl, b).value)
  {
  }

  lemma {:induction false} DecodeWordsKeepsIndex(s: Scan, ws: seq<LaneWord>)
    requires IndexTracksPacket(s)
    ensures DecodeWords(s, ws).Ok? ==> IndexTracksPacket(DecodeWords(s, ws).value)
    decreases |ws|
  {
    if ws != [] {
      DecodeLanesKeepsIndex(s, ws[0], 0);
      if DecodeWord(s, ws[0]).Ok? {
        DecodeWordsKeepsIndex(DecodeWord(s, ws[0]).value, ws[1..]);
      }
    }
  }

  lemma {:induction false} DecodeLanesKeepsIndex(s: Scan, w: LaneWord, k: nat)
    requires k <= LaneCount && IndexTracksPacket(s)
    ensures DecodeLanes(s, w, k).Ok? ==> IndexTracksPacket(DecodeLanes(s, w, k).value)
    decreases LaneCount - k
  {
    if k < LaneCount {
      var r := LaneStep(s, IsControl(w.ctrl, k), w.data[k]);
      if r.Ok? {
        DecodeLanesKeepsIndex(r.value, w, k + 1);
      }
    }
  }

  /** Every /S/ of a call opens a slot and every /T/ closes the packet of
      the current one: the packets closed so far plus the one still open
      are the slots opened plus the frame the call started in. Hence, from
      out of frame, the k-th packet closed in a call is written into slot
      k + 1, and slot 0 receives no byte. */
  predicate SlotsBalance(s: Scan, startedInFrame: bool)
  {
    |s.done| + (if s.inFrame then 1 else 0) == s.slot + (if startedInFrame then 1 else 0)
  }

  lemma {:induction false} DecodeLanesBalance(s: Scan, w: LaneWord, k: nat, startedInFrame: bool)
    requires k <= LaneCount && SlotsBalance(s, startedInFrame)
    ensures DecodeLanes(s, w, k).Ok? ==> SlotsBalance(DecodeLanes(s, w, k).value, startedInFrame)
    decreases LaneCount - k
  {
    if k < LaneCount {
      var r := LaneStep(s, IsControl(w.ctrl, k), w.data[k]);
      if r.Ok? {
        DecodeLanesBalance(r.value, w, k + 1, startedInFrame);
      }
    }
  }

  lemma {:induction false} DecodeWordsBalance(s: Scan, ws: seq<LaneWord>, startedInFrame: bool)
    requires SlotsBalance(s, startedInFrame)
    ensures DecodeWords(s, ws).Ok? ==> SlotsBalance(DecodeWords(s, ws).value, startedInFrame)
    decreases |ws|
  {
    if ws != [] {
      DecodeLanesBalance(s, ws[0], 0, startedInFrame);
      if DecodeWord(s, ws[0]).Ok? {
        DecodeWordsBalance(DecodeWord(s, ws[0]).value, ws[1..], startedInFrame);
      }
    }
  }

  /** A call that starts out of frame closes no more packets than it opens
      slots, so none of them is written into slot 0. */
  lemma SlotZeroUnused(ws: seq<LaneWord>)
    ensures DecodeWords(StartScan(false), ws).Ok? ==>
      |DecodeWords(StartScan(false), ws).value.done| <= DecodeWords(StartScan(false), ws).value.slot
  {
    DecodeWordsBalance(StartScan(false), ws, false);
  }

  /** What one call of xgmii_to_mbuf leaves behind. */
  datatype DecodeStep = DecodeStep(
    inFrame: bool,
    ring: Ring.Ring<Packet>,
    accepted: nat,
    dropped: nat,
    releasedPackets: seq<Packet>,
    releasedWords: seq<LaneWord>)

  /** No output and no change apart from the flag. */
  function Quiet(inFrame: bool, out: Ring.Ring<Packet>): DecodeStep
  {
    DecodeStep(inFrame, out, 0, 0, [], [])
  }

  /** One call of xgmii_to_mbuf on the words its dequeue returned (at most
      xgmiiBurstSz are asked for; XGMII_BURST_SZ is not defined in the
      repository, so it is a positive parameter).

      An empty or over-long dequeue returns at once. A call that saw no /S/
      ends without enqueuing anything (and, as in the source, without
      releasing the dequeued words). Otherwise the packets closed in this call
      are offered to the ring in the order they were closed; the refused ones
      are released and counted as dropped, and the dequeued words are
      released. A packet still open at the end of the call is discarded, and
      only the flag carries over. (The source offers all PKT_BURST_SZ
      allocated buffers, frees slots from the accepted count up to the
      number of WORDS, and bumps the counters of an uninitialised port_id;
      the model offers the closed packets and returns the two counts.) */
  function XgmiiToMbuf(inFrame: bool, words: seq<LaneWord>, xgmiiBurstSz: nat,
                       out: Ring.Ring<Packet>): (r: Result<DecodeStep, Violation>)
    requires xgmiiBurstSz > 0 && Ring.Valid(out)
    ensures |words| == 0 || |words| > xgmiiBurstSz ==> r == Ok(Quiet(inFrame, out))
    ensures 0 < |words| <= xgmiiBurstSz && DecodeWords(StartScan(inFrame), words).Err? ==>
      r == Err(DecodeWords(StartScan(inFrame), words).error)
    ensures 0 < |words| <= xgmiiBurstSz && DecodeWords(StartScan(inFrame), words).Ok? ==>
      var s := DecodeWords(StartScan(inFrame), words).value;
        && r.Ok?
        && r.value.inFrame == s.inFrame
        && (s.slot == 0 ==> r.value == Quiet(s.inFrame, out))
        && (s.slot > 0 ==>
              && r.value.accepted + r.value.dropped == |s.done|
              && r.value.ring.items == out.items + s.done[..r.value.accepted]
              && (r.value.accepted == |s.done| || |r.value.ring.items| == out.capacity)
              && r.value.releasedPackets == s.done[r.value.accepted..]
              && r.value.releasedWords == words)
    ensures r.Ok? ==> Ring.Valid(r.value.ring) && r.value.ring.capacity == out.capacity
  {
    if |words| > xgmiiBurstSz || |words| == 0 then Ok(Quiet(inFrame, out))
    else
      match DecodeWords(StartScan(inFrame), words)
      case Err(v) => Err(v)
      case Ok(s) =>
        if s.slot == 0 then Ok(Quiet(s.inFrame, out))
        else
          var e := Ring.EnqueueBurst(out, s.done);
          Ok(DecodeStep(s.inFrame, e.ring, e.accepted, |s.done| - e.accepted,
                        s.done[e.accepted..], words))
  }
}

=== FILE: encoder.dfy ===
/** mbuf_to_xgmii (wrapper/festoon_xgmii.cpp): turns one dequeued burst of
    packet buffers into lane words and enqueues them towards the simulation.

    Every non-null packet becomes a start word, one data word per 8 bytes
    (the last one possibly short) and an end word. The code as written stores
    the last, short word unmasked (marked TODO in the source); this model uses
    the masked form, in which the lanes past the packet end are control lanes
    holding /I/. The unmasked form is EncodeFrameAsWritten in module
    XgmiiFindings. */
module XgmiiEncoder {
  import opened Base
  import opened Lanes
  import Ring

  /** ceil(len / 8): the number of data words a packet of len bytes needs. */
  function DataWordCount(len: nat): nat
  {
    (len + 7) / 8
  }

  /** Control byte of a short final word with r data lanes: lanes r..7 are
      control lanes. */
  function PadMask(r: nat): byte
    requires 0 < r < LaneCount
  {
    (0xFF as bv8) << r
  }

  /** The short final word of a packet whose length is not a multiple of 8:
      its bytes in the low lanes, /I/ control characters in the rest. */
  function PartialWord(tail: Packet): (w: LaneWord)
    requires 0 < |tail| < LaneCount
    ensures forall k :: 0 <= k < |tail| ==> w.data[k] == tail[k] && !IsControl(w.ctrl, k)
    ensures forall k :: |tail| <= k < LaneCount ==> w.data[k] == IdleChar && IsControl(w.ctrl, k)
  {
    LaneWord(PadMask(|tail|), tail + seq(LaneCount - |tail|, _ => IdleChar))
  }

  /** The data words of a packet: word k carries bytes [8k, 8k+8) with every
      lane marked as data; a short tail becomes a PartialWord. */
  function DataWords(p: Packet): (ws: seq<LaneWord>)
    ensures |ws| == DataWordCount(|p|)
    ensures forall k :: 0 <= k < |ws| && 8 * k + 8 <= |p| ==>
              ws[k] == LaneWord(0x00, p[8 * k .. 8 * k + 8])
    decreases |p|
  {
    if |p| == 0 then []
    else if |p| < LaneCount then [PartialWord(p)]
    else
      var rest := DataWords(p[8..]);
      assert forall k :: 1 <= k < 1 + |rest| && 8 * k + 8 <= |p| ==>
        p[8..][8 * (k - 1) .. 8 * (k - 1) + 8] == p[8 * k .. 8 * k + 8];
      [LaneWord(0x00, p[..8])] + rest
  }

  /** A packet whose length is not a multiple of 8 ends in a PartialWord
      holding its last |p| % 8 bytes. */
  lemma {:induction false} DataWordsTail(p: Packet)
    requires |p| % 8 != 0
    ensures DataWords(p)[|DataWords(p)| - 1] == PartialWord(p[8 * (|DataWords(p)| - 1)..])
    decreases |p|
  {
    if |p| >= LaneCount {
      var rest := DataWords(p[8..]);
      assert (|p| - 8) % 8 == |p| % 8;
      DataWordsTail(p[8..]);
      assert p[8..][8 * (|rest| - 1)..] == p[8 * |rest|..];
    }
  }

  /** The lane words of one packet: start word, data words, end word. */
  function EncodeFrame(p: Packet): (ws: seq<LaneWord>)
    ensures |ws| == 2 + DataWordCount(|p|)
    ensures ws[0] == StartWord() && ws[|ws| - 1] == EndWord()
    ensures ws[1 .. |ws| - 1] == DataWords(p)
  {
    [StartWord()] + DataWords(p) + [EndWord()]
  }

  /** The lane words of the packets of a burst, in dequeue order; null
      entries are skipped. */
  function EncodeFrames(burst: seq<Option<Mbuf>>): seq<LaneWord>
  {
    if burst == [] then []
    else
      (if burst[0].None? then [] else EncodeFrame(burst[0].value.bytes))
      + EncodeFrames(burst[1..])
  }

  /** Number of words a burst encodes to: 2 + ceil(L/8) per non-null packet. */
  function EncodedLength(burst: seq<Option<Mbuf>>): nat
  {
    if burst == [] then 0
    else
      (if burst[0].None? then 0 else 2 + DataWordCount(|burst[0].value.bytes|))
      + EncodedLength(burst[1..])
  }

  /** The word sequence for one dequeued burst. A dequeue count above
      PKT_BURST_SZ is answered with a single idle word. */
  function EncodeBurst(burst: seq<Option<Mbuf>>): (ws: seq<LaneWord>)
    ensures |burst| > PktBurstSz ==> ws == [IdleWord()]
    ensures |burst| <= PktBurstSz ==> |ws| == EncodedLength(burst)
    ensures |burst| <= PktBurstSz && (forall i :: 0 <= i < |burst| ==> burst[i].None?) ==> ws == []
  {
    if |burst| > PktBurstSz then [IdleWord()]
    else
      EncodeFramesLength(burst);
      EncodeFramesOfNulls(burst);
      EncodeFrames(burst)
  }

  lemma {:induction false} EncodeFramesLength(burst: seq<Option<Mbuf>>)
    ensures |EncodeFrames(burst)| == EncodedLength(burst)
    decreases |burst|
  {
    if burst != [] {
      EncodeFramesLength(burst[1..]);
    }
  }

  lemma {:induction false} EncodeFramesOfNulls(burst: seq<Option<Mbuf>>)
    ensures (forall i :: 0 <= i < |burst| ==> burst[i].None?) ==> EncodeFrames(burst) == []
    decreases |burst|
  {
    if burst != [] {
      EncodeFramesOfNulls(burst[1..]);
    }
  }

  /** Encoding a burst split in two is encoding each part, in order. */
  lemma {:induction false} EncodeFramesAppend(a: seq<Option<Mbuf>>, b: seq<Option<Mbuf>>)
    ensures EncodeFrames(a + b) == EncodeFrames(a) + EncodeFrames(b)
    decreases |a|
  {
    if a == [] {
      assert a + b == b;
    } else {
      var head := if a[0].None? then [] else EncodeFrame(a[0].value.bytes);
      assert (a + b)[0] == a[0];
      assert (a + b)[1..] == a[1..] + b;
      assert EncodeFrames(a + b) == head + EncodeFrames(a[1..] + b);
      EncodeFramesAppend(a[1..], b);
      assert EncodeFrames(a) == head + EncodeFrames(a[1..]);
    }
  }

  /** What one call of mbuf_to_xgmii does besides building the words: how
      many words the ring took, how many it refused, and which buffers are
      handed back to the pool. */
  datatype EncodeStep = EncodeStep(
    ring: Ring.Ring<LaneWord>,
    accepted: nat,
    dropped: nat,
    releasedPackets: seq<Option<Mbuf>>,
    releasedWords: seq<LaneWord>)

  /** One call of mbuf_to_xgmii on the burst its dequeue returned. All
      dequeued packet buffers are released; the words the ring refuses are
      released and counted as dropped. (The source frees `nb_rx - nb_tx`
      word buffers where it means `xgm_buf_counter - nb_tx`, and bumps the
      counters of an uninitialised port_id; the model releases exactly the
      refused words and returns the two counts.) */
  function MbufToXgmii(burst: seq<Option<Mbuf>>, out: Ring.Ring<LaneWord>): (s: EncodeStep)
    requires Ring.Valid(out)
    ensures var ws := EncodeBurst(burst);
      && s.accepted + s.dropped == |ws|
      && s.ring.items == out.items + ws[..s.accepted]
      && s.releasedWords == ws[s.accepted..]
      && (s.accepted == |ws| || |s.ring.items| == out.capacity)
    ensures s.releasedPackets == burst
    ensures Ring.Valid(s.ring) && s.ring.capacity == out.capacity
  {
    var ws := EncodeBurst(burst);
    var e := Ring.EnqueueBurst(out, ws);
    EncodeStep(e.ring, e.accepted, |ws| - e.accepted, burst, ws[e.accepted..])
  }
}

=== FILE: findings.dfy ===
/** The XGMII bridge as written, where it departs from what it evidently
    intends. Each definition here models one such place of
    wrapper/festoon_xgmii.cpp and is paired with a lemma that exhibits the
    discrepancy; the corrected definitions live in XgmiiEncoder and
    XgmiiDecoder. */
module XgmiiFindings {
  import opened Base
  import opened Lanes
  import opened XgmiiEncoder
  import opened XgmiiDecoder
  import opened XgmiiRoundTrip
  import Ring

  // ---- 1. the short final word is sent unmasked ---------------------------

  /** Bytes the final, short 64-bit load reads past the end of a packet of
      len bytes. */
  function TailPad(len: nat): (n: nat)
    ensures n < 8 && (len + n) % 8 == 0
    ensures len % 8 != 0 <==> n > 0
  {
    (8 - len % 8) % 8
  }

  /** The data words as the encoder writes them: every word is a full 64-bit
      load from the packet buffer marked as eight data lanes, so a short final
      word carries whatever bytes follow the packet in its buffer (beyond). */
  function DataWordsAsWritten(p: Packet, beyond: Packet): (ws: seq<LaneWord>)
    requires |beyond| >= 7
    ensures |ws| == DataWordCount(|p|)
    decreases |p|
  {
    if |p| == 0 then []
    else if |p| < LaneCount then [LaneWord(0x00, (p + beyond)[..8])]
    else [LaneWord(0x00, p[..8])] + DataWordsAsWritten(p[8..], beyond)
  }

  function EncodeFrameAsWritten(p: Packet, beyond: Packet): seq<LaneWord>
    requires |beyond| >= 7
  {
    [StartWord()] + DataWordsAsWritten(p, beyond) + [EndWord()]
  }

  /** The words written for p are those of a packet padded with the bytes
      that follow it in its buffer. */
  lemma {:induction false} DataWordsAsWrittenPad(p: Packet, beyond: Packet)
    requires |beyond| >= 7
    ensures DataWordsAsWritten(p, beyond) == DataWords(p + beyond[..TailPad(|p|)])
    decreases |p|
  {
    var q := p + beyond[..TailPad(|p|)];
    if |p| == 0 {
      assert q == [];
    } else if |p| < LaneCount {
      assert |q| == 8;
      assert q[..8] == (p + beyond)[..8];
      assert q[8..] == [];
      assert DataWords(q) == [LaneWord(0x00, q[..8])] + DataWords(q[8..]);
    } else {
      assert TailPad(|p[8..]|) == TailPad(|p|);
      assert q[..8] == p[..8];
      assert q[8..] == p[8..] + beyond[..TailPad(|p|)];
      DataWordsAsWrittenPad(p[8..], beyond);
    }
  }

  /** The round trip of a packet through the encoder as written: the decoder
      hands back the packet followed by the TailPad(|p|) bytes that happened
      to follow it in memory, so for every length that is not a multiple of 8
      the received packet is longer than the one sent. */
  lemma UnmaskedTailRoundTrip(s: Scan, p: Packet, beyond: Packet)
    requires !s.inFrame && |beyond| >= 7
    ensures DecodeWords(s, EncodeFrameAsWritten(p, beyond))
            == Ok(AfterFrame(s, p + beyond[..TailPad(|p|)]))
    ensures |p| % 8 != 0 ==> TailPad(|p|) > 0
  {
    var q := p + beyond[..TailPad(|p|)];
    DataWordsAsWrittenPad(p, beyond);
    FrameRoundTrip(s, q);
    SameFrame(EncodeFrameAsWritten(p, beyond), EncodeFrame(q), DataWordsAsWritten(p, beyond), DataWords(q));
  }

  lemma SameFrame(a: seq<LaneWord>, b: seq<LaneWord>, da: seq<LaneWord>, db: seq<LaneWord>)
    requires a == [StartWord()] + da + [EndWord()] && b == [StartWord()] + db + [EndWord()]
    requires da == db
    ensures a == b
  {
  }

  /** One byte sent, eight bytes (after the preamble) received. */
  lemma UnmaskedTailExample()
    ensures DecodeWords(StartScan(false), EncodeFrameAsWritten([0x2A], [0, 0, 0, 0, 0, 0, 0])).Ok?
    ensures DecodeWords(StartScan(false), EncodeFrameAsWritten([0x2A], [0, 0, 0, 0, 0, 0, 0])).value.done
            == [Preamble + [0x2A, 0, 0, 0, 0, 0, 0, 0]]
  {
    var beyond: Packet := [0, 0, 0, 0, 0, 0, 0];
    UnmaskedTailRoundTrip(StartScan(false), [0x2A], beyond);
    assert TailPad(1) == 7;
    assert beyond[..7] == beyond;
    assert [0x2A] + beyond == [0x2A, 0, 0, 0, 0, 0, 0, 0];
  }

  // ---- 2. the in-frame test looks at the pointer --------------------------

  /** One lane as the decoder is written: the /S/ and /T/ checks test the
      pointer pkt_start_entered, which is never null, instead of the flag, so
      /S/ is always "Multiple packet starts" and /T/ is always accepted. */
  function LaneStepPointerTest(s: Scan, isControl: bool, b: byte): Result<Scan, Violation>
  {
    if !isControl then LaneStep(s, isControl, b)
    else if b == StartChar then Err(MultiplePacketStarts)
    else if b == TerminateChar then
      Ok(s.(inFrame := false, index := 0, done := if s.inFrame then s.done + [s.current] else s.done))
    else Ok(s)
  }

  function DecodeLanesPointerTest(s: Scan, w: LaneWord, k: nat): Result<Scan, Violation>
    requires k <= LaneCount
    decreases LaneCount - k
  {
    if k == LaneCount then Ok(s)
    else
      match LaneStepPointerTest(s, IsControl(w.ctrl, k), w.data[k])
      case Err(v) => Err(v)
      case Ok(s') => DecodeLanesPointerTest(s', w, k + 1)
  }

  function DecodeWordsPointerTest(s: Scan, ws: seq<LaneWord>): Result<Scan, Violation>
    decreases |ws|
  {
    if ws == [] then Ok(s)
    else
      match DecodeLanesPointerTest(s, ws[0], 0)
      case Err(v) => Err(v)
      case Ok(s') => DecodeWordsPointerTest(s', ws[1..])
  }

  /** With the pointer test, every frame the encoder produces is rejected at
      its start word, whatever state the decoder is in. */
  lemma PointerTestRejectsEveryFrame(s: Scan, p: Packet)
    ensures DecodeWordsPointerTest(s, EncodeFrame(p)) == Err(MultiplePacketStarts)
  {
    assert EncodeFrame(p)[0] == StartWord();
  }

  // ---- 3. only lane 0 of each word is examined ----------------------------

  /** One word as the decoder is written: the lane loop runs up to
      sizeof(CData), which is 1, so only lane 0 is examined. */
  function DecodeWordLaneZero(s: Scan, w: LaneWord): Result<Scan, Violation>
  {
    LaneStep(s, IsControl(w.ctrl, 0), w.data[0])
  }

  function DecodeWordsLaneZero(s: Scan, ws: seq<LaneWord>): Result<Scan, Violation>
    decreases |ws|
  {
    if ws == [] then Ok(s)
    else
      match DecodeWordLaneZero(s, ws[0])
      case Err(v) => Err(v)
      case Ok(s') => DecodeWordsLaneZero(s', ws[1..])
  }

  /** A packet of one to eight bytes comes back as its first byte alone, while
      the corrected decoder returns all of it behind the preamble. */
  lemma LaneZeroLosesBytes(p: Packet)
    requires 0 < |p| <= 8
    ensures DecodeWordsLaneZero(StartScan(false), EncodeFrame(p))
            == Ok(Scan(false, 0, 1, [p[0]], [[p[0]]]))
    ensures DecodeWords(StartScan(false), EncodeFrame(p)) == Ok(AfterFrame(StartScan(false), p))
  {
    var ws := EncodeFrame(p);
    var d := DataWords(p);
    assert |d| == 1;
    assert d[0].data[0] == p[0] && !IsControl(d[0].ctrl, 0);
    assert ws == [StartWord(), d[0], EndWord()];
    var s1 := Scan(true, 0, 1, [], []);
    var s2 := Scan(true, 1, 1, [p[0]], []);
    var s3 := Scan(false, 0, 1, [p[0]], [[p[0]]]);
    assert s1.current + [p[0]] == [p[0]];
    assert s2.done + [s2.current] == [[p[0]]];
    assert DecodeWordLaneZero(StartScan(false), StartWord()) == Ok(s1);
    assert DecodeWordLaneZero(s1, d[0]) == Ok(s2);
    assert DecodeWordLaneZero(s2, EndWord()) == Ok(s3);
    assert ws[1..] == [d[0], EndWord()];
    assert ws[1..][1..] == [EndWord()];
    assert DecodeWordsLaneZero(s2, [EndWord()]) == Ok(s3);
    assert DecodeWordsLaneZero(s1, ws[1..]) == Ok(s3);
    FrameRoundTrip(StartScan(false), p);
  }

  // ---- 4. the encoder frees the wrong number of refused words -------------

  /** How many refused word buffers the encoder as written frees: it
      subtracts the accepted count from the number of dequeued PACKETS
      (nb_rx) instead of the number of words built, in 32-bit unsigned
      arithmetic. */
  function FreedWordsAsWritten(burst: seq<Option<Mbuf>>, out: Ring.Ring<LaneWord>): nat
    requires Ring.Valid(out)
  {
    var s := MbufToXgmii(burst, out);
    if s.accepted < |EncodeBurst(burst)| then (|burst| - s.accepted) % U32Modulus else 0
  }

  /** One 8-byte packet offered to a full ring builds three words, all three
      refused, but only one is freed. */
  lemma FreedWordsExample(b: Packet, out: Ring.Ring<LaneWord>)
    requires |b| == 8 && Ring.Valid(out) && |out.items| == out.capacity
    ensures MbufToXgmii([Some(Mbuf(0, b))], out).dropped == 3
    ensures FreedWordsAsWritten([Some(Mbuf(0, b))], out) == 1
  {
    var burst := [Some(Mbuf(0, b))];
    assert EncodedLength(burst[1..]) == 0;
    assert |EncodeBurst(burst)| == 3;
  }

  // ---- 5. the decoder enqueues its allocated buffers, not the packets -----

  /** An output buffer of the decoder as written: its index in pkts_burst
      and its data length. The decoder writes bytes into the data room but
      never sets a length, so every buffer keeps the length 0 it had when
      allocated, and its consumer receives an empty packet. */
  datatype OutBuf = OutBuf(slot: nat, dataLen: nat)

  /** The PKT_BURST_SZ buffers of rte_pktmbuf_alloc_bulk, in slot order. */
  function Allocated(): seq<OutBuf>
  {
    seq(PktBurstSz, j requires 0 <= j => OutBuf(j, 0))
  }

  /** What one call as written leaves behind: the flag, the ring, nb_tx, and
      the slots it frees (slot numbers from PKT_BURST_SZ on lie past the
      pkts_burst array). */
  datatype AsWrittenStep = AsWrittenStep(inFrame: bool, ring: Ring.Ring<OutBuf>, accepted: nat, freedSlots: seq<nat>)

  /** A call that gets past the early returns: the dequeue is in range, the
      words decode, and they hold a /S/ (pkt_buf_counter > 0). */
  predicate Opens(inFrame: bool, words: seq<LaneWord>, xgmiiBurstSz: nat)
  {
    && 0 < |words| <= xgmiiBurstSz
    && DecodeWords(StartScan(inFrame), words).Ok?
    && DecodeWords(StartScan(inFrame), words).value.slot > 0
  }

  /** The output stage of xgmii_to_mbuf as written, after the corrected lane
      decoding: once a /S/ was seen, all PKT_BURST_SZ allocated buffers are
      offered to the ring in slot order, whatever was closed; when the ring
      takes fewer than nb_rx, the number of dequeued WORDS, slots nb_tx up to
      nb_rx are freed. */
  function XgmiiToMbufAsWritten(inFrame: bool, words: seq<LaneWord>, xgmiiBurstSz: nat,
                                out: Ring.Ring<OutBuf>): (r: Result<AsWrittenStep, Violation>)
    requires xgmiiBurstSz > 0 && Ring.Valid(out)
    ensures r.Ok? ==> Ring.Valid(r.value.ring) && r.value.ring.capacity == out.capacity
    ensures r.Ok? ==>
      && |r.value.ring.items| == |out.items| + r.value.accepted <= |out.items| + PktBurstSz
      && r.value.ring.items[..|out.items|] == out.items
      && forall j :: |out.items| <= j < |r.value.ring.items| ==>
           r.value.ring.items[j] == OutBuf(j - |out.items|, 0)
    ensures r.Ok? ==> forall k :: 0 <= k < |r.value.freedSlots| ==>
      r.value.accepted <= r.value.freedSlots[k] == r.value.accepted + k < |words|
    ensures DecodeWords(StartScan(inFrame), words).Err? && 0 < |words| <= xgmiiBurstSz <==> r.Err?
    ensures Opens(inFrame, words, xgmiiBurstSz) ==>
      && r.Ok?
      && (r.value.accepted == PktBurstSz || |r.value.ring.items| == out.capacity)
      && |r.value.freedSlots| == (if r.value.accepted < |words| then |words| - r.value.accepted else 0)
    ensures r.Ok? && !Opens(inFrame, words, xgmiiBurstSz) ==>
      r.value.ring == out && r.value.accepted == 0 && r.value.freedSlots == []
  {
    if |words| > xgmiiBurstSz || |words| == 0 then Ok(AsWrittenStep(inFrame, out, 0, []))
    else
      match DecodeWords(StartScan(inFrame), words)
      case Err(v) => Err(v)
      case Ok(s) =>
        if s.slot == 0 then Ok(AsWrittenStep(s.inFrame, out, 0, []))
        else
          var e := Ring.EnqueueBurst(out, Allocated());
          var freed := if e.accepted < |words| then seq(|words| - e.accepted, k => e.accepted + k) else [];
          Ok(AsWrittenStep(s.inFrame, e.ring, e.accepted, freed))
  }

  /** One call on the words of a packet p, from out of frame, with an empty
      ring: the corrected decoder enqueues the single packet Preamble + p,
      while the code as written enqueues as many of the 32 allocated buffers
      as fit, each of length 0, starting with slot 0, which received no byte
      since p was written into slot 1. */
  lemma OnePacketAsWritten(p: Packet, xgmiiBurstSz: nat, c: nat)
    requires |EncodeFrame(p)| <= xgmiiBurstSz && c > 0
    ensures var r := XgmiiToMbuf(false, EncodeFrame(p), xgmiiBurstSz, Ring.Ring([], c));
      r.Ok? && r.value.ring.items == [Preamble + p]
    ensures var r := XgmiiToMbufAsWritten(false, EncodeFrame(p), xgmiiBurstSz, Ring.Ring([], c));
      && r.Ok?
      && |r.value.ring.items| == (if c < PktBurstSz then c else PktBurstSz)
      && r.value.ring.items[0] == OutBuf(0, 0)
      && forall j :: 0 <= j < |r.value.ring.items| ==> r.value.ring.items[j].dataLen == 0
    ensures DecodeWords(StartScan(false), EncodeFrame(p)).Ok?
    ensures DecodeWords(StartScan(false), EncodeFrame(p)).value.slot == 1
  {
    FrameRoundTrip(StartScan(false), p);
    assert [] + [Preamble + p] == [Preamble + p];
  }

  // ---- 6. the word index is eight bits wide -------------------------------

  /** Modulus of the uint8_t word index `i` of xgmii_to_mbuf. */
  const WordIndexModulus: nat := 0x100

  /** The word loop `for (i = 0; i < nb_rx; i++)` run for at most fuel
      iterations, with an index that wraps modulo 256 as the uint8_t of the
      code does (wraps) or one as wide as nb_rx (the corrected loop).
      Some(n) when the test fails after n iterations, None when it still
      holds once the fuel is spent. */
  function WordLoop(i: nat, nbRx: nat, wraps: bool, fuel: nat): Option<nat>
    decreases fuel
  {
    if i >= nbRx then Some(0)
    else if fuel == 0 then None
    else
      var next := if wraps then (i + 1) % WordIndexModulus else i + 1;
      match WordLoop(next, nbRx, wraps, fuel - 1)
      case None => None
      case Some(n) => Some(n + 1)
  }

  /** As written, a dequeue of 256 words or more never ends the loop: the
      index wraps to 0 before it reaches nb_rx, however many iterations are
      allowed. */
  lemma {:induction false} WordLoopNeverEnds(i: nat, nbRx: nat, fuel: nat)
    requires i < WordIndexModulus <= nbRx
    ensures WordLoop(i, nbRx, true, fuel) == None
    decreases fuel
  {
    if fuel > 0 {
      WordLoopNeverEnds((i + 1) % WordIndexModulus, nbRx, fuel - 1);
    }
  }

  /** The corrected loop visits every dequeued word once and ends after
      exactly nb_rx - i iterations, for any nb_rx; so does the loop as
      written while nb_rx stays below 256. */
  lemma {:induction false} WordLoopVisitsAll(i: nat, nbRx: nat, wraps: bool, fuel: nat)
    requires i <= nbRx && nbRx - i <= fuel
    requires wraps ==> nbRx < WordIndexModulus
    ensures WordLoop(i, nbRx, wraps, fuel) == Some(nbRx - i)
    decreases fuel
  {
    if i < nbRx {
      WordLoopVisitsAll(i + 1, nbRx, wraps, fuel - 1);
    }
  }
}

=== FILE: kni.dfy ===
/** The KNI side of a port (wrapper/festoon_kni.cpp and
    wrapper/festoon_common.cpp): kni_egress moves packets from the
    bridge's transmit ring into the kernel's KNI devices, kni_ingress moves
    packets the kernel sent into the bridge's receive ring, and
    kni_burst_free_mbufs releases what could not be passed on.

    What each ring dequeue or rte_kni_rx_burst returned is a parameter (one
    burst per device), so the code's guard against an oversized burst stays
    reachable; every enqueue goes through module Ring, and the queue of a
    KNI device towards the kernel is such a ring too. */
module Kni {
  import opened Base
  import Ring

  /** struct kni_interface_stats, without the xgmii_* arrays. */
  datatype KniStats = KniStats(
    ethRxPackets: u64, ethRxDropped: u64,
    ethTxPackets: u64, ethTxDropped: u64,
    kniRxPackets: u64, kniRxDropped: u64,
    kniTxPackets: u64, kniTxDropped: u64)

  /** kni_stats: one record per port. */
  type StatsTable = seq<KniStats>

  /** The part of struct kni_port_params these loops use: the port id and
      one kernel queue per KNI device (nb_kni is |toKernel|). */
  datatype KniPort = KniPort(portId: nat, toKernel: seq<Ring.Ring<Mbuf>>)

  function Sum(xs: seq<nat>): nat
    decreases |xs|
  {
    if xs == [] then 0 else Sum(xs[..|xs| - 1]) + xs[|xs| - 1]
  }

  function Concat<T>(xss: seq<seq<T>>): seq<T>
    decreases |xss|
  {
    if xss == [] then [] else Concat(xss[..|xss| - 1]) + xss[|xss| - 1]
  }

  lemma SumAppend(xs: seq<nat>, x: nat)
    ensures Sum(xs + [x]) == Sum(xs) + x
  {
    assert (xs + [x])[..|xs|] == xs;
  }

  lemma ConcatAppend<T>(xss: seq<seq<T>>, xs: seq<T>)
    ensures Concat(xss + [xs]) == Concat(xss) + xs
  {
    assert (xss + [xs])[..|xss|] == xss;
  }

  // ------------------------------------------------------ kni_burst_free_mbufs

  /** kni_burst_free_mbufs: releases the first num entries of the array
      (rte_pktmbuf_free ignores NULL) and sets each to NULL; a NULL array
      does nothing. Returns the array afterwards and the entries released,
      in order. */
  method BurstFreeMbufs(pkts: Option<seq<Option<Mbuf>>>, num: nat)
    returns (after: Option<seq<Option<Mbuf>>>, freed: seq<Mbuf>)
    requires pkts.Some? ==> num <= |pkts.value|
    ensures pkts.None? ==> after.None? && freed == []
    ensures pkts.Some? ==> after.Some? && |after.value| == |pkts.value|
    ensures pkts.Some? ==> forall k :: 0 <= k < num ==> after.value[k].None?
    ensures pkts.Some? ==> after.value[num..] == pkts.value[num..]
    ensures pkts.Some? ==> freed == Present(pkts.value[..num])
  {
    if pkts.None? {
      return None, [];
    }
    var a := pkts.value;
    freed := [];
    var i := 0;
    while i < num
      invariant 0 <= i <= num && |a| == |pkts.value|
      invariant forall k :: 0 <= k < i ==> a[k].None?
      invariant a[i..] == pkts.value[i..]
      invariant freed == Present(pkts.value[..i])
    {
      PresentAppend(pkts.value[..i], pkts.value[i]);
      assert pkts.value[..i + 1] == pkts.value[..i] + [pkts.value[i]];
      if a[i].Some? {
        freed := freed + [a[i].value];
      }
      a := a[i := None];
      i := i + 1;
    }
    after := Some(a);
  }

  /** The handles among optional entries, in order. */
  function Present(xs: seq<Option<Mbuf>>): seq<Mbuf>
    decreases |xs|
  {
    if xs == [] then []
    else Present(xs[..|xs| - 1]) + (if xs[|xs| - 1].Some? then [xs[|xs| - 1].value] else [])
  }

  lemma PresentAppend(xs: seq<Option<Mbuf>>, x: Option<Mbuf>)
    ensures Present(xs + [x]) == Present(xs) + (if x.Some? then [x.value] else [])
  {
    assert (xs + [x])[..|xs|] == xs;
  }

  /** A burst of handles as the entries of a pkts_burst array. */
  function Handles(ms: seq<Mbuf>): (xs: seq<Option<Mbuf>>)
    ensures |xs| == |ms| && forall i :: 0 <= i < |ms| ==> xs[i] == Some(ms[i])
  {
    seq(|ms|, i requires 0 <= i < |ms| => Some(ms[i]))
  }

  /** Releasing a burst of non-null handles releases exactly them. */
  lemma {:induction false} PresentAll(ms: seq<Mbuf>)
    ensures Present(Handles(ms)) == ms
    decreases |ms|
  {
    if ms != [] {
      var init := ms[..|ms| - 1];
      assert Handles(ms)[..|ms| - 1] == Handles(init);
      PresentAll(init);
      assert ms == init + [ms[|ms| - 1]];
    }
  }

  // ------------------------------------------------------ one device's burst

  /** What one KNI device's burst leaves behind: the queue it was offered
      to, how many packets that queue took, the packets released, and the
      port's stats record. */
  datatype Offered = Offered(queue: Ring.Ring<Mbuf>, accepted: nat, released: seq<Mbuf>, stats: KniStats)

  /** Offers a burst to a queue and releases what it refuses (the body of
      either loop). egress says which pair of counters is kept. */
  method OfferBurst(q: Ring.Ring<Mbuf>, burst: seq<Mbuf>, s: KniStats, egress: bool) returns (o: Offered)
    requires Ring.Valid(q)
    ensures o.accepted <= |burst| && (o.accepted == |burst| || o.accepted == Ring.Free(q))
    ensures o.queue == Ring.Ring(q.items + burst[..o.accepted], q.capacity) && Ring.Valid(o.queue)
    ensures o.released == burst[o.accepted..]
    ensures o.stats == Count(s, egress, o.accepted, |o.released|)
  {
    var e := Ring.EnqueueBurst(q, burst);
    var num := e.accepted;
    var st := s;
    if num > 0 {
      st := Count(st, egress, num, 0);
    }
    var released := [];
    if num < |burst| {
      var _, freed := BurstFreeMbufs(Some(Handles(burst[num..])), |burst| - num);
      PresentAll(burst[num..]);
      assert Handles(burst[num..])[..|burst| - num] == Handles(burst[num..]);
      released := freed;
      st := Count(st, egress, 0, |burst| - num);
    }
    CountSteps(s, egress, num, |burst| - num);
    o := Offered(e.ring, num, released, st);
  }

  /** Adds n packets passed on and d dropped to the receive-side counters
      (egress, towards the kernel) or to the transmit-side ones (ingress). */
  function Count(s: KniStats, egress: bool, n: nat, d: nat): KniStats
  {
    if egress then s.(kniRxPackets := Add64(s.kniRxPackets, n), kniRxDropped := Add64(s.kniRxDropped, d))
    else s.(kniTxPackets := Add64(s.kniTxPackets, n), kniTxDropped := Add64(s.kniTxDropped, d))
  }

  /** Counting in two steps is counting the totals; counting nothing
      changes nothing. */
  lemma CountTwice(s: KniStats, egress: bool, n: nat, d: nat, m: nat, e: nat)
    ensures Count(Count(s, egress, n, d), egress, m, e) == Count(s, egress, n + m, d + e)
  {
    Add64Twice(s.kniRxPackets, n, m);
    Add64Twice(s.kniRxDropped, d, e);
    Add64Twice(s.kniTxPackets, n, m);
    Add64Twice(s.kniTxDropped, d, e);
  }

  lemma CountNothing(s: KniStats, egress: bool)
    ensures Count(s, egress, 0, 0) == s
  {
    Add64Zero(s.kniRxPackets);
    Add64Zero(s.kniRxDropped);
    Add64Zero(s.kniTxPackets);
    Add64Zero(s.kniTxDropped);
  }

  /** The two guarded updates of the loop body add up to one count. */
  lemma CountSteps(s: KniStats, egress: bool, n: nat, d: nat)
    ensures (var s1 := if n > 0 then Count(s, egress, n, 0) else s;
             if d > 0 then Count(s1, egress, 0, d) else s1) == Count(s, egress, n, d)
  {
    CountNothing(s, egress);
    CountTwice(s, egress, n, 0, 0, d);
    CountNothing(Count(s, egress, n, 0), egress);
    CountNothing(Count(s, egress, 0, d), egress);
    CountTwice(s, egress, 0, 0, n, d);
  }

  // --------------------------------------------------- what the loops handled

  /** What one of the two loops leaves behind. completed is false when a
      burst above PKT_BURST_SZ ended the loop early; accepted[i] is the
      number of packets passed on for device i, for each device handled. */
  datatype Step = Step(stats: StatsTable, accepted: seq<nat>, released: seq<Mbuf>, completed: bool)

  predicate Fits(bursts: seq<seq<Mbuf>>, accepted: seq<nat>)
  {
    |accepted| <= |bursts| && forall i :: 0 <= i < |accepted| ==> accepted[i] <= |bursts[i]|
  }

  /** The packets left over from the handled bursts, device by device. */
  function Leftovers(bursts: seq<seq<Mbuf>>, accepted: seq<nat>): seq<Mbuf>
    requires Fits(bursts, accepted)
  {
    Concat(seq(|accepted|, i requires 0 <= i < |accepted| => bursts[i][accepted[i]..]))
  }

  /** The packets passed on from the handled bursts, device by device. */
  function Passed(bursts: seq<seq<Mbuf>>, accepted: seq<nat>): seq<Mbuf>
    requires Fits(bursts, accepted)
  {
    Concat(seq(|accepted|, i requires 0 <= i < |accepted| => bursts[i][..accepted[i]]))
  }

  lemma HandledAppend(bursts: seq<seq<Mbuf>>, accepted: seq<nat>, a: nat)
    requires Fits(bursts, accepted) && |accepted| < |bursts| && a <= |bursts[|accepted|]|
    ensures Fits(bursts, accepted + [a])
    ensures Leftovers(bursts, accepted + [a]) == Leftovers(bursts, accepted) + bursts[|accepted|][a..]
    ensures Passed(bursts, accepted + [a]) == Passed(bursts, accepted) + bursts[|accepted|][..a]
  {
    var n := |accepted|;
    var acc := accepted + [a];
    var l := seq(|acc|, i requires 0 <= i < |acc| => bursts[i][acc[i]..]);
    var l0 := seq(n, i requires 0 <= i < n => bursts[i][accepted[i]..]);
    assert l == l0 + [bursts[n][a..]];
    ConcatAppend(l0, bursts[n][a..]);
    var p := seq(|acc|, i requires 0 <= i < |acc| => bursts[i][..acc[i]]);
    var p0 := seq(n, i requires 0 <= i < n => bursts[i][..accepted[i]]);
    assert p == p0 + [bursts[n][..a]];
    ConcatAppend(p0, bursts[n][..a]);
  }
  /** The bookkeeping both loops keep after handling the bursts before
      |accepted|: the leftovers released so far and the port's counters. */
  predicate Tally(bursts: seq<seq<Mbuf>>, accepted: seq<nat>, released: seq<Mbuf>,
                  start: KniStats, egress: bool, ps: KniStats)
  {
    && Fits(bursts, accepted)
    && released == Leftovers(bursts, accepted)
    && ps == Count(start, egress, |Passed(bursts, accepted)|, |released|)
  }

  /** Handling one more burst, of which the queue took a, keeps the tally. */
  lemma TallyStep(bursts: seq<seq<Mbuf>>, accepted: seq<nat>, released: seq<Mbuf>,
                  start: KniStats, egress: bool, ps: KniStats, a: nat)
    requires Tally(bursts, accepted, released, start, egress, ps)
    requires |accepted| < |bursts| && a <= |bursts[|accepted|]|
    ensures Passed(bursts, accepted + [a]) == Passed(bursts, accepted) + bursts[|accepted|][..a]
    ensures Tally(bursts, accepted + [a], released + bursts[|accepted|][a..], start, egress,
                  Count(ps, egress, a, |bursts[|accepted|][a..]|))
  {
    var rest := bursts[|accepted|][a..];
    CountTwice(start, egress, |Passed(bursts, accepted)|, |released|, a, |rest|);
    HandledAppend(bursts, accepted, a);
  }


  /** Each device's burst was taken whole, or the ring, which held before
      items at the start, was full once that device's burst had been
      offered. */
  predicate Greedy(bursts: seq<seq<Mbuf>>, accepted: seq<nat>, before: nat, capacity: nat)
  {
    && |accepted| <= |bursts|
    && forall i :: 0 <= i < |accepted| ==>
         accepted[i] == |bursts[i]| || before + Sum(accepted[..i + 1]) == capacity
  }

  /** One more device whose burst was taken whole or filled the ring. */
  lemma GreedyStep(bursts: seq<seq<Mbuf>>, accepted: seq<nat>, before: nat, capacity: nat, a: nat)
    requires Greedy(bursts, accepted, before, capacity) && |accepted| < |bursts|
    requires a == |bursts[|accepted|]| || before + Sum(accepted) + a == capacity
    ensures Greedy(bursts, accepted + [a], before, capacity)
  {
    var acc := accepted + [a];
    forall i | 0 <= i < |acc|
      ensures acc[i] == |bursts[i]| || before + Sum(acc[..i + 1]) == capacity
    {
      if i < |accepted| {
        assert acc[..i + 1] == accepted[..i + 1];
      } else {
        assert acc[..i + 1] == acc;
        SumAppend(accepted, a);
      }
    }
  }


  /** What kni_ingress has done to the receive ring after handling the
      bursts before |accepted|: ring is rxRing with their accepted prefixes
      behind its old contents, and each of them was taken greedily. */
  predicate Filling(bursts: seq<seq<Mbuf>>, accepted: seq<nat>, rxRing: Ring.Ring<Mbuf>, ring: Ring.Ring<Mbuf>)
  {
    && Fits(bursts, accepted)
    && ring == Ring.Ring(rxRing.items + Passed(bursts, accepted), rxRing.capacity)
    && Ring.Valid(ring)
    && |Passed(bursts, accepted)| == Sum(accepted)
    && Greedy(bursts, accepted, |rxRing.items|, rxRing.capacity)
  }

  /** Offering one more burst, of which the ring took the longest prefix
      that fits, keeps Filling. */
  lemma FillingStep(bursts: seq<seq<Mbuf>>, accepted: seq<nat>, rxRing: Ring.Ring<Mbuf>, ring: Ring.Ring<Mbuf>, a: nat)
    requires Filling(bursts, accepted, rxRing, ring)
    requires |accepted| < |bursts| && a <= |bursts[|accepted|]|
    requires a == |bursts[|accepted|]| || a == Ring.Free(ring)
    requires |ring.items| + a <= ring.capacity
    ensures Filling(bursts, accepted + [a], rxRing,
                    Ring.Ring(ring.items + bursts[|accepted|][..a], ring.capacity))
  {
    HandledAppend(bursts, accepted, a);
    SumAppend(accepted, a);
    GreedyStep(bursts, accepted, |rxRing.items|, rxRing.capacity, a);
  }


  /** No packet is lost or made up: what was passed on and what was
      released are together the handled bursts. */
  lemma {:induction false} Conservation(bursts: seq<seq<Mbuf>>, accepted: seq<nat>)
    requires Fits(bursts, accepted)
    ensures multiset(Passed(bursts, accepted)) + multiset(Leftovers(bursts, accepted))
      == multiset(Concat(bursts[..|accepted|]))
    decreases |accepted|
  {
    if accepted != [] {
      var n := |accepted| - 1;
      var init := accepted[..n];
      assert accepted == init + [accepted[n]];
      assert Fits(bursts, init);
      Conservation(bursts, init);
      HandledAppend(bursts, init, accepted[n]);
      assert bursts[..n + 1] == bursts[..n] + [bursts[n]];
      ConcatAppend(bursts[..n], bursts[n]);
      assert bursts[n] == bursts[n][..accepted[n]] + bursts[n][accepted[n]..];
    }
  }

  /** Hence the packets and dropped counters together grow by exactly the
      number of packets in the handled bursts. */
  lemma CountsAddUp(bursts: seq<seq<Mbuf>>, accepted: seq<nat>)
    requires Fits(bursts, accepted)
    ensures |Passed(bursts, accepted)| + |Leftovers(bursts, accepted)| == |Concat(bursts[..|accepted|])|
  {
    Conservation(bursts, accepted);
    assert |multiset(Passed(bursts, accepted)) + multiset(Leftovers(bursts, accepted))|
      == |multiset(Concat(bursts[..|accepted|]))|;
  }

  // ---------------------------------------------------------------- kni_egress

  /** kni_egress: for each KNI device in turn, the burst dequeued from the
      transmit ring is offered to the device's kernel queue; the packets it
      refuses are released. A burst above PKT_BURST_SZ logs an error and
      returns at once. A NULL port does nothing. */
  method KniEgress(p: Option<KniPort>, bursts: seq<seq<Mbuf>>, stats: StatsTable)
    returns (queues: seq<Ring.Ring<Mbuf>>, s: Step)
    requires p.Some? ==> p.value.portId < |stats| && |bursts| == |p.value.toKernel|
    requires p.Some? ==> forall i :: 0 <= i < |p.value.toKernel| ==> Ring.Valid(p.value.toKernel[i])
    ensures p.None? ==> queues == [] && s == Step(stats, [], [], true)
    ensures p.Some? ==> |queues| == |p.value.toKernel| && |s.stats| == |stats| && Fits(bursts, s.accepted)
    ensures p.Some? ==> (s.completed <==> |s.accepted| == |bursts|)
    ensures p.Some? ==> forall i :: 0 <= i < |s.accepted| ==> |bursts[i]| <= PktBurstSz
    ensures p.Some? && !s.completed ==> |bursts[|s.accepted|]| > PktBurstSz
    ensures p.Some? ==> forall i :: 0 <= i < |s.accepted| ==>
      s.accepted[i] == |bursts[i]| || s.accepted[i] == Ring.Free(p.value.toKernel[i])
    ensures p.Some? ==> forall i :: 0 <= i < |s.accepted| ==>
      queues[i] == Ring.Ring(p.value.toKernel[i].items + bursts[i][..s.accepted[i]], p.value.toKernel[i].capacity)
    ensures p.Some? ==> forall i :: |s.accepted| <= i < |queues| ==> queues[i] == p.value.toKernel[i]
    ensures p.Some? ==> forall i :: 0 <= i < |queues| ==> Ring.Valid(queues[i])
    ensures p.Some? ==> s.released == Leftovers(bursts, s.accepted)
    ensures p.Some? ==> forall q :: 0 <= q < |stats| && q != p.value.portId ==> s.stats[q] == stats[q]
    ensures p.Some? ==>
      s.stats[p.value.portId] == Count(stats[p.value.portId], true, |Passed(bursts, s.accepted)|, |s.released|)
  {
    if p.None? {
      return [], Step(stats, [], [], true);
    }
    var port := p.value.portId;
    var kernel := p.value.toKernel;
    queues := kernel;
    var ps := stats[port];
    var accepted: seq<nat> := [];
    var released: seq<Mbuf> := [];
    CountNothing(stats[port], true);
    var i := 0;
    while i < |queues|
      invariant 0 <= i <= |queues| == |bursts| == |kernel| && |accepted| == i
      invariant Tally(bursts, accepted, released, stats[port], true, ps)
      invariant forall k :: 0 <= k < i ==> |bursts[k]| <= PktBurstSz
      invariant forall k :: 0 <= k < i ==> accepted[k] == |bursts[k]| || accepted[k] == Ring.Free(kernel[k])
      invariant forall k :: 0 <= k < i ==>
        queues[k] == Ring.Ring(kernel[k].items + bursts[k][..accepted[k]], kernel[k].capacity)
      invariant forall k :: i <= k < |queues| ==> queues[k] == kernel[k]
      invariant forall k :: 0 <= k < |queues| ==> Ring.Valid(queues[k])
    {
      if |bursts[i]| > PktBurstSz {
        return queues, Step(stats[port := ps], accepted, released, false);
      }
      var o := OfferBurst(queues[i], bursts[i], ps, true);
      TallyStep(bursts, accepted, released, stats[port], true, ps, o.accepted);
      queues := queues[i := o.queue];
      ps := o.stats;
      released := released + o.released;
      accepted := accepted + [o.accepted];
      i := i + 1;
    }
    s := Step(stats[port := ps], accepted, released, true);
  }

  // --------------------------------------------------------------- kni_ingress

  /** kni_ingress: for each KNI device in turn, the burst the kernel sent
      (rte_kni_rx_burst) is offered to the bridge's receive ring; the packets
      the ring refuses are released. A burst above PKT_BURST_SZ logs an
      error and returns at once. A NULL port does nothing. */
  method KniIngress(p: Option<KniPort>, bursts: seq<seq<Mbuf>>, rxRing: Ring.Ring<Mbuf>, stats: StatsTable)
    returns (ring: Ring.Ring<Mbuf>, s: Step)
    requires Ring.Valid(rxRing)
    requires p.Some? ==> p.value.portId < |stats| && |bursts| == |p.value.toKernel|
    ensures p.None? ==> ring == rxRing && s == Step(stats, [], [], true)
    ensures p.Some? ==> |s.stats| == |stats| && Fits(bursts, s.accepted)
    ensures p.Some? ==> (s.completed <==> |s.accepted| == |bursts|)
    ensures p.Some? ==> forall i :: 0 <= i < |s.accepted| ==> |bursts[i]| <= PktBurstSz
    ensures p.Some? && !s.completed ==> |bursts[|s.accepted|]| > PktBurstSz
    ensures p.Some? ==> ring == Ring.Ring(rxRing.items + Passed(bursts, s.accepted), rxRing.capacity)
    ensures p.Some? ==> Ring.Valid(ring)
    ensures p.Some? ==> Greedy(bursts, s.accepted, |rxRing.items|, rxRing.capacity)
    ensures p.Some? ==> s.released == Leftovers(bursts, s.accepted)
    ensures p.Some? ==> forall q :: 0 <= q < |stats| && q != p.value.portId ==> s.stats[q] == stats[q]
    ensures p.Some? ==>
      s.stats[p.value.portId] == Count(stats[p.value.portId], false, |Passed(bursts, s.accepted)|, |s.released|)
  {
    ring := rxRing;
    if p.None? {
      return ring, Step(stats, [], [], true);
    }
    var port := p.value.portId;
    var ps := stats[port];
    var accepted: seq<nat> := [];
    var released: seq<Mbuf> := [];
    CountNothing(stats[port], false);
    var i := 0;
    while i < |bursts|
      invariant 0 <= i <= |bursts| && |accepted| == i
      invariant Tally(bursts, accepted, released, stats[port], false, ps)
      invariant forall k :: 0 <= k < i ==> |bursts[k]| <= PktBurstSz
      invariant Filling(bursts, accepted, rxRing, ring)
    {
      if |bursts[i]| > PktBurstSz {
        return ring, Step(stats[port := ps], accepted, released, false);
      }
      var o := OfferBurst(ring, bursts[i], ps, false);
      TallyStep(bursts, accepted, released, stats[port], false, ps, o.accepted);
      FillingStep(bursts, accepted, rxRing, ring, o.accepted);
      ring := o.queue;
      ps := o.stats;
      released := released + o.released;
      accepted := accepted + [o.accepted];
      i := i + 1;
    }
    s := Step(stats[port := ps], accepted, released, true);
  }
}

=== FILE: lanes.dfy ===
/** The XGMII lane word of IEEE 802.3 Clause 46 in its 8-lane form: one
    control byte and eight data bytes. Bit k of the control byte marks data
    byte k ("lane k") as a control character. In memory the word is a CData
    control byte followed by a little-endian QData, so lane k is byte k of
    the 64-bit data value. */
module Lanes {
  import opened Base

  const LaneCount: nat := 8

  /** The eight data lanes of one word, lane 0 first. */
  type LaneData = s: seq<byte> | |s| == 8 witness [0, 0, 0, 0, 0, 0, 0, 0]

  datatype LaneWord = LaneWord(ctrl: byte, data: LaneData)

  /** Control characters (IEEE 802.3 section 46.2.3) and the preamble and
      start-of-frame delimiter octets (IEEE 802.3 sections 3.2.1 and 3.2.2). */
  const StartChar: byte := 0xFB
  const TerminateChar: byte := 0xFD
  const IdleChar: byte := 0x07
  const PreambleOctet: byte := 0x55
  const SfdOctet: byte := 0xD5

  /** The seven data bytes that follow /S/ in the start word: six preamble
      octets and the SFD. */
  const Preamble: Packet := [0x55, 0x55, 0x55, 0x55, 0x55, 0x55, 0xD5]

  /** True when the control bit of lane k is set. */
  predicate IsControl(ctrl: byte, k: nat)
    requires k < LaneCount
  {
    ctrl & (1 << k) != 0
  }

  /** The little-endian lanes of a QData value. */
  function LanesOf(q: bv64): LaneData
  {
    [ (q & 0xFF) as bv8, ((q >> 8) & 0xFF) as bv8, ((q >> 16) & 0xFF) as bv8,
      ((q >> 24) & 0xFF) as bv8, ((q >> 32) & 0xFF) as bv8, ((q >> 40) & 0xFF) as bv8,
      ((q >> 48) & 0xFF) as bv8, ((q >> 56) & 0xFF) as bv8 ]
  }

  /** The QData value whose little-endian lanes are l. */
  function QDataOf(l: LaneData): bv64
  {
    (l[0] as bv64) | (l[1] as bv64 << 8) | (l[2] as bv64 << 16) | (l[3] as bv64 << 24)
    | (l[4] as bv64 << 32) | (l[5] as bv64 << 40) | (l[6] as bv64 << 48) | (l[7] as bv64 << 56)
  }

  /** Storing a QData and reading it back as lanes loses nothing. */
  lemma QDataRoundTrip(q: bv64)
    ensures QDataOf(LanesOf(q)) == q
  {
  }

  /** The start word: /S/ in lane 0 as the only control lane, followed by the
      preamble and SFD as data (festoon_xgmii.cpp stores control 0b00000001
      and data 0xd5555555555555fb). */
  function StartWord(): (w: LaneWord)
    ensures w.data[0] == StartChar && IsControl(w.ctrl, 0)
    ensures w.data[1..] == Preamble
    ensures forall k :: 1 <= k < LaneCount ==> !IsControl(w.ctrl, k)
  {
    LaneWord(0x01, LanesOf(0xd5555555555555fb))
  }

  /** The end word: /T/ in lane 0 and /I/ in lanes 1..7, every lane control
      (control 0b11111111, data 0x07070707070707fd). */
  function EndWord(): (w: LaneWord)
    ensures w.data[0] == TerminateChar
    ensures forall k :: 1 <= k < LaneCount ==> w.data[k] == IdleChar
    ensures forall k :: 0 <= k < LaneCount ==> IsControl(w.ctrl, k)
  {
    LaneWord(0xFF, LanesOf(0x07070707070707fd))
  }

  /** The idle word sent when a burst overruns: control 0b00000000 and data
      0x0707070707070707, so all eight lanes carry 0x07 marked as DATA. */
  function IdleWord(): (w: LaneWord)
    ensures forall k :: 0 <= k < LaneCount ==> w.data[k] == IdleChar && !IsControl(w.ctrl, k)
  {
    LaneWord(0x00, LanesOf(0x0707070707070707))
  }
}

=== FILE: ring.dfy ===
/** A DPDK rte_ring seen from one producer and one consumer: a bounded FIFO
    whose burst enqueue accepts as many items as there are free slots and
    whose burst dequeue hands out at most the requested number of items,
    oldest first. The rings of wrapper/main.cpp are created with count
    PKT_BURST_SZ and no exact-size flag, so their usable capacity is one less;
    the model takes the usable capacity as a parameter. */
module Ring {
  import opened Base

  datatype Ring<T> = Ring(items: seq<T>, capacity: nat)

  predicate Valid<T>(r: Ring<T>)
  {
    |r.items| <= r.capacity
  }

  function Free<T>(r: Ring<T>): nat
    requires Valid(r)
  {
    r.capacity - |r.items|
  }

  /** The outcome of a burst enqueue: the new ring and the accepted count. */
  datatype Enqueued<T> = Enqueued(ring: Ring<T>, accepted: nat)

  /** rte_ring_enqueue_burst: appends the longest prefix of xs that fits. */
  function EnqueueBurst<T>(r: Ring<T>, xs: seq<T>): (e: Enqueued<T>)
    requires Valid(r)
    ensures e.accepted <= |xs| && e.accepted <= Free(r)
    ensures e.accepted == |xs| || e.accepted == Free(r)
    ensures e.ring.items == r.items + xs[..e.accepted]
    ensures e.ring.capacity == r.capacity && Valid(e.ring)
  {
    var k := if |xs| <= Free(r) then |xs| else Free(r);
    Enqueued(Ring(r.items + xs[..k], r.capacity), k)
  }

  /** The outcome of a burst dequeue: the new ring and the items taken. */
  datatype Dequeued<T> = Dequeued(ring: Ring<T>, taken: seq<T>)

  /** rte_ring_dequeue_burst: takes up to max items from the head. */
  function DequeueBurst<T>(r: Ring<T>, max: nat): (d: Dequeued<T>)
    requires Valid(r)
    ensures |d.taken| <= max
    ensures |d.taken| == max || d.ring.items == []
    ensures d.taken + d.ring.items == r.items
    ensures d.ring.capacity == r.capacity && Valid(d.ring)
  {
    var k := if |r.items| <= max then |r.items| else max;
    Dequeued(Ring(r.items[k..], r.capacity), r.items[..k])
  }

  /** rte_ring_enqueue: a single item, refused when the ring is full. */
  function Enqueue<T>(r: Ring<T>, x: T): (e: Enqueued<T>)
    ensures |r.items| < r.capacity ==> e.accepted == 1 && e.ring == Ring(r.items + [x], r.capacity)
    ensures |r.items| >= r.capacity ==> e.accepted == 0 && e.ring == r
    ensures Valid(r) ==> Valid(e.ring)
  {
    if |r.items| < r.capacity then Enqueued(Ring(r.items + [x], r.capacity), 1) else Enqueued(r, 0)
  }

  /** rte_ring_dequeue: the head item, or nothing when the ring is empty. */
  function Dequeue<T>(r: Ring<T>): (d: Dequeued<T>)
    ensures r.items == [] ==> d.taken == [] && d.ring == r
    ensures r.items != [] ==> d.taken == [r.items[0]] && d.ring == Ring(r.items[1..], r.capacity)
    ensures Valid(r) ==> Valid(d.ring)
  {
    if r.items == [] then Dequeued(r, []) else Dequeued(Ring(r.items[1..], r.capacity), [r.items[0]])
  }

  /** Burst back-pressure: a burst of capacity + extra items offered to an
      empty ring has exactly capacity accepted and extra left over. */
  lemma BackPressure<T>(r: Ring<T>, xs: seq<T>, extra: nat)
    requires r.items == [] && |xs| == r.capacity + extra
    ensures EnqueueBurst(r, xs).accepted == r.capacity
    ensures |xs| - EnqueueBurst(r, xs).accepted == extra
  {
  }

  /** FIFO: whatever is enqueued behind the current contents comes out of
      later dequeues after them and in its own order. */
  lemma {:induction false} FifoOrder<T>(r: Ring<T>, xs: seq<T>, max: nat)
    requires Valid(r) && |xs| <= Free(r) && max >= |r.items| + |xs|
    ensures DequeueBurst(EnqueueBurst(r, xs).ring, max).taken == r.items + xs
  {
    var e := EnqueueBurst(r, xs);
    assert xs[..|xs|] == xs;
    assert e.ring.items == r.items + xs;
  }
}

=== FILE: roundtrip.dfy ===
/** How the decoder treats each kind of word the encoder emits, and the
    round trip that follows: decoding the words of a burst, starting out of
    frame, yields each non-null packet in dequeue order with the seven
    preamble/SFD bytes in front (they travel in data lanes of the start word,
    so the decoder keeps them) and ends out of frame. */
module XgmiiRoundTrip {
  import opened Base
  import opened Lanes
  import opened XgmiiEncoder
  import opened XgmiiDecoder
  import Ring

  // ---- lanes -------------------------------------------------------------

  /** Data lanes k..m-1 in frame append their bytes to the packet. */
  lemma {:induction false} DataLanes(s: Scan, w: LaneWord, k: nat, m: nat)
    requires k <= m <= LaneCount && s.inFrame
    requires forall j :: k <= j < m ==> !IsControl(w.ctrl, j)
    ensures DecodeLanes(s, w, k)
            == DecodeLanes(s.(current := s.current + w.data[k..m], index := s.index + (m - k)), w, m)
    decreases m - k
  {
    if k == m {
      assert s.current + w.data[k..m] == s.current;
      assert s.(current := s.current, index := s.index) == s;
    } else {
      var s1 := s.(current := s.current + [w.data[k]], index := s.index + 1);
      assert LaneStep(s, false, w.data[k]) == Ok(s1);
      DataLanes(s1, w, k + 1, m);
      assert s1.current + w.data[k + 1..m] == s.current + w.data[k..m];
    }
  }

  /** Data lanes out of frame are dropped. */
  lemma {:induction false} DroppedLanes(s: Scan, w: LaneWord, k: nat)
    requires k <= LaneCount && !s.inFrame
    requires forall j :: k <= j < LaneCount ==> !IsControl(w.ctrl, j)
    ensures DecodeLanes(s, w, k) == Ok(s)
    decreases LaneCount - k
  {
    if k < LaneCount {
      assert LaneStep(s, false, w.data[k]) == Ok(s);
      DroppedLanes(s, w, k + 1);
    }
  }

  /** Control lanes holding neither /S/ nor /T/ change nothing. */
  lemma {:induction false} IgnoredLanes(s: Scan, w: LaneWord, k: nat)
    requires k <= LaneCount
    requires forall j :: k <= j < LaneCount ==>
               IsControl(w.ctrl, j) && w.data[j] != StartChar && w.data[j] != TerminateChar
    ensures DecodeLanes(s, w, k) == Ok(s)
    decreases LaneCount - k
  {
    if k < LaneCount {
      assert LaneStep(s, true, w.data[k]) == Ok(s);
      IgnoredLanes(s, w, k + 1);
    }
  }

  // ---- single words: the decoder's lane and frame rules -------------------

  /** A word with every control bit clear is appended whole while in frame. */
  lemma DataWordInFrame(s: Scan, d: LaneData)
    requires s.inFrame
    ensures DecodeWord(s, LaneWord(0x00, d))
            == Ok(s.(current := s.current + d, index := s.index + 8))
  {
    var w := LaneWord(0x00, d);
    DataLanes(s, w, 0, LaneCount);
    assert d[0..8] == d;
  }

  /** ... and discarded whole out of frame; this covers the idle word the
      encoder sends on an overrun, whose 0x07 bytes are marked as data. */
  lemma DataWordOutOfFrame(s: Scan, w: LaneWord)
    requires !s.inFrame && w.ctrl == 0x00
    ensures DecodeWord(s, w) == Ok(s)
  {
    DroppedLanes(s, w, 0);
  }

  /** A word whose lanes are all /I/ or unrecognised control codes changes
      nothing. */
  lemma ControlWordIgnored(s: Scan, w: LaneWord)
    requires forall k :: 0 <= k < LaneCount ==>
               IsControl(w.ctrl, k) && w.data[k] != StartChar && w.data[k] != TerminateChar
    ensures DecodeWord(s, w) == Ok(s)
  {
    IgnoredLanes(s, w, 0);
  }

  /** The start word out of frame opens a frame in a fresh slot whose first
      bytes are the preamble and SFD. */
  lemma StartWordOpens(s: Scan)
    requires !s.inFrame
    ensures DecodeWord(s, StartWord())
            == Ok(s.(inFrame := true, slot := s.slot + 1, current := Preamble, index := s.index + 7))
  {
    var w := StartWord();
    var s1 := s.(inFrame := true, slot := s.slot + 1, current := []);
    assert LaneStep(s, true, w.data[0]) == Ok(s1);
    DataLanes(s1, w, 1, LaneCount);
    assert s1.current + w.data[1..8] == Preamble;
  }

  /** The start word in frame is the "Multiple packet starts" violation. */
  lemma StartWordInFrame(s: Scan)
    requires s.inFrame
    ensures DecodeWord(s, StartWord()) == Err(MultiplePacketStarts)
  {
  }

  /** The end word in frame closes the packet and resets the index. */
  lemma EndWordCloses(s: Scan)
    requires s.inFrame
    ensures DecodeWord(s, EndWord())
            == Ok(s.(inFrame := false, index := 0, done := s.done + [s.current]))
  {
    var w := EndWord();
    var s1 := s.(inFrame := false, index := 0, done := s.done + [s.current]);
    assert LaneStep(s, true, w.data[0]) == Ok(s1);
    IgnoredLanes(s1, w, 1);
  }

  /** The end word out of frame is the "Multiple end of packet" violation. */
  lemma EndWordOutOfFrame(s: Scan)
    requires !s.inFrame
    ensures DecodeWord(s, EndWord()) == Err(MultipleEndSignals)
  {
  }

  /** A short final word in frame appends exactly the packet's tail. */
  lemma PartialWordInFrame(s: Scan, tail: Packet)
    requires s.inFrame && 0 < |tail| < LaneCount
    ensures DecodeWord(s, PartialWord(tail))
            == Ok(s.(current := s.current + tail, index := s.index + |tail|))
  {
    var w := PartialWord(tail);
    var r := |tail|;
    DataLanes(s, w, 0, r);
    var s1 := s.(current := s.current + w.data[0..r], index := s.index + r);
    assert w.data[0..r] == tail;
    IgnoredLanes(s1, w, r);
  }

  // ---- word sequences ----------------------------------------------------

  /** Decoding is sequential: decode a, then decode b from where a stopped. */
  lemma {:induction false} DecodeWordsAppend(s: Scan, a: seq<LaneWord>, b: seq<LaneWord>)
    ensures DecodeWords(s, a + b)
            == (match DecodeWords(s, a) case Err(v) => Err(v) case Ok(s') => DecodeWords(s', b))
    decreases |a|
  {
    if a == [] {
      assert a + b == b;
    } else {
      assert (a + b)[0] == a[0];
      assert (a + b)[1..] == a[1..] + b;
      match DecodeWord(s, a[0])
      case Err(v) =>
      case Ok(s1) => DecodeWordsAppend(s1, a[1..], b);
    }
  }

  /** DecodeWordsAppend when the first part decodes without a violation. */
  lemma DecodeWordsThen(s: Scan, a: seq<LaneWord>, s': Scan, b: seq<LaneWord>)
    requires DecodeWords(s, a) == Ok(s')
    ensures DecodeWords(s, a + b) == DecodeWords(s', b)
  {
    DecodeWordsAppend(s, a, b);
  }

  /** One word, then the rest. */
  lemma DecodeWordsCons(s: Scan, w: LaneWord, s': Scan, rest: seq<LaneWord>)
    requires DecodeWord(s, w) == Ok(s')
    ensures DecodeWords(s, [w] + rest) == DecodeWords(s', rest)
  {
    assert ([w] + rest)[1..] == rest;
  }

  /** In frame, the data words of p append exactly p. */
  lemma {:induction false} DataWordsInFrame(s: Scan, p: Packet)
    requires s.inFrame
    ensures DecodeWords(s, DataWords(p))
            == Ok(s.(current := s.current + p, index := s.index + |p|))
    decreases |p|
  {
    if |p| == 0 {
      assert s.current + p == s.current;
      assert s.(current := s.current, index := s.index) == s;
    } else if |p| < LaneCount {
      PartialWordInFrame(s, p);
      DecodeWordsCons(s, PartialWord(p), s.(current := s.current + p, index := s.index + |p|), []);
      assert [PartialWord(p)] + [] == DataWords(p);
    } else {
      var head: LaneData := p[..8];
      DataWordInFrame(s, head);
      var s1 := s.(current := s.current + head, index := s.index + 8);
      DecodeWordsCons(s, LaneWord(0x00, head), s1, DataWords(p[8..]));
      DataWordsInFrame(s1, p[8..]);
      AppendAssoc(s.current, head, p[8..]);
      assert head + p[8..] == p;
    }
  }

  /** The scan state after the words of one packet, decoded out of frame. */
  function AfterFrame(s: Scan, p: Packet): Scan
  {
    Scan(false, 0, s.slot + 1, Preamble + p, s.done + [Preamble + p])
  }

  /** The words of one packet, decoded out of frame, close exactly one packet:
      the preamble and SFD followed by the packet's bytes. */
  lemma FrameRoundTrip(s: Scan, p: Packet)
    requires !s.inFrame
    ensures DecodeWords(s, EncodeFrame(p)) == Ok(AfterFrame(s, p))
  {
    var s1 := s.(inFrame := true, slot := s.slot + 1, current := Preamble, index := s.index + 7);
    var s2 := s1.(current := Preamble + p, index := s1.index + |p|);
    var s3 := s2.(inFrame := false, index := 0, done := s2.done + [s2.current]);
    assert EncodeFrame(p) == [StartWord()] + (DataWords(p) + [EndWord()]);
    StartWordOpens(s);
    DecodeWordsCons(s, StartWord(), s1, DataWords(p) + [EndWord()]);
    DataWordsInFrame(s1, p);
    DecodeWordsThen(s1, DataWords(p), s2, [EndWord()]);
    EndWordCloses(s2);
    DecodeWordsCons(s2, EndWord(), s3, []);
    assert [EndWord()] + [] == [EndWord()];
  }

  /** The packets a burst should arrive as: the non-null ones, in order, each
      behind the preamble and SFD. */
  function Received(burst: seq<Option<Mbuf>>): seq<Packet>
  {
    if burst == [] then []
    else
      (if burst[0].None? then [] else [Preamble + burst[0].value.bytes])
      + Received(burst[1..])
  }

  /** Decoding the words of burst from s, out of frame, closes one packet per
      non-null buffer, in dequeue order, opens one slot per packet, and ends
      out of frame. */
  predicate DecodesBurst(s: Scan, burst: seq<Option<Mbuf>>)
  {
    var r := DecodeWords(s, EncodeFrames(burst));
    && r.Ok?
    && !r.value.inFrame
    && r.value.done == s.done + Received(burst)
    && r.value.slot == s.slot + |Received(burst)|
  }

  /** Round trip of a burst, by induction on the burst. */
  lemma {:induction false} BurstRoundTrip(s: Scan, burst: seq<Option<Mbuf>>)
    requires !s.inFrame
    ensures DecodesBurst(s, burst)
    decreases |burst|
  {
    if burst == [] {
      assert s.done + [] == s.done;
    } else if burst[0].None? {
      BurstRoundTrip(s, burst[1..]);
      SkipNull(s, burst);
    } else {
      BurstRoundTrip(AfterFrame(s, burst[0].value.bytes), burst[1..]);
      FrameThenBurst(s, burst);
    }
  }

  /** A null entry contributes no words and no packet. */
  lemma SkipNull(s: Scan, burst: seq<Option<Mbuf>>)
    requires burst != [] && burst[0].None?
    requires DecodesBurst(s, burst[1..])
    ensures DecodesBurst(s, burst)
  {
    assert EncodeFrames(burst) == EncodeFrames(burst[1..]);
    assert Received(burst) == Received(burst[1..]);
  }

  /** The first frame of a burst, then the rest. */
  lemma FrameThenBurst(s: Scan, burst: seq<Option<Mbuf>>)
    requires !s.inFrame && burst != [] && burst[0].Some?
    requires DecodesBurst(AfterFrame(s, burst[0].value.bytes), burst[1..])
    ensures DecodesBurst(s, burst)
  {
    var p := burst[0].value.bytes;
    FrameThenWords(s, burst);
    assert Received(burst) == [Preamble + p] + Received(burst[1..]);
    AppendAssoc(s.done, [Preamble + p], Received(burst[1..]));
  }

  lemma AppendAssoc<T>(a: seq<T>, b: seq<T>, c: seq<T>)
    ensures (a + b) + c == a + (b + c)
  {
  }

  lemma FrameThenWords(s: Scan, burst: seq<Option<Mbuf>>)
    requires !s.inFrame && burst != [] && burst[0].Some?
    ensures DecodeWords(s, EncodeFrames(burst))
            == DecodeWords(AfterFrame(s, burst[0].value.bytes), EncodeFrames(burst[1..]))
  {
    var p := burst[0].value.bytes;
    assert EncodeFrames(burst) == EncodeFrame(p) + EncodeFrames(burst[1..]);
    FrameRoundTrip(s, p);
    DecodeWordsThen(s, EncodeFrame(p), AfterFrame(s, p), EncodeFrames(burst[1..]));
  }

  /** One encoder call followed by one decoder call that dequeues all of its
      words, starting out of frame: the decoder offers exactly the burst's
      packets (behind the preamble) to its ring, in order, keeps the ones the
      ring accepts and releases the rest, and ends out of frame. An in-range
      burst with no packets produces no words and no output. */
  lemma CallRoundTrip(burst: seq<Option<Mbuf>>, xgmiiBurstSz: nat, out: Ring.Ring<Packet>)
    requires xgmiiBurstSz > 0 && Ring.Valid(out)
    requires |burst| <= PktBurstSz && |EncodeBurst(burst)| <= xgmiiBurstSz
    ensures var r := XgmiiToMbuf(false, EncodeBurst(burst), xgmiiBurstSz, out);
      && r.Ok?
      && !r.value.inFrame
      && r.value.accepted + r.value.dropped == |Received(burst)|
      && r.value.ring.items == out.items + Received(burst)[..r.value.accepted]
      && (r.value.accepted == |Received(burst)| || |r.value.ring.items| == out.capacity)
      && r.value.releasedPackets == Received(burst)[r.value.accepted..]
  {
    var ws := EncodeBurst(burst);
    assert ws == EncodeFrames(burst);
    BurstRoundTrip(StartScan(false), burst);
    var d := DecodeWords(StartScan(false), ws);
    assert d.Ok? && d.value.done == Received(burst) && d.value.slot == |Received(burst)|;
    var r := XgmiiToMbuf(false, ws, xgmiiBurstSz, out);
    if |ws| == 0 {
      assert d.value == StartScan(false);
      assert r == Ok(Quiet(false, out));
    } else if d.value.slot == 0 {
      assert r == Ok(Quiet(false, out));
    } else {
      var e := Ring.EnqueueBurst(out, d.value.done);
      assert r.value.accepted == e.accepted;
    }
  }

  // ---- calls without a start marker ----------------------------------------

  /** True when some lane of some word is a control /S/. */
  predicate HasStart(ws: seq<LaneWord>)
  {
    exists i, k :: 0 <= i < |ws| && 0 <= k < LaneCount && IsControl(ws[i].ctrl, k) && ws[i].data[k] == StartChar
  }

  lemma {:induction false} NoStartLanes(s: Scan, w: LaneWord, k: nat)
    requires k <= LaneCount
    requires forall j :: k <= j < LaneCount ==> !(IsControl(w.ctrl, j) && w.data[j] == StartChar)
    ensures DecodeLanes(s, w, k).Ok? ==> DecodeLanes(s, w, k).value.slot == s.slot
    decreases LaneCount - k
  {
    if k < LaneCount {
      var r := LaneStep(s, IsControl(w.ctrl, k), w.data[k]);
      if r.Ok? {
        NoStartLanes(r.value, w, k + 1);
      }
    }
  }

  lemma {:induction false} NoStartWords(s: Scan, ws: seq<LaneWord>)
    requires !HasStart(ws)
    ensures DecodeWords(s, ws).Ok? ==> DecodeWords(s, ws).value.slot == s.slot
    decreases |ws|
  {
    if ws != [] {
      forall j | 0 <= j < LaneCount
        ensures !(IsControl(ws[0].ctrl, j) && ws[0].data[j] == StartChar)
      {
      }
      NoStartLanes(s, ws[0], 0);
      var r := DecodeWord(s, ws[0]);
      if r.Ok? {
        forall i, k | 0 <= i < |ws| - 1 && 0 <= k < LaneCount
          ensures !(IsControl(ws[1..][i].ctrl, k) && ws[1..][i].data[k] == StartChar)
        {
          assert ws[1..][i] == ws[i + 1];
        }
        NoStartWords(r.value, ws[1..]);
      }
    }
  }

  /** A call whose words carry no /S/ enqueues nothing and releases nothing;
      at most the flag changes (a /T/ closing a frame opened earlier clears
      it). */
  lemma NoStartNoOutput(inFrame: bool, words: seq<LaneWord>, xgmiiBurstSz: nat, out: Ring.Ring<Packet>)
    requires xgmiiBurstSz > 0 && Ring.Valid(out) && !HasStart(words)
    ensures var r := XgmiiToMbuf(inFrame, words, xgmiiBurstSz, out);
      r.Ok? ==> r.value == Quiet(r.value.inFrame, out)
  {
    NoStartWords(StartScan(inFrame), words);
  }
}

=== FILE: top.dfy ===
/** The co-simulation clock of wrapper/festoon_top.cpp.

    A tick counter (main_time) drives the Verilated model: during start-up it
    holds reset low for the first 31 ticks and toggles the clock on fixed
    residues mod 10; afterwards every worker call runs ten ticks, latching one
    lane word from the receive rings onto the model's input wires on the
    tick that is 0 mod 10 and handing the input wires back to the transmit
    rings on the tick that is 5 mod 10.

    The Verilated model Vtop is foreign code. It is modelled as its input
    wires, an opaque internal state and the finish flag that
    Verilated::gotFinish reports; its eval is an oracle on the internal state
    that leaves the input wires alone, and every eval is logged with the
    wires it saw. */
module Top {
  import opened Base
  import Ring

  /** The input wires the bridge drives. */
  datatype Wires = Wires(clk: bool, reset: bool, inCtrl: byte, inData: bv64)

  /** One evaluation of the model's logic: from the wires and the internal
      state to the next internal state and whether $finish was reached. */
  type EvalFn = (Wires, int) -> (int, bool)

  /** The Verilated model: wires, internal state, finish flag, and the wires
      seen by each eval so far. */
  datatype Vtop = Vtop(wires: Wires, state: int, finished: bool, evals: seq<Wires>)

  /** top->eval(): advances the internal state; the wires do not change and
      a reached $finish stays reached. */
  function Eval(t: Vtop, step: EvalFn): (t': Vtop)
    ensures t'.wires == t.wires && t'.evals == t.evals + [t.wires]
    ensures t.finished ==> t'.finished
  {
    var next := step(t.wires, t.state);
    Vtop(t.wires, next.0, t.finished || next.1, t.evals + [t.wires])
  }

  // ---- start-up ------------------------------------------------------------

  /** Ticks per worker call. */
  const CallTicks: nat := 10

  /** Number of start-up ticks. */
  const InitTicks: nat := 51

  /** Reset is released (driven to 1) after tick 30. */
  predicate ResetDuringInit(i: nat)
  {
    i > 10 * 3
  }

  /** The clock is set on ticks that are 1 mod 10 and cleared on ticks that
      are 6 mod 10, so it is high exactly on residues 1..5. */
  predicate ClkDuringInit(i: nat)
  {
    1 <= i % 10 <= 5
  }

  /** The clock at tick t follows from the clock at tick t - 1 by the two
      toggle rules. */
  lemma ClkStep(t: nat)
    ensures ClkDuringInit(t) == if t % 10 == 1 then true else if t % 10 == 6 then false
                                else t > 0 && ClkDuringInit(t - 1)
  {
    var q := t / 10;
    assert t == 10 * q + t % 10;
    if t > 0 && t % 10 != 0 {
      assert t - 1 == 10 * q + (t % 10 - 1);
      assert (t - 1) % 10 == t % 10 - 1;
    } else if t > 0 {
      assert t - 1 == 10 * (q - 1) + 9;
      assert (t - 1) % 10 == 9;
    }
  }

  /** init_verilated_top: a fresh model (wires0, state0) with the clock
      pulled low, then 51 ticks with one eval each. */
  method InitVerilatedTop(wires0: Wires, state0: int, step: EvalFn) returns (top: Vtop, time: nat)
    ensures time == InitTicks && |top.evals| == InitTicks
    ensures forall i :: 0 <= i < InitTicks ==>
              top.evals[i].reset == ResetDuringInit(i) && top.evals[i].clk == ClkDuringInit(i)
    ensures forall i :: 0 <= i < InitTicks ==>
              top.evals[i].inCtrl == wires0.inCtrl && top.evals[i].inData == wires0.inData
    ensures top.wires == Wires(false, true, wires0.inCtrl, wires0.inData)
  {
    top := Vtop(wires0.(clk := false), state0, false, []);
    time := 0;
    while time < InitTicks
      invariant time <= InitTicks && |top.evals| == time
      invariant forall i :: 0 <= i < time ==>
                  top.evals[i].reset == ResetDuringInit(i) && top.evals[i].clk == ClkDuringInit(i)
      invariant forall i :: 0 <= i < time ==>
                  top.evals[i].inCtrl == wires0.inCtrl && top.evals[i].inData == wires0.inData
      invariant top.wires.inCtrl == wires0.inCtrl && top.wires.inData == wires0.inData
      invariant top.wires.clk == (time > 0 && ClkDuringInit(time - 1))
      invariant time > 0 ==> top.wires.reset == ResetDuringInit(time - 1)
    {
      var clk := if time % 10 == 1 then true else if time % 10 == 6 then false else top.wires.clk;
      ClkStep(time);
      top := Eval(top.(wires := top.wires.(reset := ResetDuringInit(time), clk := clk)), step);
      time := time + 1;
    }
  }

  // ---- the worker ----------------------------------------------------------

  /** Everything a worker tick touches: the tick counter, the model, the two
      receive rings it samples from and the two transmit rings it captures
      to (one ring for control bytes, one for data words). */
  datatype Bridge = Bridge(
    time: nat,
    top: Vtop,
    inCtrl: Ring.Ring<byte>,
    inData: Ring.Ring<bv64>,
    outCtrl: Ring.Ring<byte>,
    outData: Ring.Ring<bv64>)

  /** Room for k more items in a ring. */
  predicate HasRoom<T>(r: Ring.Ring<T>, k: nat)
  {
    |r.items| + k <= r.capacity
  }

  /** Rings keep the capacity they were created with. */
  predicate SameCapacities(b: Bridge, b': Bridge)
  {
    && b'.inCtrl.capacity == b.inCtrl.capacity && b'.inData.capacity == b.inData.capacity
    && b'.outCtrl.capacity == b.outCtrl.capacity && b'.outData.capacity == b.outData.capacity
  }

  /** The value a single-object dequeue latches: the ring's head. On an
      empty ring the source's dequeue stores nothing and the wire is then
      driven through an uninitialised local pointer; the model keeps the
      previous wire value instead. */
  function Latched<T>(r: Ring.Ring<T>, previous: T): T
  {
    if r.items == [] then previous else r.items[0]
  }

  /** Sample (ticks 0 mod 10): dequeue one control byte and one data word,
      drive them onto the input wires, and raise the clock. */
  function Sample(b: Bridge): (b': Bridge)
    ensures SameCapacities(b, b')
    ensures b'.inCtrl == Ring.Dequeue(b.inCtrl).ring && b'.inData == Ring.Dequeue(b.inData).ring
    ensures b'.outCtrl == b.outCtrl && b'.outData == b.outData
    ensures b'.top.wires.inCtrl == Latched(b.inCtrl, b.top.wires.inCtrl)
    ensures b'.top.wires.inData == Latched(b.inData, b.top.wires.inData)
  {
    var c := Ring.Dequeue(b.inCtrl);
    var d := Ring.Dequeue(b.inData);
    var w := b.top.wires;
    var w' := w.(clk := true,
                 inCtrl := if c.taken == [] then w.inCtrl else c.taken[0],
                 inData := if d.taken == [] then w.inData else d.taken[0]);
    b.(inCtrl := c.ring, inData := d.ring, top := b.top.(wires := w'))
  }

  /** Capture (ticks 5 mod 10): enqueue the current input wires to the
      transmit rings (the bridge loops the model's inputs back) and lower the
      clock. A full ring refuses the value. */
  function Capture(b: Bridge): (b': Bridge)
    ensures SameCapacities(b, b')
    ensures b'.outCtrl == Ring.Enqueue(b.outCtrl, b.top.wires.inCtrl).ring
    ensures b'.outData == Ring.Enqueue(b.outData, b.top.wires.inData).ring
    ensures b'.inCtrl == b.inCtrl && b'.inData == b.inData
    ensures b'.top.wires == b.top.wires.(clk := false)
  {
    var w := b.top.wires;
    var c := Ring.Enqueue(b.outCtrl, w.inCtrl);
    var d := Ring.Enqueue(b.outData, w.inData);
    b.(outCtrl := c.ring, outData := d.ring, top := b.top.(wires := w.(clk := false)))
  }

  /** One loop body of verilator_top_worker after the finish check. */
  function Tick(b: Bridge, step: EvalFn): (b': Bridge)
    ensures SameCapacities(b, b')
  {
    var b1 := if b.time % 10 == 0 then Sample(b) else b;
    var b2 := if b.time % 10 == 5 then Capture(b1) else b1;
    b2.(top := Eval(b2.top, step), time := b.time + 1)
  }

  /** Up to n ticks, stopping as soon as the model reports $finish. */
  function RunTicks(b: Bridge, step: EvalFn, n: nat): (r: Bridge)
    ensures SameCapacities(b, r)
    decreases n
  {
    if n == 0 || b.top.finished then b else RunTicks(Tick(b, step), step, n - 1)
  }

  /** n ticks without the finish check. */
  function Ticks(b: Bridge, step: EvalFn, n: nat): (r: Bridge)
    ensures SameCapacities(b, r)
    decreases n
  {
    if n == 0 then b else Ticks(Tick(b, step), step, n - 1)
  }

  /** A run whose end is not finished never met the finish flag, so it ran
      every tick. */
  lemma {:induction false} UnfinishedRun(b: Bridge, step: EvalFn, n: nat)
    requires !RunTicks(b, step, n).top.finished
    ensures RunTicks(b, step, n) == Ticks(b, step, n)
    decreases n
  {
    if n > 0 {
      UnfinishedRun(Tick(b, step), step, n - 1);
    }
  }

  lemma {:induction false} TicksSplit(b: Bridge, step: EvalFn, m: nat, n: nat)
    ensures Ticks(b, step, m + n) == Ticks(Ticks(b, step, m), step, n)
    decreases m
  {
    if m > 0 {
      TicksSplit(Tick(b, step), step, m - 1, n);
    }
  }

  /** A tick that neither samples nor captures. */
  predicate QuietTime(t: nat)
  {
    t % 10 != 0 && t % 10 != 5
  }

  lemma QuietTick(b: Bridge, step: EvalFn)
    requires QuietTime(b.time)
    ensures Tick(b, step) == b.(top := Eval(b.top, step), time := b.time + 1)
  {
  }

  lemma CaptureTick(b: Bridge, step: EvalFn)
    requires b.time % 10 == 5
    ensures Tick(b, step) == Capture(b).(top := Eval(Capture(b).top, step), time := b.time + 1)
  {
  }

  lemma SampleTick(b: Bridge, step: EvalFn)
    requires b.time % 10 == 0
    ensures Tick(b, step) == Sample(b).(top := Eval(Sample(b).top, step), time := b.time + 1)
  {
  }

  /** Ticks on residues other than 0 and 5 only evaluate the model: rings and
      wires stay as they are. */
  lemma {:induction false} QuietTicks(b: Bridge, step: EvalFn, n: nat)
    requires forall t :: b.time <= t < b.time + n ==> QuietTime(t)
    ensures var r := Ticks(b, step, n);
      && r.time == b.time + n && |r.top.evals| == |b.top.evals| + n
      && r.top.wires == b.top.wires
      && r.inCtrl == b.inCtrl && r.inData == b.inData
      && r.outCtrl == b.outCtrl && r.outData == b.outData
    decreases n
  {
    if n > 0 {
      QuietTick(b, step);
      QuietTicks(Tick(b, step), step, n - 1);
    }
  }

  /** The residues met by a call that starts one tick past a sample. */
  lemma SteadyResidues(t: nat)
    requires t % 10 == 1
    ensures forall u :: t <= u < t + 4 ==> QuietTime(u)
    ensures (t + 4) % 10 == 5
    ensures forall u :: t + 5 <= u < t + 9 ==> QuietTime(u)
    ensures (t + 9) % 10 == 0 && (t + 10) % 10 == 1
  {
    var q := t / 10;
    assert t == 10 * q + 1;
    forall u | t <= u < t + 9
      ensures u % 10 == u - 10 * q
    {
      assert u == 10 * q + (u - 10 * q);
    }
  }

  /** The ten ticks of a call that starts one tick past a sample, the phase
      every call has after start-up: the capture comes first and hands back
      the wires as they were, then the sample latches the receive rings'
      heads and leaves the clock high. */
  lemma SteadyCall(b: Bridge, step: EvalFn)
    requires b.time % 10 == 1
    ensures var r := Ticks(b, step, CallTicks);
      && r.time == b.time + 10 && |r.top.evals| == |b.top.evals| + 10
      && r.outCtrl == Ring.Enqueue(b.outCtrl, b.top.wires.inCtrl).ring
      && r.outData == Ring.Enqueue(b.outData, b.top.wires.inData).ring
      && r.inCtrl == Ring.Dequeue(b.inCtrl).ring && r.inData == Ring.Dequeue(b.inData).ring
      && r.top.wires.inCtrl == Latched(b.inCtrl, b.top.wires.inCtrl)
      && r.top.wires.inData == Latched(b.inData, b.top.wires.inData)
      && r.top.wires.clk
  {
    SteadyResidues(b.time);
    // residues 1..4, then 5 (capture), 6..9, then 0 (sample)
    QuietTicks(b, step, 4);
    var b4 := Ticks(b, step, 4);
    CaptureTick(b4, step);
    var b5 := Tick(b4, step);
    QuietTicks(b5, step, 4);
    var b9 := Ticks(b5, step, 4);
    SampleTick(b9, step);
    var b10 := Tick(b9, step);
    OneTick(b4, step);
    OneTick(b9, step);
    TicksSplit(b, step, 4, 1);
    TicksSplit(b, step, 5, 4);
    TicksSplit(b, step, 9, 1);
  }

  lemma OneTick(b: Bridge, step: EvalFn)
    ensures Ticks(b, step, 1) == Tick(b, step)
  {
  }

  /** verilator_top_worker: up to ten ticks, returning as soon as the model
      has finished. */
  method VerilatorTopWorker(b: Bridge, step: EvalFn) returns (r: Bridge)
    ensures b.top.finished ==> r == b
    ensures !r.top.finished ==> r.time == b.time + CallTicks && |r.top.evals| == |b.top.evals| + CallTicks
    ensures !r.top.finished && b.time % 10 == 1 ==>
      && r.outCtrl == Ring.Enqueue(b.outCtrl, b.top.wires.inCtrl).ring
      && r.outData == Ring.Enqueue(b.outData, b.top.wires.inData).ring
      && r.inCtrl == Ring.Dequeue(b.inCtrl).ring && r.inData == Ring.Dequeue(b.inData).ring
      && r.top.wires.inCtrl == Latched(b.inCtrl, b.top.wires.inCtrl)
      && r.top.wires.inData == Latched(b.inData, b.top.wires.inData)
    ensures r == RunTicks(b, step, CallTicks)
  {
    SteadyRun(b, step);
    r := b;
    var i := 0;
    while i < CallTicks
      invariant 0 <= i <= CallTicks
      invariant RunTicks(r, step, CallTicks - i) == RunTicks(b, step, CallTicks)
      invariant b.top.finished ==> r == b
    {
      if r.top.finished {
        return;
      }
      RunTicksStep(r, step, CallTicks - i);
      r := Tick(r, step);
      i := i + 1;
    }
  }

  lemma RunTicksStep(b: Bridge, step: EvalFn, n: nat)
    requires n > 0 && !b.top.finished
    ensures RunTicks(b, step, n) == RunTicks(Tick(b, step), step, n - 1)
  {
  }

  /** One worker call, as RunTicks: a finished model is left alone, and an
      unfinished call runs all ten ticks, with the effects of SteadyCall in
      the steady phase. */
  lemma SteadyRun(b: Bridge, step: EvalFn)
    ensures var r := RunTicks(b, step, CallTicks);
      && (b.top.finished ==> r == b)
      && (!r.top.finished ==> r.time == b.time + 10 && |r.top.evals| == |b.top.evals| + 10)
      && (!r.top.finished && b.time % 10 == 1 ==>
          && r.outCtrl == Ring.Enqueue(b.outCtrl, b.top.wires.inCtrl).ring
          && r.outData == Ring.Enqueue(b.outData, b.top.wires.inData).ring
          && r.inCtrl == Ring.Dequeue(b.inCtrl).ring && r.inData == Ring.Dequeue(b.inData).ring
          && r.top.wires.inCtrl == Latched(b.inCtrl, b.top.wires.inCtrl)
          && r.top.wires.inData == Latched(b.inData, b.top.wires.inData))
  {
    var r := RunTicks(b, step, CallTicks);
    if !r.top.finished {
      UnfinishedRun(b, step, CallTicks);
      if b.time % 10 == 1 {
        SteadyCall(b, step);
      } else {
        TicksLength(b, step, CallTicks);
      }
    }
  }

  lemma {:induction false} TicksLength(b: Bridge, step: EvalFn, n: nat)
    ensures Ticks(b, step, n).time == b.time + n
    ensures |Ticks(b, step, n).top.evals| == |b.top.evals| + n
    decreases n
  {
    if n > 0 {
      TicksLength(Tick(b, step), step, n - 1);
    }
  }

  /** k successive worker calls. */
  function Calls(b: Bridge, step: EvalFn, k: nat): (r: Bridge)
    ensures SameCapacities(b, r)
    decreases k
  {
    if k == 0 then b else Calls(RunTicks(b, step, CallTicks), step, k - 1)
  }

  /** Once finished, the model stays where it is. */
  lemma {:induction false} FinishedStays(b: Bridge, step: EvalFn, k: nat)
    requires b.top.finished
    ensures Calls(b, step, k) == b
    decreases k
  {
    if k > 0 {
      FinishedStays(b, step, k - 1);
    }
  }

  /** After k loopback steps from transmit contents out0, wires w0 and
      receive contents in0: the transmit side holds w0 followed by the first
      k - 1 received entries, the receive side has lost k entries, and the
      wires hold the last entry taken. */
  predicate LoopedBack<T(==)>(out0: seq<T>, w0: T, in0: seq<T>, k: nat, out: seq<T>, rest: seq<T>, w: T)
  {
    && k <= |in0|
    && out == out0 + ([w0] + in0)[..k]
    && rest == in0[k..]
    && (k > 0 ==> w == in0[k - 1])
  }

  /** What Loopback promises about k calls from b. */
  predicate LoopbackHolds(b: Bridge, step: EvalFn, k: nat)
  {
    var r := Calls(b, step, k);
    !r.top.finished ==>
      && r.time == b.time + 10 * k
      && LoopedBack(b.outCtrl.items, b.top.wires.inCtrl, b.inCtrl.items, k,
                    r.outCtrl.items, r.inCtrl.items, r.top.wires.inCtrl)
      && LoopedBack(b.outData.items, b.top.wires.inData, b.inData.items, k,
                    r.outData.items, r.inData.items, r.top.wires.inData)
  }

  /** Loopback through k calls after start-up: while the model runs, each
      call hands the wires to the transmit rings and then latches the next
      entry of the receive rings, so the transmit rings receive the wires as
      they were before the first call followed by the received entries in
      FIFO order, and the wires hold the last entry taken. */
  lemma {:induction false} Loopback(b: Bridge, step: EvalFn, k: nat)
    requires b.time % 10 == 1
    requires |b.inCtrl.items| >= k && |b.inData.items| >= k
    requires HasRoom(b.outCtrl, k) && HasRoom(b.outData, k)
    ensures LoopbackHolds(b, step, k)
    decreases k
  {
    if k == 0 {
      LoopbackZero(b, step);
    } else {
      var b1 := RunTicks(b, step, CallTicks);
      if b1.top.finished {
        FinishedStays(b1, step, k - 1);
        assert Calls(b, step, k) == b1;
      } else {
        NextCall(b, step, k);
        Loopback(b1, step, k - 1);
        LoopbackCall(b, step, k);
      }
    }
  }

  lemma LoopbackZero(b: Bridge, step: EvalFn)
    ensures LoopbackHolds(b, step, 0)
  {
    assert b.outCtrl.items + [] == b.outCtrl.items;
    assert b.outData.items + [] == b.outData.items;
    assert b.inCtrl.items[0..] == b.inCtrl.items;
    assert b.inData.items[0..] == b.inData.items;
  }

  /** An unfinished call in the steady phase leaves the next call in the
      steady phase, with one entry fewer to receive and one slot fewer to
      transmit into. */
  lemma NextCall(b: Bridge, step: EvalFn, k: nat)
    requires b.time % 10 == 1 && k > 0
    requires |b.inCtrl.items| >= k && |b.inData.items| >= k
    requires HasRoom(b.outCtrl, k) && HasRoom(b.outData, k)
    requires !RunTicks(b, step, CallTicks).top.finished
    ensures var b1 := RunTicks(b, step, CallTicks);
      && b1.time % 10 == 1
      && |b1.inCtrl.items| >= k - 1 && |b1.inData.items| >= k - 1
      && HasRoom(b1.outCtrl, k - 1) && HasRoom(b1.outData, k - 1)
  {
    SteadyRun(b, step);
    SteadyResidues(b.time);
  }

  /** The inductive step of Loopback. */
  lemma LoopbackCall(b: Bridge, step: EvalFn, k: nat)
    requires b.time % 10 == 1 && k > 0
    requires |b.inCtrl.items| >= k && |b.inData.items| >= k
    requires HasRoom(b.outCtrl, k) && HasRoom(b.outData, k)
    requires !RunTicks(b, step, CallTicks).top.finished
    requires LoopbackHolds(RunTicks(b, step, CallTicks), step, k - 1)
    ensures LoopbackHolds(b, step, k)
  {
    var b1 := RunTicks(b, step, CallTicks);
    var r := Calls(b, step, k);
    assert r == Calls(b1, step, k - 1);
    if !r.top.finished {
      SteadyRun(b, step);
      assert k == 1 ==> r == b1;
      LoopbackStep(b.outCtrl.items, b.top.wires.inCtrl, b.inCtrl.items, k,
                   r.outCtrl.items, r.inCtrl.items, r.top.wires.inCtrl);
      LoopbackStep(b.outData.items, b.top.wires.inData, b.inData.items, k,
                   r.outData.items, r.inData.items, r.top.wires.inData);
    }
  }

  /** One step of Loopback: a call appends w0 and latches in0's head. */
  lemma LoopbackStep<T>(out0: seq<T>, w0: T, in0: seq<T>, k: nat, out: seq<T>, rest: seq<T>, w: T)
    requires 0 < k <= |in0|
    requires LoopedBack(out0 + [w0], in0[0], in0[1..], k - 1, out, rest, w)
    requires k == 1 ==> w == in0[0]
    ensures LoopedBack(out0, w0, in0, k, out, rest, w)
  {
    assert [in0[0]] + in0[1..] == in0;
    assert in0[1..][k - 1..] == in0[k..];
  }
}

=== FILE: validate.dfy ===
/** validate_parameters of wrapper/main.cpp: the -p port mask and the
    --config table must name the same ports, and the receive and transmit
    lcores of every configured port must be enabled. A failed check ends
    the process (rte_exit); here it is the first failure found, in port
    order. Which lcores the EAL enabled is a parameter. */
module Validate {
  import opened Base
  import opened Config

  /** Bit i of the mask: portmask & (1 << i), for the 32 ports. */
  predicate MaskBit(mask: u32, i: nat)
    requires i < MaxEthPorts
  {
    (mask as bv32) & ((1 as bv32) << i) != 0
  }

  datatype Validation =
    | NoPortMask               // the mask is 0
    | Inconsistent(port: nat)  // mask bit and --config entry disagree
    | RxLcoreDisabled(port: nat)
    | TxLcoreDisabled(port: nat)
    | Validated

  /** The three checks on port i. */
  predicate Consistent(mask: u32, table: Table, i: nat)
    requires i < |table| && i < MaxEthPorts
  {
    MaskBit(mask, i) <==> table[i].Some?
  }

  predicate RxEnabled(table: Table, enabled: set<nat>, i: nat)
    requires i < |table|
  {
    table[i].Some? ==> table[i].value.ethRx in enabled
  }

  predicate TxEnabled(table: Table, enabled: set<nat>, i: nat)
    requires i < |table|
  {
    table[i].Some? ==> table[i].value.ethTx in enabled
  }

  predicate PortOk(mask: u32, table: Table, enabled: set<nat>, i: nat)
    requires i < |table| && i < MaxEthPorts
  {
    Consistent(mask, table, i) && RxEnabled(table, enabled, i) && TxEnabled(table, enabled, i)
  }

  /** The loop from port i on. */
  function ValidateFrom(mask: u32, table: Table, enabled: set<nat>, i: nat): (r: Validation)
    requires |table| == MaxEthPorts && i <= MaxEthPorts
    ensures r != NoPortMask
    ensures r == Validated <==> forall j :: i <= j < MaxEthPorts ==> PortOk(mask, table, enabled, j)
    ensures r.Inconsistent? ==> i <= r.port < MaxEthPorts && !Consistent(mask, table, r.port)
    ensures r.RxLcoreDisabled? ==>
      i <= r.port < MaxEthPorts && Consistent(mask, table, r.port) && !RxEnabled(table, enabled, r.port)
    ensures r.TxLcoreDisabled? ==>
      && i <= r.port < MaxEthPorts && Consistent(mask, table, r.port)
      && RxEnabled(table, enabled, r.port) && !TxEnabled(table, enabled, r.port)
    ensures !r.Validated? ==> forall j :: i <= j < r.port ==> PortOk(mask, table, enabled, j)
    decreases MaxEthPorts - i
  {
    if i == MaxEthPorts then Validated
    else if !PortOk(mask, table, enabled, i) then
      if !Consistent(mask, table, i) then Inconsistent(i)
      else if !RxEnabled(table, enabled, i) then RxLcoreDisabled(i)
      else TxLcoreDisabled(i)
    else ValidateFrom(mask, table, enabled, i + 1)
  }

  /** validate_parameters: a zero mask first, then the ports in order; a
      failure names the first port that fails a check, and the check. */
  function ValidateParameters(mask: u32, table: Table, enabled: set<nat>): (r: Validation)
    requires |table| == MaxEthPorts
    ensures r.NoPortMask? <==> mask == 0
    ensures r.Inconsistent? || r.RxLcoreDisabled? || r.TxLcoreDisabled? ==>
      && r.port < MaxEthPorts && !PortOk(mask, table, enabled, r.port)
      && forall j :: 0 <= j < r.port ==> PortOk(mask, table, enabled, j)
  {
    if mask == 0 then NoPortMask else ValidateFrom(mask, table, enabled, 0)
  }

  /** What validation accepts, stated directly: a non-zero mask whose set
      bits are exactly the configured ports, each with both Ethernet lcores
      enabled. */
  predicate Acceptable(mask: u32, table: Table, enabled: set<nat>)
    requires |table| == MaxEthPorts
  {
    && mask != 0
    && (forall i :: 0 <= i < MaxEthPorts ==> (MaskBit(mask, i) <==> table[i].Some?))
    && (forall i :: 0 <= i < MaxEthPorts && table[i].Some? ==>
          table[i].value.ethRx in enabled && table[i].value.ethTx in enabled)
  }

  /** validate_parameters returns 0 exactly on acceptable parameters. */
  lemma ValidateIff(mask: u32, table: Table, enabled: set<nat>)
    requires |table| == MaxEthPorts
    ensures ValidateParameters(mask, table, enabled) == Validated <==> Acceptable(mask, table, enabled)
  {
    if mask != 0 && ValidateParameters(mask, table, enabled) == Validated {
      forall i | 0 <= i < MaxEthPorts
        ensures (MaskBit(mask, i) <==> table[i].Some?)
        ensures table[i].Some? ==> table[i].value.ethRx in enabled && table[i].value.ethTx in enabled
      {
        assert PortOk(mask, table, enabled, i);
      }
    }
    if Acceptable(mask, table, enabled) {
      forall j | 0 <= j < MaxEthPorts
        ensures PortOk(mask, table, enabled, j)
      {
      }
    }
  }
}

=== FILE: worker.dfy ===
/** The control part of wrapper/main.cpp around the workers: which job an
    lcore takes (main_loop), how a worker reacts to the stop and pause
    counters, the signal handler, and the two KNI callbacks that raise the
    pause counter while they reconfigure a port.

    The counters are plain values here and one worker step is taken at a
    time; what the DPDK calls return is a parameter. */
module Worker {
  import opened Base
  import opened Config
  import opened Kni

  // ------------------------------------------------------------ role choice

  /** The jobs of enum lcore_rxtx other than LCORE_NONE. */
  datatype Kind = EthRx | EthTx | KniRx | KniTx | EthXgmiiTx | EthXgmiiRx | KniXgmiiTx | KniXgmiiRx | Vtop

  /** What main_loop decides for an lcore: nothing to do, or one job for
      the port whose entry named the lcore. */
  datatype Role = Idle | Serve(kind: Kind, port: nat)

  /** The lcore fields of an entry in the order main_loop compares them
      (the XGMII transmit field before the receive one), and the job each
      one selects. */
  function Lcores(p: PortParams): (ls: seq<nat>)
    ensures |ls| == |Kinds|
  {
    [p.ethRx, p.ethTx, p.kniRx, p.kniTx, p.ethMiiTx, p.ethMiiRx, p.kniMiiTx, p.kniMiiRx, p.vtop]
  }

  const Kinds: seq<Kind> := [EthRx, EthTx, KniRx, KniTx, EthXgmiiTx, EthXgmiiRx, KniXgmiiTx, KniXgmiiRx, Vtop]

  /** Where a job's field sits in the comparison order. */
  function Position(k: Kind): (j: nat)
    ensures j < |Kinds| && Kinds[j] == k
  {
    match k
    case EthRx => 0
    case EthTx => 1
    case KniRx => 2
    case KniTx => 3
    case EthXgmiiTx => 4
    case EthXgmiiRx => 5
    case KniXgmiiTx => 6
    case KniXgmiiRx => 7
    case Vtop => 8
  }

  /** The lcore id as the entries store it: (uint8_t)lcore_id. */
  function LcoreByte(lcore: nat): nat
  {
    lcore % LcoreIdModulus
  }

  /** The else-if chain of main_loop for one entry: the job of the first
      field equal to the lcore's id, if any. */
  function Match(p: PortParams, lcore: nat): (k: Option<Kind>)
    ensures k.None? ==> forall j :: 0 <= j < |Kinds| ==> Lcores(p)[j] != LcoreByte(lcore)
    ensures k.Some? ==> Lcores(p)[Position(k.value)] == LcoreByte(lcore)
    ensures k.Some? ==> forall i :: 0 <= i < Position(k.value) ==> Lcores(p)[i] != LcoreByte(lcore)
  {
    var id := LcoreByte(lcore);
    if p.ethRx == id then Some(EthRx)
    else if p.ethTx == id then Some(EthTx)
    else if p.kniRx == id then Some(KniRx)
    else if p.kniTx == id then Some(KniTx)
    else if p.ethMiiTx == id then Some(EthXgmiiTx)
    else if p.ethMiiRx == id then Some(EthXgmiiRx)
    else if p.kniMiiTx == id then Some(KniXgmiiTx)
    else if p.kniMiiRx == id then Some(KniXgmiiRx)
    else if p.vtop == id then Some(Vtop)
    else None
  }

  /** The match for one port; a port without an entry matches nothing. */
  function PortMatch(table: Table, port: nat, lcore: nat): Option<Kind>
    requires port < |table|
  {
    if table[port].None? then None else Match(table[port].value, lcore)
  }

  /** The role loop of main_loop over the ports RTE_ETH_FOREACH_DEV yields
      (devices, in order): the first port with any match decides. */
  method SelectRole(table: Table, devices: seq<nat>, lcore: nat) returns (role: Role)
    requires forall k :: 0 <= k < |devices| ==> devices[k] < |table|
    ensures role.Idle? <==> forall k :: 0 <= k < |devices| ==> PortMatch(table, devices[k], lcore).None?
    ensures role.Serve? ==> exists k :: (
      && 0 <= k < |devices| && devices[k] == role.port
      && PortMatch(table, devices[k], lcore) == Some(role.kind)
      && forall j :: 0 <= j < k ==> PortMatch(table, devices[j], lcore).None?)
  {
    var k := 0;
    while k < |devices|
      invariant 0 <= k <= |devices|
      invariant forall j :: 0 <= j < k ==> PortMatch(table, devices[j], lcore).None?
    {
      var m := PortMatch(table, devices[k], lcore);
      if m.Some? {
        return Serve(m.value, devices[k]);
      }
      k := k + 1;
    }
    return Idle;
  }

  /** The same choice as a recursive definition over the device list. */
  function RoleOf(table: Table, devices: seq<nat>, lcore: nat): Role
    requires forall k :: 0 <= k < |devices| ==> devices[k] < |table|
    decreases |devices|
  {
    if devices == [] then Idle
    else match PortMatch(table, devices[0], lcore)
      case Some(kind) => Serve(kind, devices[0])
      case None => RoleOf(table, devices[1..], lcore)
  }

  /** The recursive choice picks the first matching port, as SelectRole. */
  lemma {:induction false} RoleOfIsFirstMatch(table: Table, devices: seq<nat>, lcore: nat, k: nat)
    requires forall i :: 0 <= i < |devices| ==> devices[i] < |table|
    requires k <= |devices| && forall j :: 0 <= j < k ==> PortMatch(table, devices[j], lcore).None?
    ensures k == |devices| ==> RoleOf(table, devices, lcore) == Idle
    ensures k < |devices| && PortMatch(table, devices[k], lcore).Some? ==>
      RoleOf(table, devices, lcore) == Serve(PortMatch(table, devices[k], lcore).value, devices[k])
    decreases k
  {
    if k > 0 {
      RoleOfIsFirstMatch(table, devices[1..], lcore, k - 1);
    }
  }

  // ----------------------------------------------------------- worker steps

  /** What a worker does after loading the two counters: stop is tested
      before pause. */
  datatype Action = Exit | Spin | Work

  function WorkerAction(stop: u32, pause: u32): (a: Action)
  {
    if stop != 0 then Exit else if pause != 0 then Spin else Work
  }

  /** A worker with a job, run against the counter values it loads, one
      pair per iteration: how many iterations it took, and how many of them
      did the job. The loop ends at the first non-zero stop it sees. */
  method RunWorker(loads: seq<(u32, u32)>) returns (steps: nat, works: nat, exited: bool)
    ensures steps <= |loads|
    ensures exited <==> exists k :: 0 <= k < |loads| && loads[k].0 != 0
    ensures exited ==> steps >= 1 && loads[steps - 1].0 != 0 && forall k :: 0 <= k < steps - 1 ==> loads[k].0 == 0
    ensures !exited ==> steps == |loads|
    ensures works == Working(loads[..steps])
  {
    steps, works, exited := 0, 0, false;
    while steps < |loads|
      invariant steps <= |loads| && forall k :: 0 <= k < steps ==> loads[k].0 == 0
      invariant works == Working(loads[..steps])
    {
      var a := WorkerAction(loads[steps].0, loads[steps].1);
      WorkingAppend(loads[..steps], loads[steps]);
      assert loads[..steps + 1] == loads[..steps] + [loads[steps]];
      if a == Exit {
        return steps + 1, works, true;
      }
      if a == Work {
        works := works + 1;
      }
      steps := steps + 1;
    }
  }

  /** The number of loads on which a worker does its job. */
  function Working(loads: seq<(u32, u32)>): nat
    decreases |loads|
  {
    if loads == [] then 0
    else Working(loads[..|loads| - 1]) + (if WorkerAction(loads[|loads| - 1].0, loads[|loads| - 1].1) == Work then 1 else 0)
  }

  lemma WorkingAppend(loads: seq<(u32, u32)>, l: (u32, u32))
    ensures Working(loads + [l]) == Working(loads) + (if WorkerAction(l.0, l.1) == Work then 1 else 0)
  {
    assert (loads + [l])[..|loads|] == loads;
  }

  /** While any pause is held, a running worker does no work. */
  lemma {:induction false} PausedWorkersIdle(loads: seq<(u32, u32)>)
    requires forall k :: 0 <= k < |loads| ==> loads[k].1 != 0
    ensures Working(loads) == 0
    decreases |loads|
  {
    if loads != [] {
      PausedWorkersIdle(loads[..|loads| - 1]);
    }
  }

  // --------------------------------------------------------- signal handler

  datatype Signal = Usr1 | Usr2 | RtMin | Int | Term | Other(signum: int)

  /** The state the handler touches: the stop counter and the stats table. */
  datatype Control = Control(stop: u32, stats: StatsTable)

  const ZeroStats: KniStats := KniStats(0, 0, 0, 0, 0, 0, 0, 0)

  /** signal_handler: SIGUSR1 only prints, SIGUSR2 clears every port's
      statistics, SIGRTMIN, SIGINT and SIGTERM add one to the stop counter,
      anything else is ignored. */
  function SignalHandler(c: Control, s: Signal): (r: Control)
    ensures |r.stats| == |c.stats|
    ensures s.Usr2? ==> r.stop == c.stop && forall q :: 0 <= q < |r.stats| ==> r.stats[q] == ZeroStats
    ensures !s.Usr2? ==> r.stats == c.stats
    ensures s.RtMin? || s.Int? || s.Term? ==> (r.stop + U32Modulus - c.stop) % U32Modulus == 1
    ensures s.Usr1? || s.Other? ==> r == c
  {
    match s
    case Usr2 => Control(c.stop, seq(|c.stats|, _ => ZeroStats))
    case RtMin => c.(stop := Inc32(c.stop))
    case Int => c.(stop := Inc32(c.stop))
    case Term => c.(stop := Inc32(c.stop))
    case _ => c
  }

  /** A stop signal before any other makes every worker exit at its next
      load. */
  lemma StopSignalStopsWorkers(stats: StatsTable, s: Signal, pause: u32)
    requires s.RtMin? || s.Int? || s.Term?
    ensures WorkerAction(SignalHandler(Control(0, stats), s).stop, pause) == Exit
  {
  }

  /** After a reset, counting traffic starts from zero. */
  lemma ResetThenCount(c: Control, q: nat, egress: bool, n: nat, d: nat)
    requires q < |c.stats| && n < U64Modulus && d < U64Modulus
    ensures var r := Count(SignalHandler(c, Usr2).stats[q], egress, n, d);
      if egress then r.kniRxPackets == n && r.kniRxDropped == d && r.kniTxPackets == 0
      else r.kniTxPackets == n && r.kniTxDropped == d && r.kniRxPackets == 0
  {
  }

  // --------------------------------------------------------- KNI callbacks

  const EInval: int := 22

  /** What a callback returns and the pause counter afterwards, with the
      pause value in force while the port was reconfigured (None when the
      callback did not touch the port). */
  datatype Callback = Callback(ret: int, pause: u32, pausedAt: Option<u32>)

  /** kni_change_mtu: the reconfiguration (kni_change_mtu_, whose result is
      inner) runs with the pause counter raised by one. */
  function KniChangeMtu(pause: u32, inner: int): (r: Callback)
    ensures r.ret == inner && r.pause == pause
    ensures r.pausedAt.Some? && r.pausedAt.value != pause
  {
    var raised := Inc32(pause);
    Callback(inner, Dec32(raised), Some(raised))
  }

  /** kni_config_network_interface: an invalid port is refused with
      -EINVAL; otherwise the port is stopped (stopRet) and, for if_up, started
      again (startRet) with the pause counter raised, and the first failure
      is returned. */
  function KniConfigNetworkInterface(pause: u32, valid: bool, ifUp: bool, stopRet: int, startRet: int): (r: Callback)
    ensures r.pause == pause
    ensures !valid <==> r.pausedAt.None?
    ensures !valid ==> r.ret == -EInval
    ensures valid ==> r.pausedAt.value != pause
    ensures valid && stopRet != 0 ==> r.ret == stopRet
    ensures valid && stopRet == 0 ==> r.ret == (if ifUp then startRet else 0)
  {
    if !valid then Callback(-EInval, pause, None)
    else
      var raised := Inc32(pause);
      var ret := if stopRet != 0 then stopRet else if ifUp then startRet else 0;
      Callback(ret, Dec32(raised), Some(raised))
  }

  /** The requests the kernel sends through the two callbacks. */
  datatype Request =
    | ChangeMtu(inner: int)
    | ConfigInterface(valid: bool, ifUp: bool, stopRet: int, startRet: int)

  function Handle(pause: u32, q: Request): Callback
  {
    match q
    case ChangeMtu(inner) => KniChangeMtu(pause, inner)
    case ConfigInterface(valid, ifUp, stopRet, startRet) => KniConfigNetworkInterface(pause, valid, ifUp, stopRet, startRet)
  }

  /** The pause counter after serving requests one after another. */
  function PauseAfter(pause: u32, qs: seq<Request>): u32
    decreases |qs|
  {
    if qs == [] then pause else PauseAfter(Handle(pause, qs[0]).pause, qs[1..])
  }

  /** Callbacks never leave the pause counter raised: after any sequence of
      requests it is back at its starting value, so the workers resume. */
  lemma {:induction false} CallbacksBalanced(pause: u32, qs: seq<Request>)
    ensures PauseAfter(pause, qs) == pause
    decreases |qs|
  {
    if qs != [] {
      CallbacksBalanced(Handle(pause, qs[0]).pause, qs[1..]);
    }
  }

  /** From an idle pause counter, a callback that touches the port holds the
      workers back while it runs. */
  lemma CallbackPausesWorkers(q: Request)
    requires q.ConfigInterface? ==> q.valid
    ensures Handle(0, q).pausedAt.Some? && WorkerAction(0, Handle(0, q).pausedAt.value) == Spin
  {
  }
}
